=== FILE: README.md ===
# Warehouse analytics core, modelled in Dafny

This project models the computational core of the warehouse web client's
`app/static/js/inventory.js`. It has three parts.

- **Sale pricing and form checks.** Pricing walks a product's purchase lots oldest
  first (FIFO). The checks around it are:
  - the product picker of the sale form;
  - the sale submit check;
  - the write-off total;
  - the purchase submit check.
- **The analytics page data.** `fetchAnalyticsData` does the following:
  - filters sales to an inclusive day range;
  - joins each sale with its lot, product and category;
  - rolls the sales up per day, per category and per product;
  - computes the KPI cards;
  - runs the ABC partition by cumulative profit share;
  - builds three top-ten lists.
- **The financial reports.** `fetchRevenueData` and `fetchExpensesData` summarise
  the revenue and the expenses per day, and `aggregateFinancialData` merges the two
  series and aggregates them by period.
- **The revenue forecast.** Its steps are:
  - gap filling to every calendar day;
  - interquartile outlier cleaning;
  - decomposition into an edge-padded moving-average trend, a zero-sum weekly season and residuals with their autocorrelation;
  - a least-squares trend slope and a day-of-week effect;
  - a 90-day forecast with a widening confidence band;
  - the recommendation's growth band and best and worst weekday.

Modelling choices:

- **Types.**
  - Money and statistics are `real`.
  - Unit counts are `int`.
  - Timestamps are integer seconds.
  - A calendar day is an integer day index, and the date prefix of a timestamp is its day.
- **Inputs instead of environment.**
  - The weekday of a day is an input function `weekdayOf` (0 is Sunday).
  - The `Math.random()` draws of the forecast are an input sequence, one draw per forecast day.
  - The data the page fetches (transactions, lots by purchase id, products, categories) are parameters.
- **Dictionaries.** A JavaScript object used as a dictionary is a `Dict`: its keys in insertion order together with a map.
- **Imperative code.** Loops that build arrays or update dictionaries are methods with loop invariants. A method that builds an array or a value is proved equal to a specification function, and the properties are lemmas about that function. A method that fills a dictionary (`GroupByDay`, `RollupCategories`, `SumProducts`, `RollupProducts`, `AggregateByPeriod`) is described by a predicate instead (`Groups`, `CategoryRollup`, `ProductSums`, `ProductRollup`). The predicate fixes every entry and, except for the product dictionary, the key order: keys are listed in the order their first element occurs, as `d[k] = …` inserts them (`Grouping.FirstKeys`).
- **Growth rate.** The growth rate of the recommendation is `trendSlope * 30 / mean(recorded actual values) * 100` (inventory.js:4349), and the model computes it the same way (`Recommendations.GrowthRate`).
- **Division by zero.** Divisions the source leaves unguarded are preconditions:
  - the moving-average window needs at least four days of history;
  - the short-history slope divides by `n - 1`;
  - the ABC shares divide by total profit;
  - the per-sale margin divides by the selling price.

  The growth-rate division is modelled with IEEE infinities and NaN instead, because the recommendation text is shown whatever the rate is.

## Model

| member | source | states |
|---|---|---|
| Fifo.InStock | app/static/js/inventory.js:1410-1411 | exactly the lots with `current_count > 0` are kept, in order |
| Fifo.FifoOrder | app/static/js/inventory.js:1410-1412 | a permutation of the in-stock lots, sorted by purchase time (ties keep their order) |
| Fifo.Allocate | app/static/js/inventory.js:1414-1429 | the loop leaves the units still wanted and the price of the units taken, each lot giving `min(current_count, remaining)` while units are wanted |
| Fifo.UpdateSaleTotal | app/static/js/inventory.js:1396-1437 | a request ≤ 0 shows 0.00; a positive request shows a shortfall exactly when it exceeds the stock in hand, and the shortfall is request − stock; otherwise it shows the FIFO price |
| Fifo.NothingMoreTaken | app/static/js/inventory.js:1418-1419 | once nothing is wanted, later lots change neither the remainder nor the price (the `break`) |
| Fifo.TakenPlusRemaining | app/static/js/inventory.js:1421-1428 | units taken plus units still wanted equal the request after every lot |
| Fifo.RemainingIsShortfall | app/static/js/inventory.js:1414-1429 | after `i` lots the units still wanted are `max(0, request − stock of those lots)` |
| Fifo.UnitsTaken | app/static/js/inventory.js:1414-1429 | conservation: units taken = `min(request, Σ current_count)` |
| Fifo.OlderLotsExhaustedFirst | app/static/js/inventory.js:1410-1429 | a newer lot gives units only after every older lot is emptied |
| Fifo.RemainingNonIncreasing | app/static/js/inventory.js:1421-1428 | the units still wanted never grow along the lots |
| Fifo.TakenWithinLot | app/static/js/inventory.js:1421 | no lot gives a negative amount or more than it holds |
| Fifo.QuoteShortfall | app/static/js/inventory.js:1432-1435 | the units left after all lots are `max(0, request − stock in hand)` |
| Fifo.QuoteOutcome | app/static/js/inventory.js:1396-1437 | the three outcomes (zero, shortfall of exactly the missing units, price), each with its exact condition |
| Fifo.QuoteTakesRequested | app/static/js/inventory.js:1432-1437 | a priced quote took exactly the requested units |
| Fifo.SaleOptionFor | app/static/js/inventory.js:1294-1316 | a product is offered iff its lots hold stock; the entry carries the total and the oldest lot with positive stock, the first listed among lots bought at that same moment |
| Fifo.OldestFirstOfTies | app/static/js/inventory.js:1308-1313 | the stable sort puts first, among in-stock lots with the oldest timestamp, the one listed first |
| Fifo.OldestFirst | app/static/js/inventory.js:1308-1313 | the first lot of the FIFO order is in stock and no in-stock lot is older |
| Fifo.SaveSale | app/static/js/inventory.js:1482-1490 | a sale is accepted iff a lot was picked and 0 < quantity ≤ available; no product, no lot with stock, a quantity ≤ 0 and a quantity above the available stock each give their own rejection, in that order |
| Fifo.AcceptedSaleIsPriced | app/static/js/inventory.js:1294-1316 | with no negative counts, a quantity the sale form accepts is priced, never reported as short |
| Fifo.InStockCarriesAllStock | app/static/js/inventory.js:1294 | with no negative counts, the picker's total equals the stock in the lots with positive stock |
| Fifo.WriteoffTotal | app/static/js/inventory.js:1796-1802 | an error carrying the lot's count iff the quantity exceeds it; otherwise quantity × purchase price |
| Fifo.WriteoffWithinLotValue | app/static/js/inventory.js:1796-1802 | an accepted write-off of a non-negative quantity costs between 0 and the lot's whole count at the purchase price |
| Fifo.CheckPurchase | app/static/js/inventory.js:1188-1206 | accepted iff a product and a warehouse were chosen, price > 0 and quantity > 0 (an unparsable field is `None`); the product, price, quantity and warehouse are checked in that order, each with its own rejection |
| Analytics.FilterByDateRange | app/static/js/inventory.js:4463-4474 | exactly the transactions within the range are kept, and no more than were given |
| Analytics.FilterByDateRangeAppend | app/static/js/inventory.js:4464-4467 | `filter` works element by element: a concatenation is filtered part by part, keeping the input order |
| Analytics.FilterByDateRangeSingle | app/static/js/inventory.js:4464-4467 | a single transaction is kept, once, exactly when it lies in the range |
| Analytics.InRangeIsDayRange | app/static/js/inventory.js:4465-4467 | a timestamp is in range iff its day lies in `[startDay, endDay]` (the end day taken through 23:59:59) |
| Analytics.FindProduct | app/static/js/inventory.js:4483 | `None` iff no product has the id; otherwise the first product with it |
| Analytics.FindCategory | app/static/js/inventory.js:4484 | `None` iff no category has the id; otherwise the first category with it |
| Analytics.EnrichSaleConsistent | app/static/js/inventory.js:4486-4495 | a joined sale has revenue − cost = profit, and the margin is profit per unit over the selling price × 100 |
| Analytics.EnrichAllJoins | app/static/js/inventory.js:4480-4498 | each joined record is consistent and comes from a sale whose lot was found; every such sale is joined |
| Analytics.EnrichSales | app/static/js/inventory.js:4480-4498 | the loop yields the join of the sales in order, skipping sales whose lot lookup fails |
| Grouping.FirstKeysSnoc | app/static/js/inventory.js:4515 | one more element appends its key to the key order exactly when the key has not occurred yet |
| Grouping.FirstKeysNoDup | app/static/js/inventory.js:4515 | the first-occurrence key order lists each key once |
| Grouping.PutFirstKeys | app/static/js/inventory.js:4515-4519 | writing the entry of one more element's key keeps the dictionary's keys in first-occurrence order |
| Analytics.GroupByDay | app/static/js/inventory.js:4512-4522 | each of the three per-day dictionaries maps every sale day to the sum of that day's figures, with the days listed in the order they first occur; they share their keys, and their totals are the totals over the sales |
| Analytics.GroupBalance | app/static/js/inventory.js:4517-4521 | per key, grouped revenue − grouped cost = grouped profit |
| Analytics.DailyBalance | app/static/js/inventory.js:4512-4522 | on every day `revenueByDay − expensesByDay = profitByDay` |
| Analytics.RollupCategories | app/static/js/inventory.js:4525-4540 | one entry per category name (with the fallback name), listed in the order the names first occur (what `Object.keys` gives the category chart), holding that name's revenue, profit and units |
| Analytics.CategoryRollupStep | app/static/js/inventory.js:4528-4539 | adding one sale to its category's entry (a new entry starting at zero) turns the rollup of a prefix into the rollup of the prefix with that sale |
| Analytics.CategoryEntriesStep | app/static/js/inventory.js:4528-4539 | after one more sale, the names present are exactly those of the extended sales, each holding the sums over them |
| Analytics.RollupProducts | app/static/js/inventory.js:4543-4563 | one entry per product id other than 0, holding the first name seen and the summed revenue, profit and units, with the guarded margin |
| Analytics.SumProducts | app/static/js/inventory.js:4543-4560 | the accumulation loop: one entry per product id other than 0, with the first name seen and the summed revenue, profit and units |
| Analytics.ProductSumStep | app/static/js/inventory.js:4544-4559 | adding one sale (skipped without a product; a new entry starts at zero with the sale's product name) turns the sums of a prefix into the sums of the prefix with that sale |
| Analytics.SetMargins | app/static/js/inventory.js:4565-4567 | every product gets its margin, and nothing else changes |
| Analytics.ProductMargin | app/static/js/inventory.js:4566 | margin × revenue = profit × 100 when revenue > 0, else 0 |
| Analytics.ProductBalance | app/static/js/inventory.js:4543-4563 | a product's revenue less the cost of its sales is its profit |
| Analytics.ProductList | app/static/js/inventory.js:4570 | `Object.values`: every product once, in ascending id order |
| Analytics.Kpis | app/static/js/inventory.js:4500-4504 | revenue, cost and profit totals are sums over the joined sales; the average margin times the number of sales is the sum of the margins; average check and stock turnover are the guarded quotients |
| Analytics.KpiBalance | app/static/js/inventory.js:4500-4502 | total profit = total revenue − total cost |
| Analytics.AverageMarginBounds | app/static/js/inventory.js:4503-4504 | the average margin lies within any bounds of the per-sale margins |
| Ranking.CalculateAbcAnalysis | app/static/js/inventory.js:3598-3644 | the loop builds exactly the partition `Abc` of the products in descending profit order |
| Ranking.Distribute | app/static/js/inventory.js:3613-3641 | each group's products, profit, count and share are those of the members with cumulative share ≤ 70, ≤ 90 and beyond |
| Ranking.MembersPartition | app/static/js/inventory.js:3615-3632 | the three groups together hold every product exactly once |
| Ranking.MembersProfit | app/static/js/inventory.js:3615-3632 | the group profits add up to the total profit |
| Ranking.AbcPartition | app/static/js/inventory.js:3598-3644 | A.count + B.count + C.count = number of products; the group profits sum to the total; the group shares sum to 100 |
| Ranking.LaterRunsEmpty | app/static/js/inventory.js:3615-3632 | before the last product, the groups after the last product's group are empty |
| Ranking.GroupsAreRuns | app/static/js/inventory.js:3615-3632 | for non-negative profits the order is A's members, then B's, then C's |
| Ranking.NoMembersAbove | app/static/js/inventory.js:3619-3631 | for non-negative profits, while the cumulative share stays within a group's bound no later group receives a product |
| Ranking.Take10 | app/static/js/inventory.js:4575 | `slice(0, 10)`: the first min(10, n) products |
| Ranking.Sold | app/static/js/inventory.js:4583 | exactly the products with quantity > 0 |
| Ranking.SoldAppend | app/static/js/inventory.js:4583 | `filter` works element by element: a concatenation is filtered part by part, keeping the input order |
| Ranking.SoldSingle | app/static/js/inventory.js:4583 | a single product is kept, once, exactly when its quantity is > 0 |
| Ranking.SoldSubMultiset | app/static/js/inventory.js:4583 | the filtered products are drawn from the input, none more often than there |
| Ranking.SoldWithKey | app/static/js/inventory.js:4581-4583 | filtering by quantity and picking out the products of one key commute |
| Ranking.SoldSortLength | app/static/js/inventory.js:4581-4583 | sorting does not change how many products have units sold |
| Ranking.SoldSorted | app/static/js/inventory.js:4581-4583 | filtering a sorted list keeps it sorted |
| Ranking.TopKeepsTieOrder | app/static/js/inventory.js:4573-4579 | of the products with one figure, the list holds the first ones in input order (the sort is stable) |
| Ranking.TopIsClosed | app/static/js/inventory.js:4573-4579 | no product left out has a better figure than one taken in |
| Ranking.TopOfSorted | app/static/js/inventory.js:4573-4584 | min(10, n) products from the input, sorted, no product left out beats one taken in, and equal figures keep their input order |
| Ranking.TopByProfitIsTop | app/static/js/inventory.js:4573-4575 | min(10, n) products in non-increasing profit, none left out more profitable than one taken in; products of equal profit are the first ones of that profit, in input order |
| Ranking.TopBySalesIsTop | app/static/js/inventory.js:4577-4579 | min(10, n) products in non-increasing revenue, none left out with more revenue than one taken in; products of equal revenue are the first ones of that revenue, in input order |
| Ranking.MarginTopKeepsTieOrder | app/static/js/inventory.js:4581-4584 | of the sold products with one margin, the list holds the first ones in input order |
| Ranking.TopByMarginIsTop | app/static/js/inventory.js:4581-4584 | min(10, number sold) products, each with quantity > 0, in non-increasing margin; sold products of equal margin are the first ones of that margin, in input order |
| Ranking.TopByMarginClosed | app/static/js/inventory.js:4581-4584 | a sold product with a higher margin than one in the list is in the list too |
| Financial.BestIndex | app/static/js/inventory.js:2165-2166 | the strict-`>` reduce yields the LAST position of the maximum |
| Financial.Summarize | app/static/js/inventory.js:2159-2169 | the days ascending with their values, no best day iff no days, and the guarded average |
| Financial.PerDay | app/static/js/inventory.js:2167-2168 | average × days = total, or 0 without days |
| Financial.SummaryTotal | app/static/js/inventory.js:2164 | the total is the sum of the shown values |
| Financial.LastMaximumByDate | app/static/js/inventory.js:2165-2166 | over ascending days, the kept index holds the largest value and every later day a strictly smaller one |
| Financial.BestDayIsLastMaximum | app/static/js/inventory.js:2165-2166 | the best day (also the highest-expense day at 2225-2226) holds the largest value, and every later day is strictly smaller |
| Financial.AverageBetweenExtremes | app/static/js/inventory.js:2167-2168 | the average lies between the smallest and largest daily value |
| Financial.MergeSeries | app/static/js/inventory.js:3656-3660 | the union of both key sets ascending, a missing value read as 0 |
| Financial.MergeConserves | app/static/js/inventory.js:3656-3660 | the merged series keep both totals |
| Financial.AggregateByPeriod | app/static/js/inventory.js:3729-3754 | each period key maps to the sum of its days' values, with the periods listed in the order they first occur, and the total is conserved |
| Financial.AggregateFinancialData | app/static/js/inventory.js:3647-3686 | the day view is the merged series; the week and month views hold exactly the periods of either series' days, each with the sum of its days' revenue and expenses (0 where a series has none); every view keeps both totals and ascending keys |
| Financial.GroupedValue | app/static/js/inventory.js:3666-3684 | a rolled-up period is present iff one of its days is, and holds the sum of its days' values, or 0 |
| Fill.IndexOf | app/static/js/inventory.js:3849 | `indexOf`: -1 iff absent, else the first position of the value |
| Fill.FillMissingDates | app/static/js/inventory.js:3835-3880 | ≤ 1 date: unchanged; otherwise one entry per calendar day from first to last, in order, each with its filled value |
| Fill.KnownDaysKept | app/static/js/inventory.js:3849-3851 | a recorded day lies in the range and keeps its value |
| Fill.FillWithinRange | app/static/js/inventory.js:3853-3875 | every filled value lies between the smallest and largest recorded value |
| Fill.GapBetweenTwoDays | app/static/js/inventory.js:3865-3866 | a one-day gap between 100 and 200 gets 150 |
| Fill.DistantGapGetsMean | app/static/js/inventory.js:3871-3874 | a gap day with no recorded neighbour day gets the mean of all values, not the nearest one |
| Outliers.Ascending | app/static/js/inventory.js:3890 | a sorted permutation of the values |
| Outliers.FencesOf | app/static/js/inventory.js:3890-3899 | q1 and q3 are input values at positions ⌊n/4⌋ and ⌊3n/4⌋ of the sorted values; the fences lie 1.5·iqr beyond them |
| Outliers.SurroundingFrom | app/static/js/inventory.js:3906-3909 | every gathered value is in the fences and comes from another position in the window |
| Outliers.ReplacementInFence | app/static/js/inventory.js:3912-3920 | a replacement lies within the fences; it is a fence or a value at most three positions away |
| Outliers.CollectSurrounding | app/static/js/inventory.js:3905-3910 | the inner loop gathers the in-fence values at most three positions away, in order |
| Outliers.ReplaceOutlier | app/static/js/inventory.js:3912-3920 | the upper median of the gathered values, or the fence crossed |
| Outliers.CleanInPlace | app/static/js/inventory.js:3902-3922 | after the loop each array cell holds the cleaned value of its position |
| Outliers.DetectAndHandleOutliers | app/static/js/inventory.js:3885-3925 | length is kept, and every position holds its cleaned value (the series `Cleaned`) |
| Outliers.CleanedWithinFences | app/static/js/inventory.js:3902-3922 | every cleaned value is within the fences; in-fence values are unchanged |
| Outliers.QuietSeriesUnchanged | app/static/js/inventory.js:3898-3903 | a series lying between its quartiles is left unchanged |
| Outliers.UniformNeighbourhood | app/static/js/inventory.js:3912-3916 | an outlier whose neighbours all hold one in-fence value takes that value |
| Outliers.SurroundingHas | app/static/js/inventory.js:3906-3909 | every in-fence neighbour in the window is gathered |
| Decomposition.Pad | app/static/js/inventory.js:3968-3982 | `half` copies of the first value, the values, then `half` copies of the last |
| Decomposition.CalculateMovingAverage | app/static/js/inventory.js:3964-3994 | the result has n entries, each the mean of `window` consecutive padded values |
| Decomposition.MovingAverageBounds | app/static/js/inventory.js:3985-3991 | each trend value lies between the series' minimum and maximum |
| Decomposition.WindowAverageBounds | app/static/js/inventory.js:3985-3991 | a window average lies within any bounds of the values |
| Decomposition.WindowSumBounds | app/static/js/inventory.js:3986-3989 | a window sum of k padded values lies between k·lo and k·hi |
| Decomposition.DetectSeasonality | app/static/js/inventory.js:3999-4028 | the pattern has `period` entries |
| Decomposition.SeasonalPatternBalanced | app/static/js/inventory.js:4023-4025 | the normalised pattern sums to 0 and keeps the differences between positions |
| Decomposition.NoDeviationNoSeason | app/static/js/inventory.js:4001-4021 | a series equal to its trend has an all-zero season |
| Decomposition.CalculateAutocorrelation | app/static/js/inventory.js:4033-4060 | maxLag + 1 entries, each the autocorrelation at its lag (`None` for NaN) |
| Decomposition.LagNumerator | app/static/js/inventory.js:4048-4051 | the inner loop sums the first `n − lag` lagged products `(v[i] − mean)(v[i + lag] − mean)` |
| Decomposition.AutocorrelationAtLagZero | app/static/js/inventory.js:4048-4056 | with variance > 0, the entry at lag 0 is 1 |
| Decomposition.FlatSeriesUncorrelated | app/static/js/inventory.js:4041-4055 | a constant series has variance 0, so every entry is NaN (`None`) |
| Decomposition.BeyondLengthIsZero | app/static/js/inventory.js:4050-4055 | with non-zero variance, a lag beyond the length gives an entry of 0 (an empty sum over a negative count) |
| Decomposition.TrendWindow | app/static/js/inventory.js:3934 | `min(7, ⌊n/4⌋)`, at least 1 from four days on |
| Decomposition.TimeSeriesDecomposition | app/static/js/inventory.js:3930-3959 | trend is the moving average; season has 7 entries; value = trend + season[i mod 7] + residual; autocorrelation has 15 entries, each that of the residuals at its lag; the whole is `Decomposed(dates, values)` |
| Patterns.SlopeDenominatorClosed | app/static/js/inventory.js:4170-4180 | 12·(n·Σi² − (Σi)²) = n²(n−1)(n+1), positive for n ≥ 2 |
| Patterns.SlopeOfLine | app/static/js/inventory.js:4168-4182 | the least-squares slope of `a + d·i` is d (0 for a constant input) |
| Patterns.DayOfWeekPattern | app/static/js/inventory.js:4187-4217 | seven weekday effects |
| Patterns.DeviationOf | app/static/js/inventory.js:4196-4207 | a day's deviation from the mean of its up-to-six neighbours, or none without neighbours |
| Patterns.IdentifyDayOfWeekPattern | app/static/js/inventory.js:4187-4217 | the loop yields the seven weekday effects of the specification function |
| Patterns.FlatSeriesNoWeekdayEffect | app/static/js/inventory.js:4196-4214 | a constant series has an all-zero weekday pattern |
| Forecast.ForecastSlopeOfLine | app/static/js/inventory.js:4074-4083 | for a linear trend `a + d·i` the slope is d, by regression over the last 14 points or by the end-point difference |
| Forecast.AverageResidual | app/static/js/inventory.js:4086 | the mean absolute residual is non-negative |
| Forecast.ForecastValues | app/static/js/inventory.js:4099-4133 | one forecast value per forecast day |
| Forecast.ForecastLoop | app/static/js/inventory.js:4099-4133 | the loop yields the forecast values of the specification, each read back by the echo term |
| Forecast.RandomComponentOf | app/static/js/inventory.js:4114-4124 | the echo of earlier forecast days through the notable autocorrelations, damped by 0.9^lag |
| Forecast.ConfidenceBands | app/static/js/inventory.js:4136-4144 | lower = max(0, f − 2w), upper = f + 2w, and 0 ≤ lower ≤ f ≤ upper |
| Forecast.ForecastDates | app/static/js/inventory.js:4092-4096 | one label per forecast day, day k being `lastDate + k + 1` |
| Forecast.ChartBands | app/static/js/inventory.js:4146-4150 | padded with n nulls, the band arrays have no band on history days and on forecast day i the band of that day, holding its forecast value |
| Forecast.GenerateForecast | app/static/js/inventory.js:4065-4163 | labels, actual, forecast and both band arrays have n + days entries: history then nulls for actual values, n nulls then forecasts for the others; the band holds each forecast |
| Forecast.ForecastPrefix | app/static/js/inventory.js:4099-4133 | the first j forecast days depend neither on the horizon nor on later draws |
| Forecast.NoiseBounded | app/static/js/inventory.js:4127-4128 | the noise is at most avgResidual·0.98^i in magnitude |
| Forecast.EchoSilent | app/static/js/inventory.js:4117-4123 | without a notable autocorrelation the echo is 0 |
| Forecast.DeterministicForecast | app/static/js/inventory.js:4101-4131 | with no notable autocorrelation and draw 0.5, a day is max(0, trend + season + weekday effect) |
| Forecast.ForecastNonNegative | app/static/js/inventory.js:4131 | every forecast value is ≥ 0 |
| Forecast.WidthGrows | app/static/js/inventory.js:4141 | the band width avgResidual·(1 + i/30) is non-negative and non-decreasing in i |
| Forecast.PrepareHistoricalData | app/static/js/inventory.js:3820-3830 | the recorded days ascending with their values, filled out to every calendar day |
| Forecast.RecordedDaysKept | app/static/js/inventory.js:3820-3830 | every recorded day lies in the prepared range and keeps its revenue |
| Forecast.CleanAndDecompose | app/static/js/inventory.js:3805-3812 | the result is `Decomposed` of the outlier-cleaned history: moving-average trend, weekly season, residuals and their autocorrelation |
| Forecast.ForecastSeries | app/static/js/inventory.js:3805-3815 | the chart layout for consecutive days (labels `first + i`); actual values are the cleaned series; forecast values, the confidence bands `max(0, f − 2w)` and `f + 2w`, slope and patterns are those of the decomposition of the cleaned series |
| Forecast.GenerateImprovedForecastData | app/static/js/inventory.js:3791-3815 | null iff there is no history; otherwise the chart layout over every day from the first recorded day, and the forecast with its confidence bands of the filled, cleaned and decomposed history |
| Forecast.PreparedHistory | app/static/js/inventory.js:3821-3880 | the series `prepareHistoricalData` yields is every calendar day of the history with its filled revenue |
| Recommendations.Divide | app/static/js/inventory.js:4349 | IEEE division: finite iff the divisor is non-zero, ±Infinity for a non-zero numerator over 0, NaN for 0/0 |
| Recommendations.Recorded | app/static/js/inventory.js:4349 | `filter(v => v !== null)` keeps at most the entries it was given |
| Recommendations.RecordedMembers | app/static/js/inventory.js:4349 | a value is kept iff it appears as a non-null entry |
| Recommendations.ChartRecordsHistory | app/static/js/inventory.js:4155 | the non-null actual values of the forecast chart are exactly the history |
| Recommendations.GrowthRate | app/static/js/inventory.js:4349 | NaN without recorded values; finite iff the mean is non-zero, and then rate × mean = slope × 3000 |
| Recommendations.Band | app/static/js/inventory.js:4367-4392 | the five bands as intervals of a finite rate; +Infinity is significant growth; −Infinity and NaN are significant decline |
| Recommendations.BandMonotone | app/static/js/inventory.js:4367-4392 | a higher rate never lands in a lower band |
| Recommendations.SlopeBands | app/static/js/inventory.js:4349-4367 | with a positive mean, slope·300 > mean gives significant growth and a zero slope gives stable |
| Recommendations.SilentHistoryReadsAsDecline | app/static/js/inventory.js:4349-4392 | an all-zero history with zero slope gives 0/0 = NaN, reported as significant decline |
| Recommendations.BestDay | app/static/js/inventory.js:4353 | the first weekday with the largest effect |
| Recommendations.WorstDay | app/static/js/inventory.js:4354 | the first weekday with the smallest effect |
| Recommendations.FirstAndLastBest | app/static/js/inventory.js:4353 | the best weekday is at or before the revenue summary's (last-maximum) choice, equal iff the maximum is unique |
| Recommendations.FlatWeekNamesSunday | app/static/js/inventory.js:4353-4354 | a week without weekday effect names Sunday as both best and worst |
| Recommendations.GenerateEnhancedRecommendations | app/static/js/inventory.js:4343-4392 | the rate is `GrowthRate` and the band is `Band` of it; the best day is the first maximum and the worst day the first minimum of the weekday pattern (`indexOf(Math.max(...))`, `indexOf(Math.min(...))`); significant growth iff rate > 10; significant decline iff the rate is not ≥ −10 |
| AnalyticsData.FetchAnalyticsData | app/static/js/inventory.js:4463-4627 | needs a non-zero selling price only for the lots of in-range sales; over the joined in-range sales: KPIs, per-day groups, the category and product rollups, and the top lists and ABC of those products; KPI totals equal the per-day totals; the forecast of the daily revenue history |
| AnalyticsData.KpiBalanceByDay | app/static/js/inventory.js:4500-4522 | the sums of revenueByDay, expensesByDay and profitByDay are totalRevenue, totalCost and totalProfit |

## Left out

- The DOM, modals, Chart.js and `fetch` are not modelled. Fetched data become parameters, and failed requests are not modelled.
- The display and text are not modelled: label formatting (`formatDateForDisplay`, week and month names), `toFixed` and `toLocaleString`. The Russian recommendation texts are not modelled; a recommendation is its band and weekdays.
- JavaScript `Date` is not modelled, and neither are time zones. `toISOString` is UTC while `setDate` and `getDay` are local time, so around a change of the UTC offset the source can skip or repeat a day. The model uses exact day indices.
- `aggregateByPeriod`'s week and month keys are not modelled. They come from `getWeekNumber` and `getMonth`, and the model takes them as an abstract function `periodOf` with integer keys. The string sort of the period keys is not modelled either.
- IEEE-754 rounding is not modelled: all arithmetic is exact. NaN appears only where it matters in the model: the autocorrelation and the growth rate.
- Recommendations.Divide: a zero divisor is taken as +0. The model does not separate −0 from +0, which only changes the sign of an infinite growth rate.
- Forecast.GenerateImprovedForecastData: histories spanning 1 to 3 days are not modelled. There the source's trend window `min(7, ⌊n/4⌋)` is 0 and every forecast value is NaN, so the model requires an empty history or at least four days.
- AnalyticsData.FetchAnalyticsData: for a revenue history of 1 to 3 days, the source computes a forecast full of NaN; the model gives no forecast there.
- AnalyticsData.FetchAnalyticsData: with zero total profit the source's ABC shares are NaN or infinite; the model gives no ABC analysis there.
- Analytics.Kpis: the source rounds each sale's margin to two decimals (`toFixed(2)`, then `parseFloat`) before averaging. The model averages the exact margins.
- The filtered purchase and write-off transactions of `fetchAnalyticsData` are computed in the source but never used, so the model leaves them out.
- The `distributionData` block of `updateSaleTotal` is not modelled: its result is never used, and its filter always drains the quantity to 0.
- Earlier top-level definitions that later declarations override are not modelled: `fetchAnalyticsData`, `displayAnalyticsData`, `createForecastChart` and `calculateMovingAverage`. The `generateRecommendations` path is not modelled either, because only the overridden display function reaches it.
- Analytics.RollupProducts: the key order of the product dictionary is not stated. Its keys are integer ids, which `Object.keys` and `Object.values` list in ascending order whatever the insertion order; `Analytics.ProductList` models that.
- Negative lot counts are not modelled. The picker's total includes them but the FIFO walk skips them; `Fifo.InStockCarriesAllStock` states when the two agree.
- The login and registration pages, the Python backend, the seed scripts and the load tests are not part of this model.

=== FILE: analytics.dfy ===
/** The aggregation half of `fetchAnalyticsData`: the sales of a date range are
    joined with their purchase lot, product and category, then summed per day,
    per category and per product, and condensed into the KPI cards. */
module Analytics {
  import opened Seqs
  import opened Sorting
  import opened Grouping
  import opened Fifo

  const SecondsPerDay: int := 86400

  /** A sale transaction; `createdOn` is its timestamp in seconds. */
  datatype Transaction = Transaction(id: int, idPurchase: int, amount: int, createdOn: int)

  datatype Product = Product(id: int, name: string, idCategory: int)

  datatype Category = Category(id: int, name: string)

  /** A sale joined with its lot, product and category, with its money figures. */
  datatype EnrichedSale = EnrichedSale(sale: Transaction, lot: Lot,
                                       product: Option<Product>, category: Option<Category>,
                                       revenue: real, cost: real, profit: real, margin: real)

  /** The calendar day of a timestamp: the date part of `created_on`. */
  function DayOf(createdOn: int): int { createdOn / SecondsPerDay }

  // ---------------------------------------------------------------------------
  // Date range

  /** From the start of `startDay` up to `endDay` at 23:59:59, both inclusive. */
  predicate InRange(t: Transaction, startDay: int, endDay: int)
  {
    startDay * SecondsPerDay <= t.createdOn <= endDay * SecondsPerDay + (SecondsPerDay - 1)
  }

  function FilterByDateRange(ts: seq<Transaction>, startDay: int, endDay: int): (r: seq<Transaction>)
    ensures forall t :: t in r <==> t in ts && InRange(t, startDay, endDay)
    ensures |r| <= |ts|
  {
    if ts == [] then []
    else
      var init, last := ts[..|ts| - 1], ts[|ts| - 1];
      assert ts == init + [last];
      FilterByDateRange(init, startDay, endDay) + (if InRange(last, startDay, endDay) then [last] else [])
  }

  /** The filter works element by element: a concatenation is filtered part by part,
      in order, and a single transaction is kept exactly when it lies in the range. */
  lemma {:induction false} FilterByDateRangeAppend(a: seq<Transaction>, b: seq<Transaction>, startDay: int, endDay: int)
    ensures FilterByDateRange(a + b, startDay, endDay)
         == FilterByDateRange(a, startDay, endDay) + FilterByDateRange(b, startDay, endDay)
    decreases |b|
  {
    if b == [] {
      assert a + b == a;
    } else {
      var init := b[..|b| - 1];
      assert (a + b)[..|a + b| - 1] == a + init;
      assert (a + b)[|a + b| - 1] == b[|b| - 1];
      FilterByDateRangeAppend(a, init, startDay, endDay);
    }
  }

  lemma FilterByDateRangeSingle(t: Transaction, startDay: int, endDay: int)
    ensures FilterByDateRange([t], startDay, endDay) == if InRange(t, startDay, endDay) then [t] else []
  {
    assert [t][..0] == [];
  }

  /** The range holds exactly the transactions whose day lies between the two days. */
  lemma InRangeIsDayRange(t: Transaction, startDay: int, endDay: int)
    ensures InRange(t, startDay, endDay) <==> startDay <= DayOf(t.createdOn) <= endDay
  {
    var d := DayOf(t.createdOn);
    assert d * SecondsPerDay <= t.createdOn < (d + 1) * SecondsPerDay;
    if InRange(t, startDay, endDay) {
      assert startDay * SecondsPerDay < (d + 1) * SecondsPerDay;
      assert d * SecondsPerDay < (endDay + 1) * SecondsPerDay;
    }
  }

  // ---------------------------------------------------------------------------
  // Enrichment

  /** `products.find(p => p.id === id)`: the first product with that id. */
  function FindProduct(products: seq<Product>, id: int): (r: Option<Product>)
    ensures r.None? <==> forall p :: p in products ==> p.id != id
    ensures r.Some? ==> exists i :: 0 <= i < |products| && products[i] == r.value && r.value.id == id &&
                                    forall j :: 0 <= j < i ==> products[j].id != id
  {
    if products == [] then None
    else if products[0].id == id then Some(products[0])
    else
      var r := FindProduct(products[1..], id);
      assert forall p :: p in products <==> p == products[0] || p in products[1..];
      if r.Some? then
        var i :| 0 <= i < |products[1..]| && products[1..][i] == r.value && r.value.id == id &&
                 forall j :: 0 <= j < i ==> products[1..][j].id != id;
        assert products[i + 1] == r.value;
        assert forall j :: 0 <= j < i + 1 ==> products[j].id != id by {
          forall j | 0 <= j < i + 1 ensures products[j].id != id {
            if j > 0 { assert products[j] == products[1..][j - 1]; }
          }
        }
        r
      else r
  }

  /** `categories.find(c => c.id === id)`: the first category with that id. */
  function FindCategory(categories: seq<Category>, id: int): (r: Option<Category>)
    ensures r.None? <==> forall c :: c in categories ==> c.id != id
    ensures r.Some? ==> exists i :: 0 <= i < |categories| && categories[i] == r.value && r.value.id == id &&
                                    forall j :: 0 <= j < i ==> categories[j].id != id
  {
    if categories == [] then None
    else if categories[0].id == id then Some(categories[0])
    else
      var r := FindCategory(categories[1..], id);
      assert forall c :: c in categories <==> c == categories[0] || c in categories[1..];
      if r.Some? then
        var i :| 0 <= i < |categories[1..]| && categories[1..][i] == r.value && r.value.id == id &&
                 forall j :: 0 <= j < i ==> categories[1..][j].id != id;
        assert categories[i + 1] == r.value;
        assert forall j :: 0 <= j < i + 1 ==> categories[j].id != id by {
          forall j | 0 <= j < i + 1 ensures categories[j].id != id {
            if j > 0 { assert categories[j] == categories[1..][j - 1]; }
          }
        }
        r
      else r
  }

  /** One sale joined with its lot: product by the lot's product id, category only when
      a product was found, revenue and cost at the lot's prices, and the lot's margin. */
  function EnrichSale(sale: Transaction, lot: Lot, products: seq<Product>, categories: seq<Category>): EnrichedSale
    requires lot.sellingPrice != 0.0
  {
    var product := FindProduct(products, lot.idProduct);
    var category := if product.Some? then FindCategory(categories, product.value.idCategory) else None;
    EnrichedSale(sale, lot, product, category,
                 lot.sellingPrice * sale.amount as real,
                 lot.purchasePrice * sale.amount as real,
                 (lot.sellingPrice - lot.purchasePrice) * sale.amount as real,
                 (lot.sellingPrice - lot.purchasePrice) / lot.sellingPrice * 100.0)
  }

  /** A sale's money figures agree: profit is revenue less cost, and the margin is the
      share of the selling price kept as profit. */
  predicate Consistent(e: EnrichedSale)
  {
    e.revenue - e.cost == e.profit &&
    e.margin * e.lot.sellingPrice == (e.lot.sellingPrice - e.lot.purchasePrice) * 100.0
  }

  lemma EnrichSaleConsistent(sale: Transaction, lot: Lot, products: seq<Product>, categories: seq<Category>)
    requires lot.sellingPrice != 0.0
    ensures var e := EnrichSale(sale, lot, products, categories);
            Consistent(e) && e.sale == sale && e.lot == lot &&
            e.revenue == lot.sellingPrice * sale.amount as real &&
            (e.product.None? ==> e.category.None?) &&
            (e.product.Some? ==> e.product.value.id == lot.idProduct)
  {
    var m := (lot.sellingPrice - lot.purchasePrice) / lot.sellingPrice;
    assert m * lot.sellingPrice == lot.sellingPrice - lot.purchasePrice;
  }

  /** Every lot a sale can be joined with has a non-zero selling price. */
  predicate PricedLots(sales: seq<Transaction>, purchases: map<int, Lot>)
  {
    forall t :: t in sales && t.idPurchase in purchases ==> purchases[t.idPurchase].sellingPrice != 0.0
  }

  /** The sales joined in order; a sale whose lot cannot be fetched is skipped. */
  function EnrichAll(sales: seq<Transaction>, purchases: map<int, Lot>,
                     products: seq<Product>, categories: seq<Category>): seq<EnrichedSale>
    requires PricedLots(sales, purchases)
  {
    if sales == [] then []
    else
      var init, last := sales[..|sales| - 1], sales[|sales| - 1];
      assert forall t :: t in init ==> t in sales;
      EnrichAll(init, purchases, products, categories) +
        (if last.idPurchase in purchases then [EnrichSale(last, purchases[last.idPurchase], products, categories)] else [])
  }

  /** Every joined record is consistent and comes from a sale whose lot was found,
      and every sale whose lot was found is joined. */
  lemma {:induction false} EnrichAllJoins(sales: seq<Transaction>, purchases: map<int, Lot>,
                                          products: seq<Product>, categories: seq<Category>)
    requires PricedLots(sales, purchases)
    ensures var r := EnrichAll(sales, purchases, products, categories);
            |r| <= |sales| &&
            (forall i :: 0 <= i < |r| ==> Consistent(r[i])) &&
            (forall i :: 0 <= i < |r| ==> r[i].sale in sales && r[i].sale.idPurchase in purchases &&
                                          r[i].lot == purchases[r[i].sale.idPurchase]) &&
            (forall t :: t in sales && t.idPurchase in purchases ==> exists i :: 0 <= i < |r| && r[i].sale == t)
  {
    if sales != [] {
      var init, last := sales[..|sales| - 1], sales[|sales| - 1];
      assert sales == init + [last];
      assert forall t :: t in init ==> t in sales;
      EnrichAllJoins(init, purchases, products, categories);
      var r := EnrichAll(init, purchases, products, categories);
      if last.idPurchase in purchases {
        EnrichSaleConsistent(last, purchases[last.idPurchase], products, categories);
        var r' := r + [EnrichSale(last, purchases[last.idPurchase], products, categories)];
        assert r'[|r|].sale == last;
        assert forall i :: 0 <= i < |r| ==> r'[i] == r[i];
      } else {
        assert EnrichAll(sales, purchases, products, categories) == r;
      }
    }
  }

  /** The enrichment loop: await each sale's lot and push the joined record. */
  method EnrichSales(sales: seq<Transaction>, purchases: map<int, Lot>,
                     products: seq<Product>, categories: seq<Category>) returns (enriched: seq<EnrichedSale>)
    requires PricedLots(sales, purchases)
    ensures enriched == EnrichAll(sales, purchases, products, categories)
  {
    enriched := [];
    var i := 0;
    while i < |sales|
      invariant 0 <= i <= |sales|
      invariant PricedLots(sales[..i], purchases)
      invariant enriched == EnrichAll(sales[..i], purchases, products, categories)
    {
      var sale := sales[i];
      assert sales[..i + 1] == sales[..i] + [sale];
      assert sales[..i + 1][..i] == sales[..i];
      if sale.idPurchase in purchases {
        var lot := purchases[sale.idPurchase];
        enriched := enriched + [EnrichSale(sale, lot, products, categories)];
      }
      i := i + 1;
    }
    assert sales[..i] == sales;
  }

  // ---------------------------------------------------------------------------
  // Per-day, per-category and per-product rollups

  function SaleDay(e: EnrichedSale): int { DayOf(e.sale.createdOn) }
  function Revenue(e: EnrichedSale): real { e.revenue }
  function Cost(e: EnrichedSale): real { e.cost }
  function Profit(e: EnrichedSale): real { e.profit }
  function Margin(e: EnrichedSale): real { e.margin }
  function Amount(e: EnrichedSale): int { e.sale.amount }

  /** The `revenueByDay` / `expensesByDay` / `profitByDay` loop. */
  method GroupByDay(sales: seq<EnrichedSale>)
    returns (revenueByDay: Dict<int, real>, expensesByDay: Dict<int, real>, profitByDay: Dict<int, real>)
    ensures Groups(revenueByDay, sales, SaleDay, Revenue)
    ensures Groups(expensesByDay, sales, SaleDay, Cost)
    ensures Groups(profitByDay, sales, SaleDay, Profit)
    ensures revenueByDay.keys == expensesByDay.keys == profitByDay.keys
    ensures DictTotal(revenueByDay) == SumBy(sales, Revenue)
    ensures DictTotal(expensesByDay) == SumBy(sales, Cost)
    ensures DictTotal(profitByDay) == SumBy(sales, Profit)
  {
    revenueByDay, expensesByDay, profitByDay := EmptyDict(), EmptyDict(), EmptyDict();
    var i := 0;
    while i < |sales|
      invariant 0 <= i <= |sales|
      invariant Groups(revenueByDay, sales[..i], SaleDay, Revenue)
      invariant Groups(expensesByDay, sales[..i], SaleDay, Cost)
      invariant Groups(profitByDay, sales[..i], SaleDay, Profit)
      invariant revenueByDay.keys == expensesByDay.keys == profitByDay.keys
    {
      var sale := sales[i];
      assert sales[..i + 1] == sales[..i] + [sale];
      AccumulateGroups(revenueByDay, sales[..i], sale, SaleDay, Revenue);
      AccumulateGroups(expensesByDay, sales[..i], sale, SaleDay, Cost);
      AccumulateGroups(profitByDay, sales[..i], sale, SaleDay, Profit);
      var date := SaleDay(sale);
      revenueByDay := Accumulate(revenueByDay, date, sale.revenue);
      expensesByDay := Accumulate(expensesByDay, date, sale.cost);
      profitByDay := Accumulate(profitByDay, date, sale.profit);
      i := i + 1;
    }
    assert sales[..i] == sales;
    GroupsTotal(revenueByDay, sales, SaleDay, Revenue);
    GroupsTotal(expensesByDay, sales, SaleDay, Cost);
    GroupsTotal(profitByDay, sales, SaleDay, Profit);
  }

  lemma GroupsTotal<T, K(!new)>(d: Dict<K, real>, s: seq<T>, key: T -> K, f: T -> real)
    requires Groups(d, s, key, f)
    ensures DictTotal(d) == SumBy(s, f)
  {
    forall x | x in s ensures key(x) in d.entries {
      assert key(x) in KeysOf(s, key);
    }
    DictTotalConserves(d, s, key, f);
  }

  /** For consistent sales, any grouping balances: revenue less cost is profit, per key. */
  lemma GroupBalance<K>(sales: seq<EnrichedSale>, key: EnrichedSale -> K, k: K)
    requires forall i :: 0 <= i < |sales| ==> Consistent(sales[i])
    ensures KeyedSum(sales, key, k, Revenue) - KeyedSum(sales, key, k, Cost) == KeyedSum(sales, key, k, Profit)
  {
    forall x | x in sales ensures Revenue(x) - Cost(x) == Profit(x) {
      var i :| 0 <= i < |sales| && sales[i] == x;
    }
    KeyedSumDifference(sales, key, k, Revenue, Cost, Profit);
  }

  /** Per day, revenue less expenses is profit. */
  lemma DailyBalance(sales: seq<EnrichedSale>, revenueByDay: Dict<int, real>,
                     expensesByDay: Dict<int, real>, profitByDay: Dict<int, real>, day: int)
    requires forall i :: 0 <= i < |sales| ==> Consistent(sales[i])
    requires Groups(revenueByDay, sales, SaleDay, Revenue)
    requires Groups(expensesByDay, sales, SaleDay, Cost)
    requires Groups(profitByDay, sales, SaleDay, Profit)
    requires day in revenueByDay.entries
    ensures day in expensesByDay.entries && day in profitByDay.entries
    ensures revenueByDay.entries[day] - expensesByDay.entries[day] == profitByDay.entries[day]
  {
    GroupBalance(sales, SaleDay, day);
  }

  const NoCategory: string := "Без категории"

  /** The category a sale is counted under: its category's name or the fallback. */
  function CategoryName(e: EnrichedSale): string
  {
    if e.category.Some? then e.category.value.name else NoCategory
  }

  datatype CategoryStats = CategoryStats(revenue: real, profit: real, count: int)

  /** The `salesByCategory` object of `sales`: one entry per category name the sales
      carry, in the order the names first occur, holding their summed revenue, profit
      and units. */
  ghost predicate CategoryRollup(byCategory: Dict<string, CategoryStats>, sales: seq<EnrichedSale>)
  {
    byCategory.Valid() && byCategory.keys == FirstKeys(sales, CategoryName) &&
    (forall name :: name in byCategory.entries <==> name in KeysOf(sales, CategoryName)) &&
    (forall name :: name in byCategory.entries ==>
       byCategory.entries[name] == CategoryStats(KeyedSum(sales, CategoryName, name, Revenue),
                                                 KeyedSum(sales, CategoryName, name, Profit),
                                                 KeyedSumInt(sales, CategoryName, name, Amount)))
  }

  /** The stats of `name` before a sale is added: zero when the name is new. */
  function CategorySoFar(byCategory: Dict<string, CategoryStats>, name: string): (c: CategoryStats)
    ensures name !in byCategory.entries ==> c == CategoryStats(0.0, 0.0, 0)
  {
    if name in byCategory.entries then byCategory.entries[name] else CategoryStats(0.0, 0.0, 0)
  }

  /** One pass of the `forEach`: the sale's revenue, profit and units are added to its
      category's entry, which starts at zero when the name is new. */
  function AddToCategory(byCategory: Dict<string, CategoryStats>, sale: EnrichedSale): (r: Dict<string, CategoryStats>)
    requires byCategory.Valid()
    ensures r.Valid()
  {
    var c := CategorySoFar(byCategory, CategoryName(sale));
    Put(byCategory, CategoryName(sale),
        CategoryStats(c.revenue + sale.revenue, c.profit + sale.profit, c.count + sale.sale.amount))
  }

  /** Adding one sale to its category's entry extends the rollup by that sale. */
  lemma CategoryRollupStep(byCategory: Dict<string, CategoryStats>, sales: seq<EnrichedSale>, i: nat)
    requires i < |sales| && CategoryRollup(byCategory, sales[..i])
    ensures CategoryRollup(AddToCategory(byCategory, sales[i]), sales[..i + 1])
  {
    var s, sale := sales[..i], sales[i];
    assert sales[..i + 1] == s + [sale];
    CategoryEntriesStep(byCategory, s, sale);
    var c := CategorySoFar(byCategory, CategoryName(sale));
    PutFirstKeys(byCategory, s, sale, CategoryName,
                 CategoryStats(c.revenue + sale.revenue, c.profit + sale.profit, c.count + sale.sale.amount));
  }

  /** The entries after one more sale: its name is present, and every name holds the
      sums over the extended sales. */
  lemma CategoryEntriesStep(byCategory: Dict<string, CategoryStats>, s: seq<EnrichedSale>, sale: EnrichedSale)
    requires CategoryRollup(byCategory, s)
    ensures var next := AddToCategory(byCategory, sale);
            (forall name :: name in next.entries <==> name in KeysOf(s + [sale], CategoryName)) &&
            (forall name :: name in next.entries ==>
               next.entries[name] == CategoryStats(KeyedSum(s + [sale], CategoryName, name, Revenue),
                                                   KeyedSum(s + [sale], CategoryName, name, Profit),
                                                   KeyedSumInt(s + [sale], CategoryName, name, Amount)))
  {
    var name := CategoryName(sale);
    if name !in byCategory.entries {
      KeyedSumAbsent(s, CategoryName, name, Revenue);
      KeyedSumAbsent(s, CategoryName, name, Profit);
      KeyedSumIntAbsent(s, CategoryName, name, Amount);
    }
    var next := AddToCategory(byCategory, sale);
    KeysOfSnoc(s, sale, CategoryName);
    forall n | n in next.entries
      ensures next.entries[n] == CategoryStats(KeyedSum(s + [sale], CategoryName, n, Revenue),
                                               KeyedSum(s + [sale], CategoryName, n, Profit),
                                               KeyedSumInt(s + [sale], CategoryName, n, Amount))
    {
      KeyedSumSnoc(s, sale, CategoryName, n, Revenue, Amount);
      KeyedSumSnoc(s, sale, CategoryName, n, Profit, Amount);
    }
  }

  /** The `salesByCategory` loop: revenue, profit and units per category name. */
  method RollupCategories(sales: seq<EnrichedSale>) returns (byCategory: Dict<string, CategoryStats>)
    ensures CategoryRollup(byCategory, sales)
  {
    byCategory := EmptyDict();
    var i := 0;
    while i < |sales|
      invariant 0 <= i <= |sales|
      invariant CategoryRollup(byCategory, sales[..i])
    {
      CategoryRollupStep(byCategory, sales, i);
      byCategory := AddToCategory(byCategory, sales[i]);
      i := i + 1;
    }
    assert sales[..i] == sales;
  }

  lemma {:induction false} KeyedSumIntAbsent<T, K>(s: seq<T>, key: T -> K, k: K, f: T -> int)
    requires k !in KeysOf(s, key)
    ensures KeyedSumInt(s, key, k, f) == 0
  {
    if s != [] {
      var init := s[..|s| - 1];
      assert KeysOf(init, key) <= KeysOf(s, key) by {
        forall y | y in init ensures y in s { }
      }
      KeyedSumIntAbsent(init, key, k, f);
      assert s[|s| - 1] in s;
    }
  }

  /** The product a sale is counted under; 0 when it has none (`null` and the id 0
      are both falsy and skipped). */
  function ProductKey(e: EnrichedSale): int
  {
    if e.product.Some? then e.product.value.id else 0
  }

  /** The name recorded for product `k`: that of the first sale counted under it. */
  ghost function FirstProductName(s: seq<EnrichedSale>, k: int): string
  {
    if s == [] then ""
    else
      var init, last := s[..|s| - 1], s[|s| - 1];
      if ProductKey(last) == k && k !in KeysOf(init, ProductKey) && last.product.Some?
      then last.product.value.name
      else FirstProductName(init, k)
  }

  datatype ProductStats = ProductStats(id: int, name: string, revenue: real, profit: real,
                                       quantity: int, margin: real)

  /** A product's margin in percent, 0 when it brought no revenue. */
  function ProductMargin(revenue: real, profit: real): (m: real)
    ensures revenue > 0.0 ==> m * revenue == profit * 100.0
    ensures revenue <= 0.0 ==> m == 0.0
  {
    if revenue > 0.0 then profit / revenue * 100.0 else 0.0
  }

  /** What the rollup holds for product `k` over `s`, margin not yet set. */
  ghost function Rolled(s: seq<EnrichedSale>, k: int, margin: real): ProductStats
  {
    ProductStats(k, FirstProductName(s, k), KeyedSum(s, ProductKey, k, Revenue),
                 KeyedSum(s, ProductKey, k, Profit), KeyedSumInt(s, ProductKey, k, Amount), margin)
  }

  /** The `productSales` object of `sales` once margins are set: one entry per non-zero
      product id the sales carry, with the first name, the summed figures and the
      margin of those figures. */
  ghost predicate ProductRollup(productSales: Dict<int, ProductStats>, sales: seq<EnrichedSale>)
  {
    productSales.Valid() &&
    (forall k :: k in productSales.entries <==> k != 0 && k in KeysOf(sales, ProductKey)) &&
    (forall k :: k in productSales.entries ==>
       var p := productSales.entries[k];
       p == Rolled(sales, k, ProductMargin(p.revenue, p.profit)))
  }

  /** The `productSales` loop: sales without a product are skipped, the rest summed per
      product id; then each product's margin is set. */
  method RollupProducts(sales: seq<EnrichedSale>) returns (productSales: Dict<int, ProductStats>)
    ensures ProductRollup(productSales, sales)
  {
    var summed := SumProducts(sales);
    productSales := SetMargins(summed);
  }

  /** The `productSales` object of `sales` before margins are set. */
  ghost predicate ProductSums(productSales: Dict<int, ProductStats>, sales: seq<EnrichedSale>)
  {
    productSales.Valid() &&
    (forall k :: k in productSales.entries <==> k != 0 && k in KeysOf(sales, ProductKey)) &&
    (forall k :: k in productSales.entries ==> productSales.entries[k] == Rolled(sales, k, 0.0))
  }

  /** One pass of the summing `forEach`: a sale without a product is skipped; otherwise
      its revenue, profit and units are added to its product's entry, which starts at
      zero, with the sale's product name, when the id is new. */
  function AddToProduct(productSales: Dict<int, ProductStats>, sale: EnrichedSale): (r: Dict<int, ProductStats>)
    requires productSales.Valid()
    ensures r.Valid()
  {
    var productId := ProductKey(sale);
    if productId == 0 then productSales
    else
      var p := if productId in productSales.entries then productSales.entries[productId]
               else ProductStats(productId, sale.product.value.name, 0.0, 0.0, 0, 0.0);
      Put(productSales, productId,
          p.(revenue := p.revenue + sale.revenue, profit := p.profit + sale.profit,
             quantity := p.quantity + sale.sale.amount))
  }

  /** Adding one sale to its product's entry extends the sums by that sale. */
  lemma ProductSumStep(productSales: Dict<int, ProductStats>, sales: seq<EnrichedSale>, i: nat)
    requires i < |sales| && ProductSums(productSales, sales[..i])
    ensures ProductSums(AddToProduct(productSales, sales[i]), sales[..i + 1])
  {
    var s, sale := sales[..i], sales[i];
    assert sales[..i + 1] == s + [sale];
    assert (s + [sale])[..i] == s;
    KeysOfSnoc(s, sale, ProductKey);
    var productId := ProductKey(sale);
    if productId != 0 && productId !in productSales.entries {
      KeyedSumAbsent(s, ProductKey, productId, Revenue);
      KeyedSumAbsent(s, ProductKey, productId, Profit);
      KeyedSumIntAbsent(s, ProductKey, productId, Amount);
    }
    var next := AddToProduct(productSales, sale);
    forall k | k in next.entries
      ensures next.entries[k] == Rolled(s + [sale], k, 0.0)
    {
      KeyedSumSnoc(s, sale, ProductKey, k, Revenue, Amount);
      KeyedSumSnoc(s, sale, ProductKey, k, Profit, Amount);
    }
  }

  /** The summing loop of `productSales`, margins still 0. */
  method SumProducts(sales: seq<EnrichedSale>) returns (productSales: Dict<int, ProductStats>)
    ensures ProductSums(productSales, sales)
  {
    productSales := EmptyDict();
    var i := 0;
    while i < |sales|
      invariant 0 <= i <= |sales|
      invariant ProductSums(productSales, sales[..i])
    {
      ProductSumStep(productSales, sales, i);
      productSales := AddToProduct(productSales, sales[i]);
      i := i + 1;
    }
    assert sales[..i] == sales;
  }

  /** `Object.values(productSales).forEach(p => p.margin = ...)`. */
  method SetMargins(d: Dict<int, ProductStats>) returns (r: Dict<int, ProductStats>)
    requires d.Valid()
    ensures r.Valid() && r.keys == d.keys
    ensures forall k :: k in r.entries <==> k in d.entries
    ensures forall k :: k in r.entries ==>
              r.entries[k] == d.entries[k].(margin := ProductMargin(d.entries[k].revenue, d.entries[k].profit))
  {
    r := d;
    var i := 0;
    while i < |d.keys|
      invariant 0 <= i <= |d.keys|
      invariant r.Valid() && r.keys == d.keys
      invariant forall k :: k in r.entries <==> k in d.entries
      invariant forall j :: 0 <= j < |d.keys| ==>
                  var k := d.keys[j];
                  r.entries[k] == if j < i then d.entries[k].(margin := ProductMargin(d.entries[k].revenue, d.entries[k].profit))
                                  else d.entries[k]
    {
      var k := d.keys[i];
      var p := r.entries[k];
      r := Put(r, k, p.(margin := ProductMargin(p.revenue, p.profit)));
      i := i + 1;
    }
    forall k | k in r.entries
      ensures r.entries[k] == d.entries[k].(margin := ProductMargin(d.entries[k].revenue, d.entries[k].profit))
    {
      var j :| 0 <= j < |d.keys| && d.keys[j] == k;
    }
  }

  /** Per product, revenue less the cost of the units sold is profit. */
  lemma ProductBalance(sales: seq<EnrichedSale>, productSales: Dict<int, ProductStats>, k: int)
    requires forall i :: 0 <= i < |sales| ==> Consistent(sales[i])
    requires k in productSales.entries
    requires productSales.entries[k] == Rolled(sales, k, productSales.entries[k].margin)
    ensures productSales.entries[k].revenue - KeyedSum(sales, ProductKey, k, Cost) == productSales.entries[k].profit
  {
    GroupBalance(sales, ProductKey, k);
  }

  function StatsId(p: ProductStats): real { p.id as real }

  /** `Object.values(productSales)`: integer keys enumerate in ascending order. */
  function ProductList(d: Dict<int, ProductStats>): (r: seq<ProductStats>)
    requires d.Valid()
    ensures multiset(r) == multiset(seq(|d.keys|, i requires 0 <= i < |d.keys| => d.entries[d.keys[i]]))
    ensures |r| == |d.keys|
    ensures SortedBy(r, StatsId)
  {
    SortBy(seq(|d.keys|, i requires 0 <= i < |d.keys| => d.entries[d.keys[i]]), StatsId)
  }

  // ---------------------------------------------------------------------------
  // KPI cards

  datatype Kpi = Kpi(totalRevenue: real, totalCost: real, totalProfit: real, averageMargin: real,
                     activeProductsCount: int, averageCheck: real, stockTurnover: real,
                     transactionCount: int)

  function Kpis(sales: seq<EnrichedSale>, activeProductsCount: nat): (k: Kpi)
    ensures k.transactionCount == |sales| && k.activeProductsCount == activeProductsCount
    ensures k.totalRevenue == SumBy(sales, Revenue) && k.totalCost == SumBy(sales, Cost)
    ensures k.totalProfit == SumBy(sales, Profit)
    ensures |sales| == 0 ==> k.averageMargin == 0.0 && k.averageCheck == 0.0
    ensures |sales| > 0 ==> k.averageMargin * |sales| as real == SumBy(sales, Margin)
    ensures |sales| > 0 ==> k.averageCheck * |sales| as real == k.totalRevenue
    ensures k.totalCost > 0.0 ==> k.stockTurnover * k.totalCost == k.totalRevenue
    ensures k.totalCost <= 0.0 ==> k.stockTurnover == 0.0
  {
    var n := |sales|;
    var totalRevenue := SumBy(sales, Revenue);
    var totalCost := SumBy(sales, Cost);
    Kpi(totalRevenue, totalCost, SumBy(sales, Profit),
        if n > 0 then SumBy(sales, Margin) / n as real else 0.0,
        activeProductsCount,
        if n > 0 then totalRevenue / n as real else 0.0,
        if totalCost > 0.0 then totalRevenue / totalCost else 0.0,
        n)
  }

  /** Total profit is total revenue less total cost. */
  lemma KpiBalance(sales: seq<EnrichedSale>, activeProductsCount: nat)
    requires forall i :: 0 <= i < |sales| ==> Consistent(sales[i])
    ensures var k := Kpis(sales, activeProductsCount);
            k.totalProfit == k.totalRevenue - k.totalCost
  {
    forall x | x in sales ensures Revenue(x) - Cost(x) == Profit(x) {
      var i :| 0 <= i < |sales| && sales[i] == x;
    }
    SumByDifference(sales, Revenue, Cost, Profit);
  }

  /** The average margin lies between the smallest and largest per-sale margins. */
  lemma AverageMarginBounds(sales: seq<EnrichedSale>, activeProductsCount: nat, lo: real, hi: real)
    requires |sales| > 0
    requires forall i :: 0 <= i < |sales| ==> lo <= sales[i].margin <= hi
    ensures lo <= Kpis(sales, activeProductsCount).averageMargin <= hi
  {
    SumByBounds(sales, Margin, lo, hi);
    DivBounds(SumBy(sales, Margin), |sales| as real, lo, hi);
  }

  lemma {:induction false} SumByBounds<T>(s: seq<T>, f: T -> real, lo: real, hi: real)
    requires forall i :: 0 <= i < |s| ==> lo <= f(s[i]) <= hi
    ensures |s| as real * lo <= SumBy(s, f) <= |s| as real * hi
  {
    if s != [] {
      SumByBounds(s[..|s| - 1], f, lo, hi);
    }
  }
}

=== FILE: analytics_data.dfy ===
/** The analytics page's data (`fetchAnalyticsData`): the sales in the date range,
    joined with their lots, rolled up per day, per category and per product, the
    KPI cards, the ABC partition, the three top-ten lists and the revenue forecast. */
module AnalyticsData {
  import opened Seqs
  import opened Sorting
  import opened Grouping
  import opened Fifo
  import opened Analytics
  import opened Ranking
  import opened Patterns
  import opened Forecast

  /** The forecast horizon of the analytics page, in days. */
  const ForecastHorizon: nat := 90

  datatype AnalyticsResult = AnalyticsResult(
    kpi: Kpi,
    revenueByDay: Dict<int, real>, expensesByDay: Dict<int, real>, profitByDay: Dict<int, real>,
    salesByCategory: Dict<string, CategoryStats>,
    productSales: Dict<int, ProductStats>,
    abcAnalysis: Option<AbcAnalysis>,
    byProfit: seq<ProductStats>, bySales: seq<ProductStats>, byMargin: seq<ProductStats>,
    forecastData: Option<ForecastData>)

  /** The steps of `fetchAnalyticsData` after its requests: `purchases` holds the lot
      each purchase id resolves to, and a sale whose id is missing is skipped. */
  method FetchAnalyticsData(sales: seq<Transaction>, purchases: map<int, Lot>,
                            products: seq<Product>, categories: seq<Category>,
                            startDay: int, endDay: int,
                            weekdayOf: int -> Weekday, random: seq<real>) returns (r: AnalyticsResult)
    requires PricedLots(FilterByDateRange(sales, startDay, endDay), purchases) && ForecastHorizon <= |random|
    ensures var enriched := EnrichAll(FilterByDateRange(sales, startDay, endDay), purchases, products, categories);
            r.kpi == Kpis(enriched, |r.productSales.keys|) &&
            Groups(r.revenueByDay, enriched, SaleDay, Revenue) &&
            Groups(r.expensesByDay, enriched, SaleDay, Cost) &&
            Groups(r.profitByDay, enriched, SaleDay, Profit)
    ensures r.kpi.totalRevenue == DictTotal(r.revenueByDay) && r.kpi.totalCost == DictTotal(r.expensesByDay) &&
            r.kpi.totalProfit == DictTotal(r.profitByDay)
    ensures var enriched := EnrichAll(FilterByDateRange(sales, startDay, endDay), purchases, products, categories);
            CategoryRollup(r.salesByCategory, enriched) && ProductRollup(r.productSales, enriched)
    ensures var list := ProductList(r.productSales);
            r.byProfit == TopByProfit(list) && r.bySales == TopBySales(list) && r.byMargin == TopByMargin(list)
    ensures r.abcAnalysis.Some? <==> SumBy(ProductList(r.productSales), StatsProfit) != 0.0
    ensures r.abcAnalysis.Some? ==> r.abcAnalysis.value == Abc(ProductList(r.productSales))
    ensures r.forecastData.None? <==> |r.revenueByDay.keys| == 0 || HistoryDays(r.revenueByDay) < 4
    ensures r.forecastData.Some? ==>
              ChartShape(r.forecastData.value, RecordedDays(r.revenueByDay)[0], HistoryDays(r.revenueByDay), ForecastHorizon)
    ensures r.forecastData.Some? ==>
              ForecastsHistory(r.forecastData.value, PreparedDates(r.revenueByDay), PreparedValues(r.revenueByDay),
                               ForecastHorizon, weekdayOf, random)
  {
    var filteredSales := FilterByDateRange(sales, startDay, endDay);
    var enriched := EnrichSales(filteredSales, purchases, products, categories);
    var revenueByDay, expensesByDay, profitByDay := GroupByDay(enriched);
    var salesByCategory := RollupCategories(enriched);
    var productSales := RollupProducts(enriched);
    var list := ProductList(productSales);
    var abc := None;
    if SumBy(list, StatsProfit) != 0.0 {
      var groups := CalculateAbcAnalysis(list);
      abc := Some(groups);
    }
    var forecast := None;
    if |revenueByDay.keys| == 0 || HistoryDays(revenueByDay) >= 4 {
      forecast := GenerateImprovedForecastData(revenueByDay, ForecastHorizon, weekdayOf, random);
    }
    var kpi := Kpis(enriched, |productSales.keys|);
    KpiBalanceByDay(enriched, revenueByDay, expensesByDay, profitByDay);
    r := AnalyticsResult(kpi, revenueByDay, expensesByDay, profitByDay, salesByCategory, productSales, abc,
                         TopByProfit(list), TopBySales(list), TopByMargin(list), forecast);
  }

  /** The KPI totals are the totals of the per-day series. */
  lemma KpiBalanceByDay(enriched: seq<EnrichedSale>, revenueByDay: Dict<int, real>,
                        expensesByDay: Dict<int, real>, profitByDay: Dict<int, real>)
    requires Groups(revenueByDay, enriched, SaleDay, Revenue)
    requires Groups(expensesByDay, enriched, SaleDay, Cost)
    requires Groups(profitByDay, enriched, SaleDay, Profit)
    ensures DictTotal(revenueByDay) == Kpis(enriched, 0).totalRevenue
    ensures DictTotal(expensesByDay) == Kpis(enriched, 0).totalCost
    ensures DictTotal(profitByDay) == Kpis(enriched, 0).totalProfit
  {
    GroupsTotal(revenueByDay, enriched, SaleDay, Revenue);
    GroupsTotal(expensesByDay, enriched, SaleDay, Cost);
    GroupsTotal(profitByDay, enriched, SaleDay, Profit);
  }
}

=== FILE: decomposition.dfy ===
/** Decomposition of a daily series into trend, weekly seasonality and residuals
    (`timeSeriesDecomposition`), with its parts: the centred moving average
    (`calculateMovingAverage`), the seasonal pattern (`detectSeasonality`) and the
    autocorrelation of the residuals (`calculateAutocorrelation`). A NaN of the
    source is `None` here. */
module Decomposition {
  import opened Seqs

  // ---------------------------------------------------------------------------
  // Moving average

  /** Entry `j` of the series with `half` copies of its first value before it and
      of its last value after it. */
  function PaddedAt(values: seq<real>, half: nat, j: int): real
    requires |values| > 0
  {
    if j < half then values[0]
    else if j < half + |values| then values[j - half]
    else values[|values| - 1]
  }

  /** The sum of the `j` padded entries starting at `i`. */
  function WindowSum(values: seq<real>, half: nat, i: int, j: nat): real
    requires |values| > 0
  {
    if j == 0 then 0.0 else WindowSum(values, half, i, j - 1) + PaddedAt(values, half, i + j - 1)
  }

  /** The average of the `window` padded values starting at `i`. */
  function MovingAverageAt(values: seq<real>, window: nat, i: int): real
    requires window >= 1 && 0 <= i < |values|
  {
    WindowSum(values, window / 2, i, window) / window as real
  }

  function MovingAverage(values: seq<real>, window: nat): (r: seq<real>)
    requires window >= 1
    ensures |r| == |values|
  {
    seq(|values|, i requires 0 <= i < |values| => MovingAverageAt(values, window, i))
  }

  /** The padding loops of `calculateMovingAverage`. */
  method Pad(values: seq<real>, halfWindow: nat) returns (paddedValues: seq<real>)
    requires |values| > 0
    ensures |paddedValues| == |values| + 2 * halfWindow
    ensures forall j :: 0 <= j < |paddedValues| ==> paddedValues[j] == PaddedAt(values, halfWindow, j)
  {
    var n := |values|;
    paddedValues := [];
    for i := 0 to halfWindow
      invariant |paddedValues| == i
      invariant forall j :: 0 <= j < i ==> paddedValues[j] == values[0]
    {
      paddedValues := paddedValues + [values[0]];
    }
    paddedValues := paddedValues + values;
    for i := 0 to halfWindow
      invariant |paddedValues| == halfWindow + n + i
      invariant forall j :: 0 <= j < |paddedValues| ==> paddedValues[j] == PaddedAt(values, halfWindow, j)
    {
      paddedValues := paddedValues + [values[n - 1]];
    }
  }

  /** `calculateMovingAverage`: pad both ends with half a window, then average each window. */
  method CalculateMovingAverage(values: seq<real>, window: nat) returns (result: seq<real>)
    requires window >= 1
    ensures result == MovingAverage(values, window)
  {
    var n := |values|;
    if n == 0 {
      return [];
    }
    var halfWindow := window / 2;
    var paddedValues := Pad(values, halfWindow);
    result := [];
    for i := 0 to n
      invariant |result| == i
      invariant forall k :: 0 <= k < i ==> result[k] == MovingAverageAt(values, window, k)
    {
      var sum := 0.0;
      for j := 0 to window
        invariant sum == WindowSum(values, halfWindow, i, j)
      {
        sum := sum + paddedValues[i + j];
      }
      result := result + [sum / window as real];
    }
  }

  lemma {:induction false} WindowSumBounds(values: seq<real>, half: nat, i: int, j: nat, lo: real, hi: real)
    requires |values| > 0
    requires forall t :: 0 <= t < |values| ==> lo <= values[t] <= hi
    ensures j as real * lo <= WindowSum(values, half, i, j) <= j as real * hi
  {
    if j > 0 {
      WindowSumBounds(values, half, i, j - 1, lo, hi);
      var k := i + j - 1;
      assert lo <= PaddedAt(values, half, k) <= hi by {
        if half <= k < half + |values| {
          assert 0 <= k - half < |values|;
        }
      }
      BoundStep((j - 1) as real, j as real, lo, hi, WindowSum(values, half, i, j - 1), PaddedAt(values, half, k),
                WindowSum(values, half, i, j));
    }
  }

  lemma BoundStep(x: real, y: real, lo: real, hi: real, s: real, v: real, t: real)
    requires y == x + 1.0 && x * lo <= s <= x * hi && lo <= v <= hi && t == s + v
    ensures y * lo <= t <= y * hi
  {
  }

  /** Every trend value lies between the smallest and the largest value of the series. */
  lemma MovingAverageBounds(values: seq<real>, window: nat, i: int)
    requires window >= 1 && 0 <= i < |values|
    ensures SeqMin(values) <= MovingAverage(values, window)[i] <= SeqMax(values)
  {
    WindowAverageBounds(values, window, i, SeqMin(values), SeqMax(values));
  }

  lemma WindowAverageBounds(values: seq<real>, window: nat, i: int, lo: real, hi: real)
    requires window >= 1 && 0 <= i < |values|
    requires forall t :: 0 <= t < |values| ==> lo <= values[t] <= hi
    ensures lo <= MovingAverageAt(values, window, i) <= hi
  {
    WindowSumBounds(values, window / 2, i, window, lo, hi);
    DivBounds(WindowSum(values, window / 2, i, window), window as real, lo, hi);
  }

  // ---------------------------------------------------------------------------
  // Seasonality

  /** `values[i] - trend[i]`, or 0 where the trend has no entry. */
  function Deviations(values: seq<real>, trend: seq<real>): (r: seq<real>)
    ensures |r| == |values|
  {
    seq(|values|, i requires 0 <= i < |values| => if i < |trend| then values[i] - trend[i] else 0.0)
  }

  /** The entries of `s` at positions `i < k` with `i % period == p`, in order. */
  function SeasonMembers(s: seq<real>, period: nat, p: nat, k: nat): seq<real>
    requires period >= 1 && k <= |s|
  {
    if k == 0 then []
    else SeasonMembers(s, period, p, k - 1) + (if (k - 1) % period == p then [s[k - 1]] else [])
  }

  /** The mean deviation at one position of the season, or 0 when it has none. */
  function SeasonMean(s: seq<real>, period: nat, p: nat): real
    requires period >= 1
  {
    var members := SeasonMembers(s, period, p, |s|);
    if |members| == 0 then 0.0 else Mean(members)
  }

  /** Each pattern entry less the pattern's mean. */
  function Centred(pattern: seq<real>): (r: seq<real>)
    requires |pattern| >= 1
    ensures |r| == |pattern|
  {
    var mean := Sum(pattern) / |pattern| as real;
    seq(|pattern|, p requires 0 <= p < |pattern| => pattern[p] - mean)
  }

  /** `detectSeasonality`: the mean deviation from the trend at each position of the
      period, shifted so that the pattern sums to zero. */
  function DetectSeasonality(values: seq<real>, trend: seq<real>, period: nat): (r: seq<real>)
    requires period >= 1
    ensures |r| == period
  {
    var deviations := Deviations(values, trend);
    Centred(seq(period, p requires 0 <= p < period => SeasonMean(deviations, period, p)))
  }

  /** Subtracting `c` from every entry lowers the sum by `|s| * c`. */
  lemma {:induction false} SumShifted(s: seq<real>, c: real, r: seq<real>)
    requires |r| == |s|
    requires forall i :: 0 <= i < |s| ==> r[i] == s[i] - c
    ensures Sum(r) == Sum(s) - |s| as real * c
  {
    if s != [] {
      SumShifted(s[..|s| - 1], c, r[..|r| - 1]);
    }
  }

  /** The seasonal pattern sums to zero, and centring keeps the differences between
      its positions. */
  lemma SeasonalPatternBalanced(values: seq<real>, trend: seq<real>, period: nat, p: nat, q: nat)
    requires period >= 1 && p < period && q < period
    ensures Sum(DetectSeasonality(values, trend, period)) == 0.0
    ensures var deviations := Deviations(values, trend);
            DetectSeasonality(values, trend, period)[p] - DetectSeasonality(values, trend, period)[q]
              == SeasonMean(deviations, period, p) - SeasonMean(deviations, period, q)
  {
    var deviations := Deviations(values, trend);
    var pattern := seq(period, p requires 0 <= p < period => SeasonMean(deviations, period, p));
    var mean := Sum(pattern) / period as real;
    SumShifted(pattern, mean, Centred(pattern));
  }

  /** Every collected member of a season is a zero deviation when the series follows its trend. */
  lemma {:induction false} ZeroMembers(s: seq<real>, period: nat, p: nat, k: nat)
    requires period >= 1 && k <= |s|
    requires forall i :: 0 <= i < |s| ==> s[i] == 0.0
    ensures forall x :: x in SeasonMembers(s, period, p, k) ==> x == 0.0
  {
    if k > 0 {
      ZeroMembers(s, period, p, k - 1);
    }
  }

  /** A series that coincides with its trend has no seasonality. */
  lemma NoDeviationNoSeason(values: seq<real>, trend: seq<real>, period: nat, p: nat)
    requires period >= 1 && p < period
    requires |trend| == |values| && forall i :: 0 <= i < |values| ==> values[i] == trend[i]
    ensures DetectSeasonality(values, trend, period)[p] == 0.0
  {
    var deviations := Deviations(values, trend);
    assert forall i :: 0 <= i < |deviations| ==> deviations[i] == 0.0;
    var pattern := seq(period, p requires 0 <= p < period => SeasonMean(deviations, period, p));
    forall q | 0 <= q < period ensures pattern[q] == 0.0 {
      var members := SeasonMembers(deviations, period, q, |deviations|);
      ZeroMembers(deviations, period, q, |deviations|);
      if |members| > 0 {
        assert forall i :: 0 <= i < |members| ==> members[i] == 0.0 by {
          forall i | 0 <= i < |members| ensures members[i] == 0.0 {
            assert members[i] in members;
          }
        }
        MeanBetween(members, 0.0, 0.0);
      }
    }
    SumBounds(pattern, 0.0, 0.0);
  }

  // ---------------------------------------------------------------------------
  // Autocorrelation

  /** `sum (v[i] - m)^2` over `i < k`. */
  function SquareSum(values: seq<real>, m: real, k: nat): real
    requires k <= |values|
  {
    if k == 0 then 0.0 else SquareSum(values, m, k - 1) + (values[k - 1] - m) * (values[k - 1] - m)
  }

  /** `sum (v[i] - m) * (v[i + lag] - m)` over `i < k`. */
  function LagSum(values: seq<real>, m: real, lag: nat, k: nat): real
    requires k == 0 || k + lag <= |values|
  {
    if k == 0 then 0.0 else LagSum(values, m, lag, k - 1) + (values[k - 1] - m) * (values[k - 1 + lag] - m)
  }

  function Variance(values: seq<real>): real
    requires |values| > 0
  {
    SquareSum(values, Mean(values), |values|) / |values| as real
  }

  /** The correlation of the series with itself shifted by `lag`. It is NaN (`None`) for
      an empty series, for a flat one (`0 / 0`) and for the lag equal to the length
      (`0 / 0`); a longer lag sums nothing and gives 0. */
  function Autocorrelation(values: seq<real>, lag: nat): real
    requires |values| > 0 && lag != |values| && Variance(values) != 0.0
  {
    var n := |values|;
    var pairs := if lag < n then n - lag else 0;
    LagSum(values, Mean(values), lag, pairs) / (n - lag) as real / Variance(values)
  }

  function AutocorrelationAt(values: seq<real>, lag: nat): Option<real>
  {
    if |values| == 0 || lag == |values| || Variance(values) == 0.0 then None
    else Some(Autocorrelation(values, lag))
  }

  /** `calculateAutocorrelation`: the mean and the variance, then one sum per lag. */
  method CalculateAutocorrelation(values: seq<real>, maxLag: nat) returns (result: seq<Option<real>>)
    ensures |result| == maxLag + 1
    ensures forall lag :: 0 <= lag <= maxLag ==> result[lag] == AutocorrelationAt(values, lag)
  {
    var n := |values|;
    result := [];
    if n == 0 {
      for lag := 0 to maxLag + 1
        invariant result == seq(lag, _ => None)
      {
        result := result + [None];
      }
      return;
    }
    var mean := Sum(values) / n as real;
    var variance := 0.0;
    for i := 0 to n
      invariant variance == SquareSum(values, mean, i)
    {
      variance := variance + (values[i] - mean) * (values[i] - mean);
    }
    variance := variance / n as real;
    for lag := 0 to maxLag + 1
      invariant |result| == lag
      invariant forall l :: 0 <= l < lag ==> result[l] == AutocorrelationAt(values, l)
    {
      var pairs := if lag < n then n - lag else 0;
      var numerator := LagNumerator(values, mean, lag, pairs);
      if lag == n || variance == 0.0 {
        result := result + [None];
      } else {
        result := result + [Some(numerator / (n - lag) as real / variance)];
      }
    }
  }

  /** The inner loop of `calculateAutocorrelation`: the sum of the first `pairs` lagged products. */
  method LagNumerator(values: seq<real>, mean: real, lag: nat, pairs: nat) returns (numerator: real)
    requires pairs == 0 || pairs + lag <= |values|
    ensures numerator == LagSum(values, mean, lag, pairs)
  {
    numerator := 0.0;
    for i := 0 to pairs
      invariant numerator == LagSum(values, mean, lag, i)
    {
      numerator := numerator + (values[i] - mean) * (values[i + lag] - mean);
    }
  }

  /** At lag 0 a series that is not flat correlates perfectly with itself. */
  lemma {:induction false} LagZeroIsSquares(values: seq<real>, m: real, k: nat)
    requires k <= |values|
    ensures LagSum(values, m, 0, k) == SquareSum(values, m, k)
  {
    if k > 0 {
      LagZeroIsSquares(values, m, k - 1);
    }
  }

  lemma AutocorrelationAtLagZero(values: seq<real>)
    requires |values| > 0 && Variance(values) != 0.0
    ensures AutocorrelationAt(values, 0) == Some(1.0)
  {
    var n := |values| as real;
    var squares := SquareSum(values, Mean(values), |values|);
    LagZeroIsSquares(values, Mean(values), |values|);
    assert Variance(values) == squares / n;
    assert squares / n / (squares / n) == 1.0;
  }

  lemma {:induction false} FlatSquares(values: seq<real>, c: real, k: nat)
    requires k <= |values|
    requires forall i :: 0 <= i < |values| ==> values[i] == c
    ensures SquareSum(values, c, k) == 0.0
    ensures Sum(values[..k]) == k as real * c
  {
    if k > 0 {
      FlatSquares(values, c, k - 1);
      assert values[..k][..k - 1] == values[..k - 1];
    }
  }

  /** A flat series has no autocorrelation at any lag: every entry is NaN. */
  lemma FlatSeriesUncorrelated(values: seq<real>, c: real, lag: nat)
    requires forall i :: 0 <= i < |values| ==> values[i] == c
    ensures AutocorrelationAt(values, lag) == None
  {
    if |values| > 0 {
      FlatSquares(values, c, |values|);
      assert values[..|values|] == values;
      assert Mean(values) == c;
    }
  }

  /** A lag longer than the series has no pairs and gives 0. */
  lemma BeyondLengthIsZero(values: seq<real>, lag: nat)
    requires 0 < |values| < lag && Variance(values) != 0.0
    ensures AutocorrelationAt(values, lag) == Some(0.0)
  {
  }

  // ---------------------------------------------------------------------------
  // Decomposition

  const SeasonalPeriod: nat := 7
  /** Lags examined in the residuals: two weeks. */
  const MaxLag: nat := 14

  datatype TimeSeriesParts = TimeSeriesParts(dates: seq<int>, values: seq<real>, trend: seq<real>,
                                             seasonal: seq<real>, seasonalPeriod: nat,
                                             residuals: seq<real>, autocorrelation: seq<Option<real>>)

  /** The trend window: a week, or a quarter of the series when that is shorter. */
  function TrendWindow(n: nat): (w: nat)
    ensures n >= 4 ==> 1 <= w <= 7 && w <= n / 4
  {
    if 7 < n / 4 then 7 else n / 4
  }

  /** What is left of each value once its trend and its weekday's season are removed. */
  function Residuals(values: seq<real>, trend: seq<real>, seasonal: seq<real>): (r: seq<real>)
    requires |trend| == |values| && |seasonal| == SeasonalPeriod
    ensures |r| == |values|
  {
    seq(|values|, i requires 0 <= i < |values| => values[i] - trend[i] - seasonal[i % SeasonalPeriod])
  }

  /** The decomposition of a series of at least four days. */
  function Decomposed(dates: seq<int>, values: seq<real>): (d: TimeSeriesParts)
    requires |values| >= 4 && |dates| == |values|
    ensures d.dates == dates && d.values == values && d.seasonalPeriod == SeasonalPeriod
    ensures |d.trend| == |values| && |d.seasonal| == SeasonalPeriod && |d.residuals| == |values|
    ensures |d.autocorrelation| == MaxLag + 1
  {
    var trend := MovingAverage(values, TrendWindow(|values|));
    var seasonal := DetectSeasonality(values, trend, SeasonalPeriod);
    var residuals := Residuals(values, trend, seasonal);
    TimeSeriesParts(dates, values, trend, seasonal, SeasonalPeriod, residuals,
                    seq(MaxLag + 1, lag requires 0 <= lag <= MaxLag => AutocorrelationAt(residuals, lag)))
  }

  /** `timeSeriesDecomposition`: trend, weekly pattern, what is left, and the
      autocorrelation of what is left. */
  method TimeSeriesDecomposition(dates: seq<int>, values: seq<real>) returns (d: TimeSeriesParts)
    requires |values| >= 4 && |dates| == |values|
    ensures d == Decomposed(dates, values)
    ensures d.dates == dates && d.values == values && d.seasonalPeriod == SeasonalPeriod
    ensures d.trend == MovingAverage(values, TrendWindow(|values|))
    ensures d.seasonal == DetectSeasonality(values, d.trend, SeasonalPeriod)
    ensures |d.residuals| == |values|
    ensures forall i :: 0 <= i < |values| ==>
              values[i] == d.trend[i] + d.seasonal[i % SeasonalPeriod] + d.residuals[i]
    ensures |d.autocorrelation| == MaxLag + 1
    ensures forall lag :: 0 <= lag <= MaxLag ==> d.autocorrelation[lag] == AutocorrelationAt(d.residuals, lag)
  {
    var trend := CalculateMovingAverage(values, TrendWindow(|values|));
    var seasonal := DetectSeasonality(values, trend, SeasonalPeriod);
    var residuals := [];
    for i := 0 to |values|
      invariant |residuals| == i
      invariant forall k :: 0 <= k < i ==> residuals[k] == values[k] - trend[k] - seasonal[k % SeasonalPeriod]
    {
      residuals := residuals + [values[i] - trend[i] - seasonal[i % SeasonalPeriod]];
    }
    var autocorrelation := CalculateAutocorrelation(residuals, MaxLag);
    assert residuals == Residuals(values, trend, seasonal);
    d := TimeSeriesParts(dates, values, trend, seasonal, SeasonalPeriod, residuals, autocorrelation);
  }
}

=== FILE: fifo.dfy ===
/** Sale pricing over a product's purchase lots, oldest lot first (FIFO), and
    the form checks that surround it: the product picker of the sale form, the
    sale submit check, the write-off total and the purchase submit check. */
module Fifo {
  import opened Seqs
  import opened Sorting

  /** A purchase lot. `createdOn` is the purchase timestamp in seconds. */
  datatype Lot = Lot(id: int, idProduct: int, purchasePrice: real, sellingPrice: real,
                     count: int, currentCount: int, createdOn: int)

  function CreatedKey(l: Lot): real { l.createdOn as real }

  function CurrentCount(l: Lot): int { l.currentCount }

  function MinI(a: int, b: int): int { if a < b then a else b }

  function MaxI(a: int, b: int): int { if a < b then b else a }

  /** The lots that still hold stock, in their original order. */
  function InStock(lots: seq<Lot>): (r: seq<Lot>)
    ensures forall l :: l in r <==> l in lots && l.currentCount > 0
    ensures forall i :: 0 <= i < |r| ==> r[i].currentCount > 0
  {
    if lots == [] then []
    else (if lots[0].currentCount > 0 then [lots[0]] else []) + InStock(lots[1..])
  }

  /** The lots with stock, oldest first; equal timestamps keep their order. */
  function FifoOrder(lots: seq<Lot>): (r: seq<Lot>)
    ensures multiset(r) == multiset(InStock(lots))
    ensures SortedBy(r, CreatedKey)
    ensures forall i :: 0 <= i < |r| ==> r[i].currentCount > 0
  {
    var r := SortBy(InStock(lots), CreatedKey);
    assert forall i :: 0 <= i < |r| ==> r[i] in multiset(InStock(lots));
    r
  }

  /** Units in stock across the lots with positive stock. */
  function StockInHand(lots: seq<Lot>): int
  {
    SumInt(InStock(lots), CurrentCount)
  }

  /** Units taken from a lot holding `available` when `remaining` are still wanted. */
  function Take(available: int, remaining: int): int
  {
    if remaining <= 0 then 0 else MinI(available, remaining)
  }

  /** Units still wanted after the first `i` lots of `order` have been used. */
  function Remaining(order: seq<Lot>, requested: int, i: nat): int
    requires i <= |order|
  {
    if i == 0 then requested
    else
      var r := Remaining(order, requested, i - 1);
      r - Take(order[i - 1].currentCount, r)
  }

  /** Units taken from lot `i` of `order`. */
  function TakenFrom(order: seq<Lot>, requested: int, i: nat): int
    requires i < |order|
  {
    Take(order[i].currentCount, Remaining(order, requested, i))
  }

  /** Units taken from the first `i` lots. */
  function TakenUpTo(order: seq<Lot>, requested: int, i: nat): int
    requires i <= |order|
  {
    if i == 0 then 0 else TakenUpTo(order, requested, i - 1) + TakenFrom(order, requested, i - 1)
  }

  /** Price of the units taken from the first `i` lots, each at its lot's selling price. */
  function PriceUpTo(order: seq<Lot>, requested: int, i: nat): real
    requires i <= |order|
  {
    if i == 0 then 0.0
    else PriceUpTo(order, requested, i - 1) + TakenFrom(order, requested, i - 1) as real * order[i - 1].sellingPrice
  }

  /** Stock in the first `i` lots of `order`. */
  function StockUpTo(order: seq<Lot>, i: nat): int
    requires i <= |order|
  {
    SumInt(order[..i], CurrentCount)
  }

  /** What the sale form shows under the quantity field. */
  datatype SaleQuote =
    | ZeroTotal                 // "0.00": the quantity is not positive
    | Insufficient(missing: int) // "not enough stock (missing N)"
    | Total(price: real)        // the price of the requested units

  /** The quote the sale form shows for `requested` units. */
  function FifoQuote(lots: seq<Lot>, requested: int): SaleQuote
  {
    if requested <= 0 then ZeroTotal
    else
      var order := FifoOrder(lots);
      var left := Remaining(order, requested, |order|);
      if left > 0 then Insufficient(left) else Total(PriceUpTo(order, requested, |order|))
  }

  /** The loop of the sale form's total: walk the lots oldest first, take from each
      the smaller of its stock and what is still wanted, stop once nothing is wanted. */
  method Allocate(order: seq<Lot>, requested: int) returns (remaining: int, totalPrice: real)
    ensures remaining == Remaining(order, requested, |order|)
    ensures totalPrice == PriceUpTo(order, requested, |order|)
  {
    remaining := requested;
    totalPrice := 0.0;
    var i := 0;
    while i < |order|
      invariant 0 <= i <= |order|
      invariant remaining == Remaining(order, requested, i)
      invariant totalPrice == PriceUpTo(order, requested, i)
    {
      if remaining <= 0 {
        NothingMoreTaken(order, requested, i);
        break;
      }
      var fromLot := MinI(order[i].currentCount, remaining);
      totalPrice := totalPrice + fromLot as real * order[i].sellingPrice;
      remaining := remaining - fromLot;
      i := i + 1;
    }
  }

  /** The sale form's total (`updateSaleTotal`): nothing for a non-positive
      quantity, otherwise the FIFO walk over the product's lots with stock. */
  method UpdateSaleTotal(lots: seq<Lot>, requested: int) returns (quote: SaleQuote)
    ensures quote == FifoQuote(lots, requested)
    ensures requested <= 0 <==> quote == ZeroTotal
    ensures requested > 0 ==> (quote.Insufficient? <==> requested > StockInHand(lots))
    ensures quote.Insufficient? ==> quote.missing == requested - StockInHand(lots)
  {
    QuoteOutcome(lots, requested);
    if requested <= 0 {
      return ZeroTotal;
    }
    var order := FifoOrder(lots);
    var remaining, totalPrice := Allocate(order, requested);
    if remaining > 0 {
      quote := Insufficient(remaining);
    } else {
      quote := Total(totalPrice);
    }
  }

  /** Once nothing is wanted, later lots give nothing and the price stays. */
  lemma {:induction false} NothingMoreTaken(order: seq<Lot>, requested: int, i: nat)
    requires i <= |order|
    requires Remaining(order, requested, i) <= 0
    ensures Remaining(order, requested, |order|) == Remaining(order, requested, i)
    ensures PriceUpTo(order, requested, |order|) == PriceUpTo(order, requested, i)
    decreases |order| - i
  {
    if i < |order| {
      assert Remaining(order, requested, i + 1) == Remaining(order, requested, i);
      NothingMoreTaken(order, requested, i + 1);
    }
  }

  /** What is still wanted is the request less what was taken. */
  lemma {:induction false} TakenPlusRemaining(order: seq<Lot>, requested: int, i: nat)
    requires i <= |order|
    ensures TakenUpTo(order, requested, i) + Remaining(order, requested, i) == requested
  {
    if i > 0 {
      TakenPlusRemaining(order, requested, i - 1);
    }
  }

  /** With a positive request over lots with positive stock, what is still wanted
      after `i` lots is the request less their stock, or nothing. */
  lemma {:induction false} RemainingIsShortfall(order: seq<Lot>, requested: int, i: nat)
    requires i <= |order|
    requires requested > 0
    requires forall k :: 0 <= k < |order| ==> order[k].currentCount > 0
    ensures Remaining(order, requested, i) == MaxI(0, requested - StockUpTo(order, i))
  {
    if i > 0 {
      RemainingIsShortfall(order, requested, i - 1);
      assert order[..i] == order[..i - 1] + [order[i - 1]];
      assert order[..i][..i - 1] == order[..i - 1];
    }
  }

  /** Conservation: the units taken are the request or the whole stock, whichever is smaller. */
  lemma UnitsTaken(order: seq<Lot>, requested: int)
    requires requested > 0
    requires forall k :: 0 <= k < |order| ==> order[k].currentCount > 0
    ensures TakenUpTo(order, requested, |order|) == MinI(requested, SumInt(order, CurrentCount))
  {
    TakenPlusRemaining(order, requested, |order|);
    RemainingIsShortfall(order, requested, |order|);
    assert order[..|order|] == order;
  }

  /** FIFO: a newer lot gives units only after every older lot is exhausted. */
  lemma {:induction false} OlderLotsExhaustedFirst(order: seq<Lot>, requested: int, i: nat, j: nat)
    requires i < j < |order|
    requires forall k :: 0 <= k < |order| ==> order[k].currentCount > 0
    requires TakenFrom(order, requested, j) > 0
    ensures TakenFrom(order, requested, i) == order[i].currentCount
  {
    RemainingNonIncreasing(order, requested, i + 1, j);
  }

  lemma {:induction false} RemainingNonIncreasing(order: seq<Lot>, requested: int, i: nat, j: nat)
    requires i <= j <= |order|
    requires forall k :: 0 <= k < |order| ==> order[k].currentCount > 0
    ensures Remaining(order, requested, j) <= Remaining(order, requested, i)
    decreases j - i
  {
    if i < j {
      RemainingNonIncreasing(order, requested, i, j - 1);
    }
  }

  /** No lot gives more than it holds, nor a negative amount. */
  lemma TakenWithinLot(order: seq<Lot>, requested: int, i: nat)
    requires i < |order|
    requires forall k :: 0 <= k < |order| ==> order[k].currentCount > 0
    ensures 0 <= TakenFrom(order, requested, i) <= order[i].currentCount
  {
  }

  /** The quote reports a shortfall exactly when the stock in hand is short of the
      request, and then the shortfall is the difference. */
  lemma QuoteShortfall(lots: seq<Lot>, requested: int)
    requires requested > 0
    ensures var order := FifoOrder(lots);
            Remaining(order, requested, |order|) == MaxI(0, requested - StockInHand(lots))
  {
    var order := FifoOrder(lots);
    RemainingIsShortfall(order, requested, |order|);
    assert order[..|order|] == order;
    SumIntPermutation(order, InStock(lots), CurrentCount);
  }

  /** The three outcomes of the quote: nothing to price, a shortfall of exactly
      the missing units, or a price. */
  lemma QuoteOutcome(lots: seq<Lot>, requested: int)
    ensures requested <= 0 <==> FifoQuote(lots, requested) == ZeroTotal
    ensures requested > 0 ==> (FifoQuote(lots, requested).Insufficient? <==> requested > StockInHand(lots))
    ensures FifoQuote(lots, requested).Insufficient? ==>
              FifoQuote(lots, requested).missing == requested - StockInHand(lots)
  {
    if requested > 0 {
      QuoteShortfall(lots, requested);
    }
  }

  /** A priced quote took exactly the requested units, oldest lots first. */
  lemma QuoteTakesRequested(lots: seq<Lot>, requested: int)
    requires FifoQuote(lots, requested).Total?
    ensures requested > 0
    ensures var order := FifoOrder(lots);
            TakenUpTo(order, requested, |order|) == requested
  {
    var order := FifoOrder(lots);
    TakenPlusRemaining(order, requested, |order|);
    QuoteShortfall(lots, requested);
  }

  // ---------------------------------------------------------------------------
  // The sale form

  /** The entry for a product in the sale form's product picker. */
  datatype SaleOption = SaleOption(productId: int, available: int, oldest: Option<Lot>)

  /** Total stock of a product as the picker counts it: every lot's `current_count`. */
  function TotalAvailable(lots: seq<Lot>): int
  {
    SumInt(lots, CurrentCount)
  }

  /** A product is offered only when its lots hold stock; the entry carries the
      total and the oldest lot with stock, whose id the sale is booked against. */
  function SaleOptionFor(productId: int, lots: seq<Lot>): (r: Option<SaleOption>)
    ensures r.Some? <==> TotalAvailable(lots) > 0
    ensures r.Some? ==> r.value.productId == productId && r.value.available == TotalAvailable(lots)
    ensures r.Some? ==> (r.value.oldest.None? <==> forall l :: l in lots ==> l.currentCount <= 0)
    ensures r.Some? && r.value.oldest.Some? ==>
              var o := r.value.oldest.value;
              o in lots && o.currentCount > 0 &&
              forall l :: l in lots && l.currentCount > 0 ==> o.createdOn <= l.createdOn
    ensures r.Some? && r.value.oldest.Some? ==>
              var o := r.value.oldest.value;
              var ties := WithKey(InStock(lots), CreatedKey, CreatedKey(o));
              ties != [] && ties[0] == o
  {
    var total := TotalAvailable(lots);
    if total > 0 then
      var order := FifoOrder(lots);
      OldestFirst(lots);
      if |order| > 0 then OldestFirstOfTies(lots); Some(SaleOption(productId, total, Some(order[0])))
      else
      Some(SaleOption(productId, total, None))
    else None
  }

  /** Among the in-stock lots bought at the same moment as the head of the FIFO order,
      the head is the first in the order the lots were listed: the sort is stable. */
  lemma OldestFirstOfTies(lots: seq<Lot>)
    requires |FifoOrder(lots)| > 0
    ensures var o := FifoOrder(lots)[0];
            var ties := WithKey(InStock(lots), CreatedKey, CreatedKey(o));
            ties != [] && ties[0] == o
  {
    var order := FifoOrder(lots);
    var v := CreatedKey(order[0]);
    SortStable(InStock(lots), CreatedKey, v);
    assert WithKey(order, CreatedKey, v) == [order[0]] + WithKey(order[1..], CreatedKey, v);
  }

  /** The head of the FIFO order is a lot with stock no younger than any other. */
  lemma OldestFirst(lots: seq<Lot>)
    ensures var order := FifoOrder(lots);
            (|order| == 0 <==> forall l :: l in lots ==> l.currentCount <= 0) &&
            (|order| > 0 ==>
               (order[0] in lots && order[0].currentCount > 0 &&
                forall l :: l in lots && l.currentCount > 0 ==> order[0].createdOn <= l.createdOn))
  {
    var order := FifoOrder(lots);
    forall l | l in lots && l.currentCount > 0
      ensures l in order
    {
      assert l in InStock(lots);
      assert l in multiset(order);
    }
    if |order| > 0 {
      assert order[0] in multiset(InStock(lots));
      forall l | l in lots && l.currentCount > 0
        ensures order[0].createdOn <= l.createdOn
      {
        var j :| 0 <= j < |order| && order[j] == l;
        if j > 0 {
          assert CreatedKey(order[0]) <= CreatedKey(order[j]);
        }
      }
    }
  }

  datatype SaleError =
    | NoProductSelected      // no product picked
    | NoLotForProduct        // the picked product has no lot with stock
    | NonPositiveQuantity    // quantity <= 0
    | ExceedsAvailable(available: int)

  /** A sale the form submits: one lot and a quantity. */
  datatype SaleRequest = SaleRequest(purchaseId: int, quantity: int)

  /** The checks `saveSale` makes before submitting, in the source's order. */
  function SaveSale(picked: Option<SaleOption>, quantity: int): (r: Result<SaleRequest, SaleError>)
    ensures r.Ok? <==> picked.Some? && picked.value.oldest.Some? && 0 < quantity <= picked.value.available
    ensures r.Ok? ==> r.value == SaleRequest(picked.value.oldest.value.id, quantity)
    ensures picked.None? ==> r == Err(NoProductSelected)
    ensures picked.Some? && picked.value.oldest.None? ==> r == Err(NoLotForProduct)
    ensures picked.Some? && picked.value.oldest.Some? && quantity <= 0 ==> r == Err(NonPositiveQuantity)
    ensures picked.Some? && picked.value.oldest.Some? && quantity > 0 && quantity > picked.value.available ==>
              r == Err(ExceedsAvailable(picked.value.available))
  {
    if picked.None? then Err(NoProductSelected)
    else if picked.value.oldest.None? then Err(NoLotForProduct)
    else if quantity <= 0 then Err(NonPositiveQuantity)
    else if quantity > picked.value.available then Err(ExceedsAvailable(picked.value.available))
    else Ok(SaleRequest(picked.value.oldest.value.id, quantity))
  }

  /** When no lot holds negative stock, a quantity the sale form accepts is one the
      FIFO preview can price in full. */
  lemma AcceptedSaleIsPriced(productId: int, lots: seq<Lot>, quantity: int)
    requires forall l :: l in lots ==> l.currentCount >= 0
    requires SaveSale(SaleOptionFor(productId, lots), quantity).Ok?
    ensures FifoQuote(lots, quantity).Total?
  {
    InStockCarriesAllStock(lots);
    QuoteShortfall(lots, quantity);
  }

  /** Lots without stock add nothing when no count is negative. */
  lemma {:induction false} InStockCarriesAllStock(lots: seq<Lot>)
    requires forall l :: l in lots ==> l.currentCount >= 0
    ensures StockInHand(lots) == TotalAvailable(lots)
  {
    if lots != [] {
      assert lots == [lots[0]] + lots[1..];
      assert forall l :: l in lots[1..] ==> l in lots;
      InStockCarriesAllStock(lots[1..]);
      var head := if lots[0].currentCount > 0 then [lots[0]] else [];
      SumIntAppend(head, InStock(lots[1..]), CurrentCount);
      SumIntAppend([lots[0]], lots[1..], CurrentCount);
      assert [lots[0]][..0] == [];
    }
  }

  // ---------------------------------------------------------------------------
  // Write-off and purchase forms

  datatype WriteoffError = ExceedsLotStock(maximum: int)

  /** The write-off total for `quantity` units of a lot: refused above the lot's
      stock, otherwise quantity times the purchase price. */
  function WriteoffTotal(quantity: int, purchasePrice: real, currentCount: int): (r: Result<real, WriteoffError>)
    ensures r.Err? <==> quantity > currentCount
    ensures r.Err? ==> r.error.maximum == currentCount
    ensures r.Ok? ==> r.value == quantity as real * purchasePrice
  {
    if quantity > currentCount then Err(ExceedsLotStock(currentCount))
    else Ok(quantity as real * purchasePrice)
  }

  /** A write-off the form accepts never costs more than the lot's whole stock at its
      purchase price, nor less than nothing. */
  lemma WriteoffWithinLotValue(quantity: int, purchasePrice: real, currentCount: int)
    requires quantity >= 0 && purchasePrice >= 0.0
    requires WriteoffTotal(quantity, purchasePrice, currentCount).Ok?
    ensures 0.0 <= WriteoffTotal(quantity, purchasePrice, currentCount).value <= currentCount as real * purchasePrice
  {
    var q, c := quantity as real, currentCount as real;
    assert 0.0 <= q <= c;
    ScaledBelow(q, c, purchasePrice);
  }

  lemma ScaledBelow(q: real, c: real, p: real)
    requires 0.0 <= q <= c && p >= 0.0
    ensures 0.0 <= q * p <= c * p
  {
  }

  /** The purchase form's rejections; a field the form could not parse is `None`. */
  datatype PurchaseError = NoProductChosen | BadPurchasePrice | BadQuantity | NoWarehouseChosen

  /** `savePurchase`'s checks, in its order: a product, a positive price, a positive
      quantity, then a warehouse. */
  function CheckPurchase(productId: Option<int>, purchasePrice: Option<real>, quantity: Option<int>,
                         warehouseId: Option<int>): (r: Option<PurchaseError>)
    ensures r.None? <==> productId.Some? && purchasePrice.Some? && purchasePrice.value > 0.0 &&
                         quantity.Some? && quantity.value > 0 && warehouseId.Some?
    ensures productId.None? ==> r == Some(NoProductChosen)
    ensures productId.Some? && (purchasePrice.None? || purchasePrice.value <= 0.0) ==> r == Some(BadPurchasePrice)
    ensures (productId.Some? && purchasePrice.Some? && purchasePrice.value > 0.0 &&
             (quantity.None? || quantity.value <= 0)) ==> r == Some(BadQuantity)
    ensures r == Some(NoWarehouseChosen) <==>
              productId.Some? && purchasePrice.Some? && purchasePrice.value > 0.0 &&
              quantity.Some? && quantity.value > 0 && warehouseId.None?
  {
    if productId.None? then Some(NoProductChosen)
    else if purchasePrice.None? || purchasePrice.value <= 0.0 then Some(BadPurchasePrice)
    else if quantity.None? || quantity.value <= 0 then Some(BadQuantity)
    else if warehouseId.None? then Some(NoWarehouseChosen)
    else None
  }
}

=== FILE: fill.dfy ===
/** Gap filling of a daily series (`fillMissingDates`): the series is laid out on
    every calendar day from its first to its last day; a missing day takes the
    mean of the days just before and after it when both are known, else the one
    that is known, else the mean of all known values. Days are integer indices. */
module Fill {
  import opened Seqs

  /** `s.indexOf(x)`: the first position of `x`, or -1. */
  function IndexOf<T(==)>(s: seq<T>, x: T): (i: int)
    ensures -1 <= i < |s|
    ensures i == -1 <==> x !in s
    ensures i >= 0 ==> s[i] == x && x !in s[..i]
  {
    if s == [] then -1
    else if s[0] == x then 0
    else
      var j := IndexOf(s[1..], x);
      assert x in s <==> x == s[0] || x in s[1..] by {
        assert s == [s[0]] + s[1..];
      }
      if j == -1 then -1
      else
        assert s[..j + 1] == [s[0]] + s[1..][..j];
        j + 1
  }

  /** The value the filled series holds on day `d`. */
  function FillValue(dates: seq<int>, values: seq<real>, d: int): real
    requires |dates| == |values| && |values| > 0
  {
    var index := IndexOf(dates, d);
    if index != -1 then values[index]
    else
      var prev := IndexOf(dates, d - 1);
      var next := IndexOf(dates, d + 1);
      if prev != -1 && next != -1 then (values[prev] + values[next]) / 2.0
      else if prev != -1 then values[prev]
      else if next != -1 then values[next]
      else Mean(values)
  }

  /** The filling loop: one entry per calendar day from the first day to the last. */
  method FillMissingDates(dates: seq<int>, values: seq<real>) returns (allDates: seq<int>, allValues: seq<real>)
    requires |dates| == |values| && StrictlyIncreasing(dates)
    ensures |dates| <= 1 ==> allDates == dates && allValues == values
    ensures |dates| >= 2 ==> |allDates| == dates[|dates| - 1] - dates[0] + 1 && |allValues| == |allDates|
    ensures |dates| >= 2 ==> forall i :: 0 <= i < |allDates| ==>
              allDates[i] == dates[0] + i && allValues[i] == FillValue(dates, values, allDates[i])
  {
    if |dates| <= 1 {
      return dates, values;
    }
    var first, last := dates[0], dates[|dates| - 1];
    assert first < last;
    allDates, allValues := [], [];
    var d := first;
    while d <= last
      invariant first <= d <= last + 1
      invariant |allDates| == d - first && |allValues| == d - first
      invariant forall i :: 0 <= i < |allDates| ==>
                  allDates[i] == first + i && allValues[i] == FillValue(dates, values, allDates[i])
    {
      allDates := allDates + [d];
      var index := IndexOf(dates, d);
      if index != -1 {
        allValues := allValues + [values[index]];
      } else {
        var prevIndex := IndexOf(dates, d - 1);
        var nextIndex := IndexOf(dates, d + 1);
        if prevIndex != -1 && nextIndex != -1 {
          allValues := allValues + [(values[prevIndex] + values[nextIndex]) / 2.0];
        } else if prevIndex != -1 {
          allValues := allValues + [values[prevIndex]];
        } else if nextIndex != -1 {
          allValues := allValues + [values[nextIndex]];
        } else {
          var avg := Sum(values) / |values| as real;
          allValues := allValues + [avg];
        }
      }
      d := d + 1;
    }
  }

  /** The first position of an element of a duplicate-free sequence is its position. */
  lemma IndexOfDistinct(s: seq<int>, k: int)
    requires StrictlyIncreasing(s) && 0 <= k < |s|
    ensures IndexOf(s, s[k]) == k
  {
  }

  /** Every known day keeps its value, at its own offset from the first day. */
  lemma KnownDaysKept(dates: seq<int>, values: seq<real>, k: int)
    requires |dates| == |values| && StrictlyIncreasing(dates)
    requires 0 <= k < |dates|
    ensures 0 <= dates[k] - dates[0] <= dates[|dates| - 1] - dates[0]
    ensures FillValue(dates, values, dates[k]) == values[k]
  {
    IndexOfDistinct(dates, k);
  }

  /** Every filled value lies between the smallest and largest known value. */
  lemma FillWithinRange(dates: seq<int>, values: seq<real>, d: int)
    requires |dates| == |values| && |values| > 0
    ensures SeqMin(values) <= FillValue(dates, values, d) <= SeqMax(values)
  {
    var index := IndexOf(dates, d);
    if index == -1 {
      var prev := IndexOf(dates, d - 1);
      var next := IndexOf(dates, d + 1);
      if prev != -1 && next != -1 {
        assert SeqMin(values) <= values[prev] <= SeqMax(values);
        assert SeqMin(values) <= values[next] <= SeqMax(values);
      } else if prev == -1 && next == -1 {
        MeanBounds(values);
      }
    }
  }

  /** A one-day gap between 100 and 200 is filled with 150. */
  lemma GapBetweenTwoDays()
    ensures FillValue([10, 12], [100.0, 200.0], 11) == 150.0
  {
    assert IndexOf([10, 12], 11) == -1;
    assert IndexOf([10, 12], 10) == 0;
    assert IndexOf([10, 12], 12) == 1 by {
      assert [10, 12][1..] == [12];
    }
  }

  /** A gap day far from every known day gets the mean of the known values. */
  lemma DistantGapGetsMean()
    ensures FillValue([0, 10], [100.0, 200.0], 5) == 150.0
  {
    assert IndexOf([0, 10], 5) == -1;
    assert IndexOf([0, 10], 4) == -1;
    assert IndexOf([0, 10], 6) == -1;
    assert Sum([100.0, 200.0]) == 300.0 by {
      assert [100.0, 200.0][..1] == [100.0];
      assert [100.0][..0] == [];
    }
  }
}

=== FILE: financial.dfy ===
/** The revenue and expense series behind the financial charts: the summary
    figures of a per-day series (`fetchRevenueData` / `fetchExpensesData`), the
    merge of two series onto one axis (`aggregateFinancialData`) and the roll-up
    of days into weeks or months (`aggregateByPeriod`). Days and periods are
    integer indices that sort in calendar order. */
module Financial {
  import opened Seqs
  import opened Sorting
  import opened Grouping

  /** `m[k] || 0`: the entry, or 0 for a missing key. */
  function Lookup<K>(m: map<K, real>): K -> real
  {
    k => if k in m then m[k] else 0.0
  }

  /** The entries of a dictionary summed in key order are the sum of `Lookup` over its keys. */
  lemma {:induction false} DictTotalIsSumBy<K>(ks: seq<K>, m: map<K, real>)
    requires forall k :: k in ks ==> k in m
    ensures DictTotalOver(ks, m) == SumBy(ks, Lookup(m))
  {
    if ks != [] {
      assert forall k :: k in ks[..|ks| - 1] ==> k in ks;
      DictTotalIsSumBy(ks[..|ks| - 1], m);
    }
  }

  // ---------------------------------------------------------------------------
  // Summary of one series

  /** `reduce((a, b) => v[a] > v[b] ? a : b)`: a later entry wins unless the kept
      one is strictly larger, so the result is the LAST index of the maximum. */
  function BestIndex(v: seq<real>): (i: nat)
    requires |v| > 0
    ensures i < |v|
    ensures forall j :: 0 <= j < |v| ==> v[j] <= v[i]
    ensures forall j :: i < j < |v| ==> v[j] < v[i]
  {
    if |v| == 1 then 0
    else
      var a := BestIndex(v[..|v| - 1]);
      if v[a] > v[|v| - 1] then a else |v| - 1
  }

  datatype SeriesSummary = SeriesSummary(dates: seq<int>, values: seq<real>, total: real,
                                         bestDay: Option<int>, averageDaily: real)

  /** The chart data of a per-day series: the days ascending with their values, the
      total, the best day and the average per day with data. */
  function Summarize(d: Dict<int, real>): (r: SeriesSummary)
    requires d.Valid()
    ensures |r.values| == |r.dates| && StrictlyIncreasing(r.dates)
    ensures forall k :: k in r.dates <==> k in d.entries
    ensures forall i :: 0 <= i < |r.dates| ==> r.values[i] == d.entries[r.dates[i]]
    ensures r.bestDay.None? <==> |r.dates| == 0
    ensures r.averageDaily == PerDay(r.total, |r.dates|)
  {
    var dates := SortedSet(d.keys);
    var values := MapSeq(dates, Lookup(d.entries));
    var total := DictTotal(d);
    assert forall k :: k in dates <==> k in d.entries;
    assert forall i :: 0 <= i < |dates| ==> values[i] == d.entries[dates[i]] by {
      forall i | 0 <= i < |dates| ensures values[i] == d.entries[dates[i]] {
        assert dates[i] in d.entries;
        assert values[i] == Lookup(d.entries)(dates[i]);
      }
    }
    var average := PerDay(total, |dates|);
    SeriesSummary(dates, values, total,
                  if |dates| > 0 then Some(dates[BestIndex(values)]) else None,
                  average)
  }

  /** `total / count`, or 0 without days. */
  function PerDay(total: real, count: nat): (a: real)
    ensures count == 0 ==> a == 0.0
    ensures count > 0 ==> a * count as real == total
  {
    if count > 0 then total / count as real else 0.0
  }

  /** The total in the chart data is the sum of the values the chart shows. */
  lemma SummaryTotal(d: Dict<int, real>)
    requires d.Valid()
    ensures Summarize(d).total == Sum(Summarize(d).values)
  {
    var dates := SortedSet(d.keys);
    DictTotalIsSumBy(d.keys, d.entries);
    StrictlyIncreasingNoDup(dates);
    SameElementsPermutation(d.keys, dates);
    SumByPermutation(d.keys, dates, Lookup(d.entries));
    SumMapSeq(dates, Lookup(d.entries));
  }

  /** Over ascending days, the best index's value is the largest, and every later
      day's is strictly smaller. */
  lemma LastMaximumByDate(dates: seq<int>, values: seq<real>, j: nat)
    requires StrictlyIncreasing(dates) && |values| == |dates| && j < |dates|
    ensures values[j] <= values[BestIndex(values)]
    ensures dates[j] > dates[BestIndex(values)] ==> values[j] < values[BestIndex(values)]
  {
    var i := BestIndex(values);
    if j < i {
      assert dates[j] < dates[i];
    }
  }

  /** The best day has the largest value, and every later day a strictly smaller one. */
  lemma BestDayIsLastMaximum(d: Dict<int, real>)
    requires d.Valid() && |d.keys| > 0
    ensures var r := Summarize(d);
            r.bestDay.Some? && r.bestDay.value in d.entries &&
            (forall k :: k in d.entries ==> d.entries[k] <= d.entries[r.bestDay.value]) &&
            (forall k :: k in d.entries && k > r.bestDay.value ==> d.entries[k] < d.entries[r.bestDay.value])
  {
    var r := Summarize(d);
    assert d.keys[0] in r.dates;
    var i := BestIndex(r.values);
    var best := r.dates[i];
    assert r.bestDay == Some(best);
    forall k | k in d.entries
      ensures d.entries[k] <= d.entries[best]
      ensures k > best ==> d.entries[k] < d.entries[best]
    {
      var j :| 0 <= j < |r.dates| && r.dates[j] == k;
      LastMaximumByDate(r.dates, r.values, j);
    }
  }

  /** The daily average lies between the smallest and the largest daily value. */
  lemma AverageBetweenExtremes(d: Dict<int, real>)
    requires d.Valid() && |d.keys| > 0
    ensures var r := Summarize(d);
            SeqMin(r.values) <= r.averageDaily <= SeqMax(r.values)
  {
    var r := Summarize(d);
    assert d.keys[0] in r.dates;
    SummaryTotal(d);
    MeanBounds(r.values);
  }

  // ---------------------------------------------------------------------------
  // Two series on one axis

  datatype FinancialSeries = FinancialSeries(keys: seq<int>, revenueValues: seq<real>, expensesValues: seq<real>)

  /** Both series' keys, each once and ascending, with each series' value or 0. */
  function MergeSeries(revenue: Dict<int, real>, expenses: Dict<int, real>): (r: FinancialSeries)
    ensures |r.revenueValues| == |r.keys| && |r.expensesValues| == |r.keys|
    ensures StrictlyIncreasing(r.keys)
    ensures forall k :: k in r.keys <==> k in revenue.keys || k in expenses.keys
    ensures forall i :: 0 <= i < |r.keys| ==>
              r.revenueValues[i] == (if r.keys[i] in revenue.entries then revenue.entries[r.keys[i]] else 0.0) &&
              r.expensesValues[i] == (if r.keys[i] in expenses.entries then expenses.entries[r.keys[i]] else 0.0)
  {
    var keys := SortedSet(revenue.keys + expenses.keys);
    FinancialSeries(keys, MapSeq(keys, Lookup(revenue.entries)), MapSeq(keys, Lookup(expenses.entries)))
  }

  /** Merging loses nothing: each merged series still adds up to its own total. */
  lemma MergeConserves(revenue: Dict<int, real>, expenses: Dict<int, real>)
    requires revenue.Valid() && expenses.Valid()
    ensures Sum(MergeSeries(revenue, expenses).revenueValues) == DictTotal(revenue)
    ensures Sum(MergeSeries(revenue, expenses).expensesValues) == DictTotal(expenses)
  {
    var keys := MergeSeries(revenue, expenses).keys;
    SumMapSeq(keys, Lookup(revenue.entries));
    SumMapSeq(keys, Lookup(expenses.entries));
    SumOverSuperset(revenue, keys);
    SumOverSuperset(expenses, keys);
  }

  /** Summing `d[k] || 0` over duplicate-free keys that include all of `d`'s gives `d`'s total. */
  lemma SumOverSuperset(d: Dict<int, real>, keys: seq<int>)
    requires d.Valid() && StrictlyIncreasing(keys)
    requires forall k :: k in d.keys ==> k in keys
    ensures SumBy(keys, Lookup(d.entries)) == DictTotal(d)
  {
    StrictlyIncreasingNoDup(keys);
    var extra := Without(keys, d.keys);
    SumOfAbsent(extra, d.entries);
    DictTotalIsSumBy(d.keys, d.entries);
    SumByAppend(d.keys, extra, Lookup(d.entries));
    forall k ensures k in d.keys + extra <==> k in keys { }
    assert NoDup(d.keys + extra) by {
      var s := d.keys + extra;
      forall i, j | 0 <= i < j < |s| ensures s[i] != s[j] {
        if j >= |d.keys| && i < |d.keys| {
          assert s[j] in extra && s[i] in d.keys;
        }
      }
    }
    SameElementsPermutation(d.keys + extra, keys);
    SumByPermutation(d.keys + extra, keys, Lookup(d.entries));
  }

  /** The elements of `s` that are not in `t`, in order. */
  function Without(s: seq<int>, t: seq<int>): (r: seq<int>)
    ensures forall k :: k in r <==> k in s && k !in t
    ensures NoDup(s) ==> NoDup(r)
  {
    if s == [] then []
    else
      var rest := Without(s[1..], t);
      assert forall k :: k in s <==> k == s[0] || k in s[1..];
      if s[0] in t then rest else [s[0]] + rest
  }

  lemma {:induction false} SumOfAbsent(ks: seq<int>, m: map<int, real>)
    requires forall k :: k in ks ==> k !in m
    ensures SumBy(ks, Lookup(m)) == 0.0
  {
    if ks != [] {
      var last := ks[|ks| - 1];
      assert last in ks;
      assert last !in m;
      assert Lookup(m)(last) == 0.0;
      assert forall k :: k in ks[..|ks| - 1] ==> k in ks;
      SumOfAbsent(ks[..|ks| - 1], m);
    }
  }

  // ---------------------------------------------------------------------------
  // Weeks and months

  /** `aggregateByPeriod`: every day's value is added to its period's entry. */
  method AggregateByPeriod(data: Dict<int, real>, periodOf: int -> int) returns (result: Dict<int, real>)
    requires data.Valid()
    ensures Groups(result, data.keys, periodOf, Lookup(data.entries))
    ensures DictTotal(result) == DictTotal(data)
  {
    result := EmptyDict();
    var i := 0;
    while i < |data.keys|
      invariant 0 <= i <= |data.keys|
      invariant Groups(result, data.keys[..i], periodOf, Lookup(data.entries))
    {
      var date := data.keys[i];
      assert data.keys[..i + 1] == data.keys[..i] + [date];
      AccumulateGroups(result, data.keys[..i], date, periodOf, Lookup(data.entries));
      result := Accumulate(result, periodOf(date), data.entries[date]);
      i := i + 1;
    }
    assert data.keys[..i] == data.keys;
    forall x | x in data.keys ensures periodOf(x) in result.entries {
      assert periodOf(x) in KeysOf(data.keys, periodOf);
    }
    DictTotalConserves(result, data.keys, periodOf, Lookup(data.entries));
    DictTotalIsSumBy(data.keys, data.entries);
  }

  datatype Period = Day | Week | Month

  /** The period a day falls in, for the week and month views. */
  function PeriodOf(period: Period, weekOf: int -> int, monthOf: int -> int): int -> int
  {
    if period == Week then weekOf else monthOf
  }

  /** Read off a roll-up, a period holds the sum of its days' values, 0 when it has none. */
  lemma GroupedValue(grouped: Dict<int, real>, data: Dict<int, real>, periodOf: int -> int, k: int)
    requires Groups(grouped, data.keys, periodOf, Lookup(data.entries))
    ensures k in grouped.keys <==> k in KeysOf(data.keys, periodOf)
    ensures Lookup(grouped.entries)(k) == KeyedSum(data.keys, periodOf, k, Lookup(data.entries))
  {
    if k !in grouped.entries {
      KeyedSumAbsent(data.keys, periodOf, k, Lookup(data.entries));
    }
  }

  /** `aggregateFinancialData`: the day view merges the series as they are; the week and
      month views first roll each series up by the period of each day. */
  method AggregateFinancialData(revenue: Dict<int, real>, expenses: Dict<int, real>, period: Period,
                                weekOf: int -> int, monthOf: int -> int) returns (r: FinancialSeries)
    requires revenue.Valid() && expenses.Valid()
    ensures period == Day ==> r == MergeSeries(revenue, expenses)
    ensures Sum(r.revenueValues) == DictTotal(revenue)
    ensures Sum(r.expensesValues) == DictTotal(expenses)
    ensures |r.revenueValues| == |r.keys| && |r.expensesValues| == |r.keys| && StrictlyIncreasing(r.keys)
    ensures period != Day ==>
              forall k :: k in r.keys <==> k in KeysOf(revenue.keys, PeriodOf(period, weekOf, monthOf)) ||
                                           k in KeysOf(expenses.keys, PeriodOf(period, weekOf, monthOf))
    ensures period != Day ==>
              forall i :: 0 <= i < |r.keys| ==>
                r.revenueValues[i] == KeyedSum(revenue.keys, PeriodOf(period, weekOf, monthOf), r.keys[i],
                                               Lookup(revenue.entries)) &&
                r.expensesValues[i] == KeyedSum(expenses.keys, PeriodOf(period, weekOf, monthOf), r.keys[i],
                                                Lookup(expenses.entries))
  {
    if period == Day {
      r := MergeSeries(revenue, expenses);
      MergeConserves(revenue, expenses);
    } else {
      var periodOf := PeriodOf(period, weekOf, monthOf);
      var groupedRevenue := AggregateByPeriod(revenue, periodOf);
      var groupedExpenses := AggregateByPeriod(expenses, periodOf);
      r := MergeSeries(groupedRevenue, groupedExpenses);
      MergeConserves(groupedRevenue, groupedExpenses);
      forall k ensures k in r.keys <==> k in KeysOf(revenue.keys, periodOf) || k in KeysOf(expenses.keys, periodOf) {
        GroupedValue(groupedRevenue, revenue, periodOf, k);
        GroupedValue(groupedExpenses, expenses, periodOf, k);
      }
      forall i | 0 <= i < |r.keys|
        ensures r.revenueValues[i] == KeyedSum(revenue.keys, periodOf, r.keys[i], Lookup(revenue.entries))
        ensures r.expensesValues[i] == KeyedSum(expenses.keys, periodOf, r.keys[i], Lookup(expenses.entries))
      {
        GroupedValue(groupedRevenue, revenue, periodOf, r.keys[i]);
        GroupedValue(groupedExpenses, expenses, periodOf, r.keys[i]);
      }
    }
  }
}

=== FILE: forecast.dfy ===
/** The sales forecast (`generateImprovedForecastData` and `generateForecast`): the
    daily revenue history is filled, cleaned of outliers and decomposed, and each
    forecast day extends the trend, adds the weekly and weekday effects, a damped
    echo of the recent forecast errors and a shrinking noise term, and never goes
    below zero. Days are integer indices, the weekday of a day is the input
    `weekdayOf`, and the draws of `Math.random` are the input `random`. */
module Forecast {
  import opened Seqs
  import opened Sorting
  import opened Grouping
  import opened Financial
  import opened Fill
  import opened Outliers
  import opened Decomposition
  import opened Patterns

  /** Trend points fitted for the slope, forecast days echoing earlier errors, and the
      largest lag echoed: two weeks each. */
  const RecentDays: nat := 14
  const EchoDays: nat := 14
  const EchoLags: nat := 14
  /** Autocorrelations at or below this size are ignored. */
  const MinCorrelation: real := 0.2
  const EchoDecay: real := 0.9
  const NoiseDecay: real := 0.98

  // ---------------------------------------------------------------------------
  // Inputs of the forecast

  /** The slope the forecast extends: the least-squares slope of the last two weeks of
      the trend, or the average step over a shorter trend. */
  function ForecastSlope(trend: seq<real>): real
    requires |trend| >= 2
  {
    if |trend| >= RecentDays then TrendSlope(trend[|trend| - RecentDays..])
    else (trend[|trend| - 1] - trend[0]) / (|trend| - 1) as real
  }

  /** Along a straight-line trend, both ways of taking the slope give its step. */
  lemma ForecastSlopeOfLine(trend: seq<real>, a: real, d: real)
    requires |trend| >= 2
    requires forall i :: 0 <= i < |trend| ==> trend[i] == a + d * i as real
    ensures ForecastSlope(trend) == d
  {
    var n := |trend|;
    if n >= RecentDays {
      var recent := trend[n - RecentDays..];
      var start := a + d * (n - RecentDays) as real;
      forall i | 0 <= i < |recent| ensures recent[i] == start + d * i as real {
        assert recent[i] == trend[n - RecentDays + i];
      }
      SlopeOfLine(recent, start, d);
    } else {
      var den := (n - 1) as real;
      assert trend[0] == a;
      assert trend[n - 1] - trend[0] == d * den;
      QuotientOf(trend[n - 1] - trend[0], den, d);
    }
  }

  /** The mean size of the residuals. */
  function AverageResidual(residuals: seq<real>): (avg: real)
    requires |residuals| > 0
    ensures avg >= 0.0
  {
    SumByNonNegative(residuals);
    SumBy(residuals, Abs) / |residuals| as real
  }

  lemma {:induction false} SumByNonNegative(s: seq<real>)
    ensures SumBy(s, Abs) >= 0.0
  {
    if s != [] {
      SumByNonNegative(s[..|s| - 1]);
    }
  }

  lemma {:induction false} PowNonNegative(b: real, k: nat)
    requires b >= 0.0
    ensures Pow(b, k) >= 0.0
  {
    if k > 0 {
      PowNonNegative(b, k - 1);
    }
  }

  lemma {:induction false} PowAtMostOne(b: real, k: nat)
    requires 0.0 <= b <= 1.0
    ensures 0.0 <= Pow(b, k) <= 1.0
  {
    if k > 0 {
      PowAtMostOne(b, k - 1);
      ProductOfFractions(b, Pow(b, k - 1));
    }
  }

  lemma ProductOfFractions(x: real, y: real)
    requires 0.0 <= x <= 1.0 && 0.0 <= y <= 1.0
    ensures 0.0 <= x * y <= 1.0
  {
    NonNegativeProduct(x, y);
    NonNegativeProduct(1.0 - x, y);
  }

  lemma NonNegativeProduct(x: real, y: real)
    requires x >= 0.0 && y >= 0.0
    ensures x * y >= 0.0
  {
  }

  /** What the forecast loop reads from the decomposition. */
  datatype ForecastBasis = ForecastBasis(count: nat, lastDate: int, lastTrend: real, slope: real,
                                         seasonal: seq<real>, dayPattern: seq<real>,
                                         autocorrelation: seq<Option<real>>, avgResidual: real)
  {
    predicate Valid()
    {
      |seasonal| == SeasonalPeriod && |dayPattern| == 7 && |autocorrelation| > EchoLags && avgResidual >= 0.0
    }
  }

  // ---------------------------------------------------------------------------
  // One forecast day

  /** The trend extended `i + 1` days past the last one. */
  function ForecastTrend(b: ForecastBasis, i: int): real
  {
    b.lastTrend + b.slope * (i + 1) as real
  }

  /** The echo of forecast day `i - lag`: its departure from trend and season, scaled by
      the autocorrelation at `lag` and damped by `0.9^lag`; nothing when that
      autocorrelation is NaN, zero or at most 0.2 in size. */
  function EchoTerm(b: ForecastBasis, earlier: seq<real>, i: nat, lag: nat): real
    requires b.Valid() && 1 <= lag <= EchoLags && |earlier| >= i
  {
    var ac := b.autocorrelation[lag];
    if i - lag >= 0 && ac.Some? && ac.value != 0.0 && Abs(ac.value) > MinCorrelation then
      (earlier[i - lag] - (b.lastTrend + b.slope * (i - lag + 1) as real)
        - b.seasonal[(b.count + i - lag) % SeasonalPeriod]) * ac.value * Pow(EchoDecay, lag)
    else 0.0
  }

  /** The echo terms for lags `1 .. lags`. */
  function Echo(b: ForecastBasis, earlier: seq<real>, i: nat, lags: nat): real
    requires b.Valid() && lags <= EchoLags && |earlier| >= i
  {
    if lags == 0 then 0.0 else Echo(b, earlier, i, lags - 1) + EchoTerm(b, earlier, i, lags)
  }

  /** The random component: the echo of up to two weeks of earlier forecast days, for
      the first two weeks only. */
  function RandomComponent(b: ForecastBasis, earlier: seq<real>, i: nat): real
    requires b.Valid() && |earlier| >= i
  {
    if i < EchoDays then Echo(b, earlier, i, EchoCount(i)) else 0.0
  }

  /** `Math.min(14, i + 1)`: the lags looked back over on day `i`. */
  function EchoCount(i: nat): (lags: nat)
    ensures lags <= EchoLags
  {
    if EchoLags < i + 1 then EchoLags else i + 1
  }

  /** The noise for day `i` from a draw `r` of `Math.random`. */
  function Noise(b: ForecastBasis, i: nat, r: real): real
  {
    (r - 0.5) * 2.0 * b.avgResidual * Pow(NoiseDecay, i)
  }

  /** Forecast day `i`, given the forecast for the days before it. */
  function ForecastValue(b: ForecastBasis, weekdayOf: int -> Weekday, earlier: seq<real>, i: nat, r: real): real
    requires b.Valid() && |earlier| >= i
  {
    MaxR(0.0, ForecastTrend(b, i) + b.seasonal[(b.count + i) % SeasonalPeriod]
              + b.dayPattern[weekdayOf(b.lastDate + i + 1)] + RandomComponent(b, earlier, i) + Noise(b, i, r))
  }

  /** The first `k` forecast days. */
  function ForecastValues(b: ForecastBasis, weekdayOf: int -> Weekday, random: seq<real>, k: nat): (fv: seq<real>)
    requires b.Valid() && k <= |random|
    ensures |fv| == k
  {
    if k == 0 then []
    else
      var earlier := ForecastValues(b, weekdayOf, random, k - 1);
      earlier + [ForecastValue(b, weekdayOf, earlier, k - 1, random[k - 1])]
  }

  /** The band half-width grows by a thirtieth of the mean residual per day. */
  function ConfidenceWidth(avgResidual: real, i: nat): real
  {
    avgResidual * (1.0 + i as real / 30.0)
  }

  // ---------------------------------------------------------------------------
  // The forecast loops

  /** The lag loop of one forecast day. */
  method RandomComponentOf(b: ForecastBasis, forecastValues: seq<real>, i: nat) returns (randomComponent: real)
    requires b.Valid() && |forecastValues| >= i
    ensures randomComponent == RandomComponent(b, forecastValues, i)
  {
    randomComponent := 0.0;
    if i < EchoDays {
      var lags := EchoCount(i);
      for lag := 1 to lags + 1
        invariant randomComponent == Echo(b, forecastValues, i, lag - 1)
      {
        randomComponent := randomComponent + EchoTerm(b, forecastValues, i, lag);
      }
    }
  }

  /** The forecast loop: each day is computed from the days already forecast. */
  method ForecastLoop(b: ForecastBasis, weekdayOf: int -> Weekday, random: seq<real>, forecastDays: nat)
    returns (forecastValues: seq<real>)
    requires b.Valid() && forecastDays <= |random|
    ensures forecastValues == ForecastValues(b, weekdayOf, random, forecastDays)
  {
    forecastValues := [];
    for i := 0 to forecastDays
      invariant forecastValues == ForecastValues(b, weekdayOf, random, i)
    {
      var forecastTrend := ForecastTrend(b, i);
      var seasonalComponent := b.seasonal[(b.count + i) % SeasonalPeriod];
      var dayAdjustment := b.dayPattern[weekdayOf(b.lastDate + i + 1)];
      var randomComponent := RandomComponentOf(b, forecastValues, i);
      var noise := Noise(b, i, random[i]);
      var forecastValue := MaxR(0.0, forecastTrend + seasonalComponent + dayAdjustment + randomComponent + noise);
      assert forecastValue == ForecastValue(b, weekdayOf, forecastValues, i, random[i]);
      forecastValues := forecastValues + [forecastValue];
    }
  }

  /** The confidence loop: a band of twice the width either side, cut off at zero below. */
  method ConfidenceBands(forecastValues: seq<real>, avgResidual: real) returns (lower: seq<real>, upper: seq<real>)
    requires avgResidual >= 0.0 && forall i :: 0 <= i < |forecastValues| ==> forecastValues[i] >= 0.0
    ensures |lower| == |forecastValues| && |upper| == |forecastValues|
    ensures forall i :: 0 <= i < |forecastValues| ==>
              lower[i] == MaxR(0.0, forecastValues[i] - 2.0 * ConfidenceWidth(avgResidual, i)) &&
              upper[i] == forecastValues[i] + 2.0 * ConfidenceWidth(avgResidual, i)
    ensures forall i :: 0 <= i < |forecastValues| ==> 0.0 <= lower[i] <= forecastValues[i] <= upper[i]
  {
    lower, upper := [], [];
    for i := 0 to |forecastValues|
      invariant |lower| == i && |upper| == i
      invariant forall k :: 0 <= k < i ==>
                  lower[k] == MaxR(0.0, forecastValues[k] - 2.0 * ConfidenceWidth(avgResidual, k)) &&
                  upper[k] == forecastValues[k] + 2.0 * ConfidenceWidth(avgResidual, k)
      invariant forall k :: 0 <= k < i ==> 0.0 <= lower[k] <= forecastValues[k] <= upper[k]
    {
      var confidenceWidth := avgResidual * (1.0 + i as real / 30.0);
      assert confidenceWidth >= 0.0;
      lower := lower + [MaxR(0.0, forecastValues[i] - confidenceWidth * 2.0)];
      upper := upper + [forecastValues[i] + confidenceWidth * 2.0];
    }
  }

  // ---------------------------------------------------------------------------
  // The chart data

  datatype ForecastData = ForecastData(labels: seq<int>, actualValues: seq<Option<real>>,
                                       forecastValues: seq<Option<real>>,
                                       confidenceLower: seq<Option<real>>, confidenceUpper: seq<Option<real>>,
                                       trendSlope: real, seasonalPattern: seq<real>, dayOfWeekPattern: seq<real>)

  /** `k` nulls. */
  function Nulls(k: nat): (r: seq<Option<real>>)
    ensures |r| == k && forall i :: 0 <= i < k ==> r[i] == None
  {
    seq(k, _ => None)
  }

  /** Every value, present. */
  function Present(s: seq<real>): (r: seq<Option<real>>)
    ensures |r| == |s| && forall i :: 0 <= i < |s| ==> r[i] == Some(s[i])
  {
    seq(|s|, i requires 0 <= i < |s| => Some(s[i]))
  }

  /** A decomposition the forecast can extend: a day per value, at least two of them,
      and the weekly pattern and two weeks of autocorrelation it produces. */
  predicate Extendable(d: TimeSeriesParts)
  {
    |d.dates| == |d.values| && |d.trend| == |d.values| && |d.residuals| == |d.values| && |d.values| >= 2 &&
    |d.seasonal| == SeasonalPeriod && d.seasonalPeriod == SeasonalPeriod && |d.autocorrelation| == MaxLag + 1
  }

  function BasisOf(d: TimeSeriesParts, dayPattern: seq<real>): (b: ForecastBasis)
    requires Extendable(d) && |dayPattern| == 7
    ensures b.Valid()
  {
    ForecastBasis(|d.values|, d.dates[|d.dates| - 1], d.trend[|d.trend| - 1], ForecastSlope(d.trend),
                  d.seasonal, dayPattern, d.autocorrelation, AverageResidual(d.residuals))
  }

  /** `generateForecast`: history first, then `forecastDays` forecast days, with nulls
      where a series has no value. */
  method GenerateForecast(d: TimeSeriesParts, forecastDays: nat, weekdayOf: int -> Weekday, random: seq<real>)
    returns (f: ForecastData)
    requires Extendable(d) && forecastDays <= |random|
    ensures var n := |d.values|;
            var b := BasisOf(d, DayOfWeekPattern(d.dates, d.values, weekdayOf));
            var fv := ForecastValues(b, weekdayOf, random, forecastDays);
            |f.labels| == n + forecastDays && |f.actualValues| == n + forecastDays &&
            |f.forecastValues| == n + forecastDays &&
            |f.confidenceLower| == n + forecastDays && |f.confidenceUpper| == n + forecastDays &&
            f.labels[..n] == d.dates &&
            (forall i :: n <= i < n + forecastDays ==> f.labels[i] == d.dates[n - 1] + (i - n) + 1) &&
            f.actualValues == Present(d.values) + Nulls(forecastDays) &&
            f.forecastValues == Nulls(n) + Present(fv) &&
            BandsAround(f.confidenceLower, f.confidenceUpper, n, fv, b.avgResidual) &&
            f.trendSlope == ForecastSlope(d.trend) && f.seasonalPattern == d.seasonal &&
            f.dayOfWeekPattern == DayOfWeekPattern(d.dates, d.values, weekdayOf)
    ensures forall i :: |d.values| <= i < |f.labels| ==>
              f.forecastValues[i].Some? && f.confidenceLower[i].Some? && f.confidenceUpper[i].Some? &&
              0.0 <= f.confidenceLower[i].value <= f.forecastValues[i].value <= f.confidenceUpper[i].value
  {
    var n := |d.values|;
    var lastDate := d.dates[n - 1];
    var dayOfWeekPattern := IdentifyDayOfWeekPattern(d.dates, d.values, weekdayOf);
    var b := BasisOf(d, dayOfWeekPattern);
    var forecastDates := ForecastDates(lastDate, forecastDays);
    var forecastValues := ForecastLoop(b, weekdayOf, random, forecastDays);
    ForecastNonNegative(b, weekdayOf, random, forecastDays);
    var lower, upper := ConfidenceBands(forecastValues, b.avgResidual);
    f := ForecastData(d.dates + forecastDates, Present(d.values) + Nulls(forecastDays),
                      Nulls(n) + Present(forecastValues), Nulls(n) + Present(lower), Nulls(n) + Present(upper),
                      b.slope, d.seasonal, dayOfWeekPattern);
    assert f.labels[..n] == d.dates;
    ChartBands(n, forecastValues, lower, upper, b.avgResidual);
    assert b == BasisOf(d, DayOfWeekPattern(d.dates, d.values, weekdayOf));
  }

  /** The days after `lastDate`, one per forecast day. */
  method ForecastDates(lastDate: int, forecastDays: nat) returns (forecastDates: seq<int>)
    ensures |forecastDates| == forecastDays
    ensures forall k :: 0 <= k < forecastDays ==> forecastDates[k] == lastDate + k + 1
  {
    forecastDates := [];
    for i := 1 to forecastDays + 1
      invariant |forecastDates| == i - 1
      invariant forall k :: 0 <= k < i - 1 ==> forecastDates[k] == lastDate + k + 1
    {
      forecastDates := forecastDates + [lastDate + i];
    }
  }

  /** No band on the `n` history days, then on forecast day `i` the band two confidence
      widths either side of its value, the lower edge cut at zero. */
  predicate BandsAround(lower: seq<Option<real>>, upper: seq<Option<real>>, n: nat, fv: seq<real>, avgResidual: real)
  {
    |lower| == n + |fv| && |upper| == n + |fv| &&
    (forall i :: 0 <= i < n ==> lower[i] == None && upper[i] == None) &&
    (forall i :: 0 <= i < |fv| ==>
       lower[n + i] == Some(MaxR(0.0, fv[i] - 2.0 * ConfidenceWidth(avgResidual, i))) &&
       upper[n + i] == Some(fv[i] + 2.0 * ConfidenceWidth(avgResidual, i)))
  }

  /** The confidence band of the chart: no band on the `n` history days, then the band
      of each forecast day, around its forecast value. */
  lemma ChartBands(n: nat, fv: seq<real>, lower: seq<real>, upper: seq<real>, avgResidual: real)
    requires |lower| == |fv| && |upper| == |fv|
    requires forall i :: 0 <= i < |fv| ==>
               lower[i] == MaxR(0.0, fv[i] - 2.0 * ConfidenceWidth(avgResidual, i)) &&
               upper[i] == fv[i] + 2.0 * ConfidenceWidth(avgResidual, i)
    requires forall i :: 0 <= i < |fv| ==> 0.0 <= lower[i] <= fv[i] <= upper[i]
    ensures BandsAround(Nulls(n) + Present(lower), Nulls(n) + Present(upper), n, fv, avgResidual)
    ensures forall i :: n <= i < n + |fv| ==>
              var fi, lo, up := (Nulls(n) + Present(fv))[i], (Nulls(n) + Present(lower))[i], (Nulls(n) + Present(upper))[i];
              fi.Some? && lo.Some? && up.Some? && 0.0 <= lo.value <= fi.value <= up.value
  {
    forall i | 0 <= i < n
      ensures (Nulls(n) + Present(lower))[i] == None && (Nulls(n) + Present(upper))[i] == None
    {
      PaddedBefore(n, lower, i);
      PaddedBefore(n, upper, i);
    }
    forall i | 0 <= i < |fv|
      ensures (Nulls(n) + Present(lower))[n + i] == Some(MaxR(0.0, fv[i] - 2.0 * ConfidenceWidth(avgResidual, i)))
      ensures (Nulls(n) + Present(upper))[n + i] == Some(fv[i] + 2.0 * ConfidenceWidth(avgResidual, i))
    {
      PaddedAt(n, lower, i);
      PaddedAt(n, upper, i);
    }
    forall i | n <= i < n + |fv|
      ensures var fi, lo, up := (Nulls(n) + Present(fv))[i], (Nulls(n) + Present(lower))[i], (Nulls(n) + Present(upper))[i];
              fi.Some? && lo.Some? && up.Some? && 0.0 <= lo.value <= fi.value <= up.value
    {
      PaddedAt(n, fv, i - n);
      PaddedAt(n, lower, i - n);
      PaddedAt(n, upper, i - n);
    }
  }

  lemma PaddedBefore(n: nat, s: seq<real>, i: nat)
    requires i < n
    ensures (Nulls(n) + Present(s))[i] == None
  {
  }

  lemma PaddedAt(n: nat, s: seq<real>, i: nat)
    requires i < |s|
    ensures (Nulls(n) + Present(s))[n + i] == Some(s[i])
  {
  }


  // ---------------------------------------------------------------------------
  // Properties of the forecast

  /** The first `j` forecast days do not depend on how many days are asked for, nor on
      any draw after the `j`-th. */
  lemma {:induction false} ForecastPrefix(b: ForecastBasis, weekdayOf: int -> Weekday, random: seq<real>, other: seq<real>, j: nat, k: nat)
    requires b.Valid() && j <= k <= |random| && j <= |other| && random[..j] == other[..j]
    ensures ForecastValues(b, weekdayOf, random, k)[..j] == ForecastValues(b, weekdayOf, other, j)
    decreases k
  {
    if j < k {
      ForecastPrefix(b, weekdayOf, random, other, j, k - 1);
      ForecastExtends(b, weekdayOf, random, k);
      assert ForecastValues(b, weekdayOf, random, k)[..j] == ForecastValues(b, weekdayOf, random, k)[..k - 1][..j];
    } else {
      ForecastSameDraws(b, weekdayOf, random, other, j);
      assert ForecastValues(b, weekdayOf, random, j)[..j] == ForecastValues(b, weekdayOf, random, j);
    }
  }

  /** One more forecast day leaves the earlier days as they were. */
  lemma ForecastExtends(b: ForecastBasis, weekdayOf: int -> Weekday, random: seq<real>, k: nat)
    requires b.Valid() && 0 < k <= |random|
    ensures ForecastValues(b, weekdayOf, random, k)[..k - 1] == ForecastValues(b, weekdayOf, random, k - 1)
  {
  }

  /** The same draws give the same forecast. */
  lemma {:induction false} ForecastSameDraws(b: ForecastBasis, weekdayOf: int -> Weekday, random: seq<real>, other: seq<real>, j: nat)
    requires b.Valid() && j <= |random| && j <= |other| && random[..j] == other[..j]
    ensures ForecastValues(b, weekdayOf, random, j) == ForecastValues(b, weekdayOf, other, j)
  {
    if j > 0 {
      assert random[..j - 1] == other[..j - 1] by {
        assert random[..j - 1] == random[..j][..j - 1];
        assert other[..j - 1] == other[..j][..j - 1];
      }
      assert random[j - 1] == other[j - 1] by {
        assert random[j - 1] == random[..j][j - 1];
        assert other[j - 1] == other[..j][j - 1];
      }
      ForecastSameDraws(b, weekdayOf, random, other, j - 1);
    }
  }

  /** A draw in `[0, 1)` moves a forecast day by at most the mean residual, shrinking by
      2% a day. */
  lemma NoiseBounded(b: ForecastBasis, i: nat, r: real)
    requires b.Valid() && 0.0 <= r < 1.0
    ensures Abs(Noise(b, i, r)) <= b.avgResidual * Pow(NoiseDecay, i)
  {
    PowAtMostOne(NoiseDecay, i);
    var scale := b.avgResidual * Pow(NoiseDecay, i);
    assert scale >= 0.0;
    assert Noise(b, i, r) == (r - 0.5) * 2.0 * scale;
  }

  lemma {:induction false} EchoSilent(b: ForecastBasis, earlier: seq<real>, i: nat, lags: nat)
    requires b.Valid() && lags <= EchoLags && |earlier| >= i
    requires forall lag :: 1 <= lag <= EchoLags ==>
               b.autocorrelation[lag].None? || Abs(b.autocorrelation[lag].value) <= MinCorrelation
    ensures Echo(b, earlier, i, lags) == 0.0
  {
    if lags > 0 {
      EchoSilent(b, earlier, i, lags - 1);
    }
  }

  /** Without a notable autocorrelation and with the middle draw 0.5, a forecast day is
      the extended trend plus the weekly and weekday effects, cut off at zero. */
  lemma DeterministicForecast(b: ForecastBasis, weekdayOf: int -> Weekday, random: seq<real>, k: nat, i: nat)
    requires b.Valid() && i < k <= |random| && random[i] == 0.5
    requires forall lag :: 1 <= lag <= EchoLags ==>
               b.autocorrelation[lag].None? || Abs(b.autocorrelation[lag].value) <= MinCorrelation
    ensures ForecastValues(b, weekdayOf, random, k)[i] ==
            MaxR(0.0, ForecastTrend(b, i) + b.seasonal[(b.count + i) % SeasonalPeriod] + b.dayPattern[weekdayOf(b.lastDate + i + 1)])
  {
    ForecastPrefix(b, weekdayOf, random, random, i + 1, k);
    var earlier := ForecastValues(b, weekdayOf, random, i);
    if i < EchoDays {
      EchoSilent(b, earlier, i, if EchoLags < i + 1 then EchoLags else i + 1);
    }
    assert ForecastValues(b, weekdayOf, random, k)[i] == ForecastValues(b, weekdayOf, random, i + 1)[i];
  }

  /** No forecast day is negative. */
  lemma {:induction false} ForecastNonNegative(b: ForecastBasis, weekdayOf: int -> Weekday, random: seq<real>, k: nat)
    requires b.Valid() && k <= |random|
    ensures forall i :: 0 <= i < k ==> ForecastValues(b, weekdayOf, random, k)[i] >= 0.0
  {
    if k > 0 {
      ForecastNonNegative(b, weekdayOf, random, k - 1);
    }
  }

  /** The band widens, never narrows, with the horizon. */
  lemma WidthGrows(avgResidual: real, i: nat, j: nat)
    requires avgResidual >= 0.0 && i <= j
    ensures 0.0 <= ConfidenceWidth(avgResidual, i) <= ConfidenceWidth(avgResidual, j)
  {
    assert i as real / 30.0 <= j as real / 30.0;
  }

  // ---------------------------------------------------------------------------
  // From the revenue history to the forecast

  /** The recorded days in ascending order, and their revenue. */
  function RecordedDays(historical: Dict<int, real>): seq<int>
  {
    SortedSet(historical.keys)
  }

  function RecordedValues(historical: Dict<int, real>): seq<real>
  {
    MapSeq(RecordedDays(historical), Lookup(historical.entries))
  }

  /** `prepareHistoricalData`: the recorded days in order with their revenue, filled out
      to every calendar day. */
  method PrepareHistoricalData(historical: Dict<int, real>) returns (dates: seq<int>, values: seq<real>)
    requires historical.Valid()
    ensures var keys := RecordedDays(historical);
            |keys| <= 1 ==> dates == keys && values == RecordedValues(historical)
    ensures var keys := RecordedDays(historical);
            |keys| >= 2 ==> |dates| == keys[|keys| - 1] - keys[0] + 1 && |values| == |dates|
    ensures var keys := RecordedDays(historical);
            |keys| >= 2 ==> forall i :: 0 <= i < |dates| ==>
              dates[i] == keys[0] + i && values[i] == FillValue(keys, RecordedValues(historical), dates[i])
  {
    dates, values := FillMissingDates(RecordedDays(historical), RecordedValues(historical));
  }

  /** Every recorded day keeps its recorded revenue in the prepared series. */
  lemma RecordedDaysKept(historical: Dict<int, real>, day: int)
    requires historical.Valid() && day in historical.entries
    ensures var keys := RecordedDays(historical);
            |keys| > 0 && keys[0] <= day <= keys[|keys| - 1] &&
            FillValue(keys, RecordedValues(historical), day) == historical.entries[day]
  {
    var keys := RecordedDays(historical);
    var known := RecordedValues(historical);
    assert day in keys;
    var k :| 0 <= k < |keys| && keys[k] == day;
    KnownDaysKept(keys, known, k);
    assert known[k] == Lookup(historical.entries)(day);
  }

  /** The number of calendar days the history spans, first to last. */
  function HistoryDays(historical: Dict<int, real>): nat
  {
    var keys := RecordedDays(historical);
    if |keys| <= 1 then |keys| else keys[|keys| - 1] - keys[0] + 1
  }

  /** The layout of the forecast chart for `n` days of history starting on day `first`
      and `days` forecast days: one label per consecutive day, the actual values over
      the history, and the forecast with its band, which holds it and stays at or
      above zero, over the days after. */
  ghost predicate ChartShape(f: ForecastData, first: int, n: nat, days: nat)
  {
    |f.labels| == n + days && |f.actualValues| == n + days && |f.forecastValues| == n + days &&
    |f.confidenceLower| == n + days && |f.confidenceUpper| == n + days &&
    (forall i :: 0 <= i < n + days ==> f.labels[i] == first + i) &&
    (forall i :: 0 <= i < n ==> f.actualValues[i].Some? && f.forecastValues[i].None? &&
                                f.confidenceLower[i].None? && f.confidenceUpper[i].None?) &&
    (forall i :: n <= i < n + days ==>
       (f.actualValues[i].None? &&
        f.forecastValues[i].Some? && f.confidenceLower[i].Some? && f.confidenceUpper[i].Some? &&
        0.0 <= f.confidenceLower[i].value <= f.forecastValues[i].value <= f.confidenceUpper[i].value))
  }

  /** The outlier-cleaned history, decomposed into trend, weekly season and residuals. */
  method CleanAndDecompose(dates: seq<int>, values: seq<real>) returns (d: TimeSeriesParts)
    requires |dates| == |values| >= 4
    ensures d == Decomposed(dates, Cleaned(values))
    ensures Extendable(d) && d.dates == dates
    ensures forall i :: 0 <= i < |values| ==> d.values[i] == CleanAt(values, FencesOf(values), i)
  {
    var cleaned := DetectAndHandleOutliers(values);
    d := TimeSeriesDecomposition(dates, cleaned);
  }

  /** The forecast of a daily series: actual values are the outlier-cleaned series, and
      the forecast values, slope, seasonal and weekday patterns are those of the
      decomposition of the cleaned series. */
  ghost predicate ForecastsHistory(f: ForecastData, dates: seq<int>, values: seq<real>, days: nat,
                                   weekdayOf: int -> Weekday, random: seq<real>)
    requires |dates| == |values| >= 4 && days <= |random|
  {
    var cleaned := Cleaned(values);
    var d := Decomposed(dates, cleaned);
    var pattern := DayOfWeekPattern(dates, cleaned, weekdayOf);
    var b := BasisOf(d, pattern);
    var fv := ForecastValues(b, weekdayOf, random, days);
    f.actualValues == Present(cleaned) + Nulls(days) &&
    f.forecastValues == Nulls(|dates|) + Present(fv) &&
    BandsAround(f.confidenceLower, f.confidenceUpper, |dates|, fv, b.avgResidual) &&
    f.trendSlope == ForecastSlope(d.trend) && f.seasonalPattern == d.seasonal && f.dayOfWeekPattern == pattern
  }

  /** Cleaning, decomposition and forecast of a series with one value per consecutive day. */
  method ForecastSeries(dates: seq<int>, values: seq<real>, forecastDays: nat,
                        weekdayOf: int -> Weekday, random: seq<real>) returns (f: ForecastData)
    requires |dates| == |values| >= 4 && forecastDays <= |random|
    requires forall i :: 0 <= i < |dates| ==> dates[i] == dates[0] + i
    ensures ChartShape(f, dates[0], |dates|, forecastDays)
    ensures ForecastsHistory(f, dates, values, forecastDays, weekdayOf, random)
  {
    var decomposition := CleanAndDecompose(dates, values);
    f := GenerateForecast(decomposition, forecastDays, weekdayOf, random);
    var n := |dates|;
    forall i | 0 <= i < n + forecastDays ensures f.labels[i] == dates[0] + i {
      if i < n {
        assert f.labels[i] == f.labels[..n][i] == dates[i];
      }
    }
    forall i | 0 <= i < n ensures f.actualValues[i].Some? {
      assert f.actualValues[i] == (Present(decomposition.values) + Nulls(forecastDays))[i];
    }
  }

  /** The days `prepareHistoricalData` yields for a history of two or more recorded
      days: every calendar day from the first recorded one to the last. */
  function PreparedDates(historical: Dict<int, real>): (dates: seq<int>)
    requires |RecordedDays(historical)| >= 2
    ensures |dates| == HistoryDays(historical)
  {
    var keys := RecordedDays(historical);
    seq(HistoryDays(historical), i => keys[0] + i)
  }

  /** The revenue `prepareHistoricalData` yields on each of those days: the recorded
      revenue, or the value that fills the gap. */
  function PreparedValues(historical: Dict<int, real>): (values: seq<real>)
    requires |RecordedDays(historical)| >= 2
    ensures |values| == HistoryDays(historical)
  {
    var keys := RecordedDays(historical);
    var known := RecordedValues(historical);
    seq(HistoryDays(historical), i => FillValue(keys, known, keys[0] + i))
  }

  /** A series that covers the calendar days of a history of two or more recorded days
      with their filled revenue is the prepared one. */
  lemma PreparedHistory(historical: Dict<int, real>, dates: seq<int>, values: seq<real>)
    requires |RecordedDays(historical)| >= 2
    requires var keys := RecordedDays(historical);
             |dates| == keys[|keys| - 1] - keys[0] + 1 && |values| == |dates| &&
             forall i :: 0 <= i < |dates| ==>
               dates[i] == keys[0] + i && values[i] == FillValue(keys, RecordedValues(historical), dates[i])
    ensures dates == PreparedDates(historical) && values == PreparedValues(historical)
  {
    var keys := RecordedDays(historical);
    assert |dates| == HistoryDays(historical);
    assert dates == PreparedDates(historical) by {
      forall i | 0 <= i < |dates| ensures dates[i] == PreparedDates(historical)[i] { }
    }
    assert values == PreparedValues(historical) by {
      forall i | 0 <= i < |dates| ensures values[i] == PreparedValues(historical)[i] {
        assert dates[i] == keys[0] + i;
      }
    }
  }

  /** `generateImprovedForecastData`: nothing without history; otherwise the prepared,
      cleaned and decomposed history extended by `forecastDays` forecast days. */
  method GenerateImprovedForecastData(historical: Dict<int, real>, forecastDays: nat,
                                      weekdayOf: int -> Weekday, random: seq<real>)
    returns (r: Option<ForecastData>)
    requires historical.Valid() && forecastDays <= |random|
    requires |historical.keys| == 0 || HistoryDays(historical) >= 4
    ensures r.None? <==> |historical.keys| == 0
    ensures r.Some? ==> ChartShape(r.value, RecordedDays(historical)[0], HistoryDays(historical), forecastDays)
    ensures r.Some? ==> |RecordedDays(historical)| >= 2
    ensures r.Some? ==>
              ForecastsHistory(r.value, PreparedDates(historical), PreparedValues(historical), forecastDays, weekdayOf, random)
  {
    if |historical.keys| == 0 {
      return None;
    }
    var keys := RecordedDays(historical);
    assert historical.keys[0] in keys;
    assert |keys| >= 2;
    var dates, values := PrepareHistoricalData(historical);
    PreparedHistory(historical, dates, values);
    var f := ForecastSeries(dates, values, forecastDays, weekdayOf, random);
    return Some(f);
  }
}

=== FILE: grouping.dfy ===
/** JavaScript objects used as dictionaries (`revenueByDay[date] += ...`) and
    the sums they accumulate, with the conservation law that grouping obeys:
    adding up the per-key sums gives back the grand total. */
module Grouping {
  import opened Seqs

  /** A dictionary as JavaScript keeps one: the keys in first-insertion order
      (what `Object.keys` returns for non-integer keys) and the entries. */
  datatype Dict<K(==,!new), V> = Dict(keys: seq<K>, entries: map<K, V>)
  {
    ghost predicate Valid()
    {
      NoDup(keys) && forall k :: k in entries <==> k in keys
    }
  }

  function EmptyDict<K(==,!new), V>(): (d: Dict<K, V>)
    ensures d.Valid() && d.keys == []
  {
    Dict([], map[])
  }

  /** `d[k] = v`: a new key is appended to the key order, an existing key keeps its place. */
  function Put<K(==,!new), V>(d: Dict<K, V>, k: K, v: V): (r: Dict<K, V>)
    requires d.Valid()
    ensures r.Valid()
    ensures r.entries == d.entries[k := v]
    ensures r.keys == if k in d.entries then d.keys else d.keys + [k]
  {
    if k in d.entries then Dict(d.keys, d.entries[k := v]) else Dict(d.keys + [k], d.entries[k := v])
  }

  /** The sum of `f` over the elements of `s` whose key is `k`. */
  function KeyedSum<T, K(==)>(s: seq<T>, key: T -> K, k: K, f: T -> real): real
  {
    if s == [] then 0.0
    else KeyedSum(s[..|s| - 1], key, k, f) + (if key(s[|s| - 1]) == k then f(s[|s| - 1]) else 0.0)
  }

  /** The keys that occur in `s`. */
  ghost function KeysOf<T, K>(s: seq<T>, key: T -> K): set<K>
  {
    set x | x in s :: key(x)
  }

  /** The keys occurring in `s`, each once, in the order of their first occurrence:
      the order in which `d[k] = ...` appends them to a dictionary's keys. */
  ghost function FirstKeys<T, K(!new)>(s: seq<T>, key: T -> K): (ks: seq<K>)
    ensures forall k :: k in ks <==> k in KeysOf(s, key)
  {
    if s == [] then []
    else
      var init, x := s[..|s| - 1], s[|s| - 1];
      assert s == init + [x];
      KeysOfSnoc(init, x, key);
      var ks := FirstKeys(init, key);
      if key(x) in ks then ks else ks + [key(x)]
  }

  /** Each key is listed once. */
  lemma {:induction false} FirstKeysNoDup<T, K(!new)>(s: seq<T>, key: T -> K)
    ensures NoDup(FirstKeys(s, key))
  {
    if s != [] {
      FirstKeysNoDup(s[..|s| - 1], key);
    }
  }

  /** Extending `s` by one element appends its key when, and only when, the key is new. */
  lemma FirstKeysSnoc<T, K(!new)>(s: seq<T>, x: T, key: T -> K)
    ensures FirstKeys(s + [x], key) ==
            if key(x) in KeysOf(s, key) then FirstKeys(s, key) else FirstKeys(s, key) + [key(x)]
  {
    assert (s + [x])[..|s|] == s;
  }

  /** Writing the entry of one more element's key keeps the keys in first-occurrence order. */
  lemma PutFirstKeys<T, K(!new), V>(d: Dict<K, V>, s: seq<T>, x: T, key: T -> K, v: V)
    requires d.Valid() && d.keys == FirstKeys(s, key)
    ensures Put(d, key(x), v).keys == FirstKeys(s + [x], key)
  {
    FirstKeysSnoc(s, x, key);
  }

  /** The sum, over the keys `ks`, of the per-key sums. */
  function SumOverKeys<T, K(==)>(ks: seq<K>, s: seq<T>, key: T -> K, f: T -> real): real
  {
    if ks == [] then 0.0
    else SumOverKeys(ks[..|ks| - 1], s, key, f) + KeyedSum(s, key, ks[|ks| - 1], f)
  }

  /** The sum of the entries of a dictionary, taken in key order. */
  function DictTotal<K(==,!new)>(d: Dict<K, real>): real
    requires d.Valid()
  {
    DictTotalOver(d.keys, d.entries)
  }

  function DictTotalOver<K(==)>(ks: seq<K>, m: map<K, real>): real
    requires forall k :: k in ks ==> k in m
  {
    if ks == [] then 0.0 else DictTotalOver(ks[..|ks| - 1], m) + m[ks[|ks| - 1]]
  }

  /** `v` counted once for each occurrence of `k` in `ks`. */
  function PointSum<K(==)>(ks: seq<K>, k: K, v: real): real
  {
    if ks == [] then 0.0 else PointSum(ks[..|ks| - 1], k, v) + (if ks[|ks| - 1] == k then v else 0.0)
  }

  lemma {:induction false} PointSumOnce<K>(ks: seq<K>, k: K, v: real)
    requires NoDup(ks)
    ensures PointSum(ks, k, v) == if k in ks then v else 0.0
  {
    if ks != [] {
      var init, last := ks[..|ks| - 1], ks[|ks| - 1];
      NoDupPrefix(ks);
      PointSumOnce(init, k, v);
      assert ks == init + [last];
      assert k in ks <==> k in init || k == last;
      if last == k {
        assert k !in init by {
          forall i | 0 <= i < |init| ensures init[i] != k {
            assert init[i] == ks[i];
          }
        }
      }
    }
  }

  lemma NoDupPrefix<K>(ks: seq<K>)
    requires NoDup(ks) && ks != []
    ensures NoDup(ks[..|ks| - 1])
  {
    var init := ks[..|ks| - 1];
    forall i, j | 0 <= i < j < |init| ensures init[i] != init[j] {
      assert init[i] == ks[i] && init[j] == ks[j];
    }
  }

  lemma {:induction false} SumOverKeysAppend<T, K>(ks: seq<K>, s: seq<T>, x: T, key: T -> K, f: T -> real)
    ensures SumOverKeys(ks, s + [x], key, f) == SumOverKeys(ks, s, key, f) + PointSum(ks, key(x), f(x))
  {
    assert (s + [x])[..|s + [x]| - 1] == s;
    if ks != [] {
      SumOverKeysAppend(ks[..|ks| - 1], s, x, key, f);
    }
  }

  /** Grouping conserves the total: summing the per-key sums over a duplicate-free
      list of keys that covers every element's key gives the sum over all elements. */
  lemma {:induction false} GroupedTotal<T, K>(ks: seq<K>, s: seq<T>, key: T -> K, f: T -> real)
    requires NoDup(ks)
    requires forall x :: x in s ==> key(x) in ks
    ensures SumOverKeys(ks, s, key, f) == SumBy(s, f)
  {
    if s == [] {
      SumOverKeysEmpty(ks, key, f);
    } else {
      var init, x := s[..|s| - 1], s[|s| - 1];
      assert s == init + [x];
      assert forall y :: y in init ==> y in s;
      GroupedTotal(ks, init, key, f);
      SumOverKeysAppend(ks, init, x, key, f);
      PointSumOnce(ks, key(x), f(x));
    }
  }

  lemma {:induction false} SumOverKeysEmpty<T, K>(ks: seq<K>, key: T -> K, f: T -> real)
    ensures SumOverKeys(ks, [], key, f) == 0.0
  {
    if ks != [] {
      SumOverKeysEmpty(ks[..|ks| - 1], key, f);
    }
  }

  /** A key that no element carries has sum 0. */
  lemma {:induction false} KeyedSumAbsent<T, K>(s: seq<T>, key: T -> K, k: K, f: T -> real)
    requires k !in KeysOf(s, key)
    ensures KeyedSum(s, key, k, f) == 0.0
  {
    if s != [] {
      var init := s[..|s| - 1];
      assert KeysOf(init, key) <= KeysOf(s, key) by {
        forall y | y in init ensures y in s { }
      }
      KeyedSumAbsent(init, key, k, f);
      assert s[|s| - 1] in s;
    }
  }

  /** Per-key sums are linear: if f - g == h on every element, the same holds of their sums. */
  lemma {:induction false} KeyedSumDifference<T, K>(s: seq<T>, key: T -> K, k: K, f: T -> real, g: T -> real, h: T -> real)
    requires forall x :: x in s ==> f(x) - g(x) == h(x)
    ensures KeyedSum(s, key, k, f) - KeyedSum(s, key, k, g) == KeyedSum(s, key, k, h)
  {
    if s != [] {
      var init := s[..|s| - 1];
      assert forall y :: y in init ==> y in s;
      KeyedSumDifference(init, key, k, f, g, h);
      assert s[|s| - 1] in s;
    }
  }

  /** Sums are linear as well. */
  lemma {:induction false} SumByDifference<T>(s: seq<T>, f: T -> real, g: T -> real, h: T -> real)
    requires forall x :: x in s ==> f(x) - g(x) == h(x)
    ensures SumBy(s, f) - SumBy(s, g) == SumBy(s, h)
  {
    if s != [] {
      var init := s[..|s| - 1];
      assert forall y :: y in init ==> y in s;
      SumByDifference(init, f, g, h);
      assert s[|s| - 1] in s;
    }
  }

  /** When every entry of `m` along `ks` is that key's group sum, the entries add up
      to the grand total. */
  lemma {:induction false} DictTotalIsGroupedSum<T, K>(ks: seq<K>, m: map<K, real>, s: seq<T>, key: T -> K, f: T -> real)
    requires forall k :: k in ks ==> k in m && m[k] == KeyedSum(s, key, k, f)
    ensures DictTotalOver(ks, m) == SumOverKeys(ks, s, key, f)
  {
    if ks != [] {
      DictTotalIsGroupedSum(ks[..|ks| - 1], m, s, key, f);
    }
  }

  /** Conservation for a dictionary built by grouping: its entries sum to the total of `f`. */
  lemma DictTotalConserves<T, K(!new)>(d: Dict<K, real>, s: seq<T>, key: T -> K, f: T -> real)
    requires d.Valid()
    requires forall x :: x in s ==> key(x) in d.entries
    requires forall k :: k in d.entries ==> d.entries[k] == KeyedSum(s, key, k, f)
    ensures DictTotal(d) == SumBy(s, f)
  {
    DictTotalIsGroupedSum(d.keys, d.entries, s, key, f);
    GroupedTotal(d.keys, s, key, f);
  }

  /** The sum of an integer-valued `f` over the elements of `s` whose key is `k`. */
  function KeyedSumInt<T, K(==)>(s: seq<T>, key: T -> K, k: K, f: T -> int): int
  {
    if s == [] then 0
    else KeyedSumInt(s[..|s| - 1], key, k, f) + (if key(s[|s| - 1]) == k then f(s[|s| - 1]) else 0)
  }

  /** `if (!d[k]) d[k] = 0; d[k] += v;` */
  function Accumulate<K(==,!new)>(d: Dict<K, real>, k: K, v: real): (r: Dict<K, real>)
    requires d.Valid()
    ensures r.Valid()
    ensures r.keys == if k in d.entries then d.keys else d.keys + [k]
  {
    Put(d, k, (if k in d.entries then d.entries[k] else 0.0) + v)
  }

  /** `d` holds, for every key occurring in `s` and only for those, the sum of `f`
      over the elements with that key; its keys are listed in first-occurrence order. */
  ghost predicate Groups<T, K(!new)>(d: Dict<K, real>, s: seq<T>, key: T -> K, f: T -> real)
  {
    d.Valid() && d.keys == FirstKeys(s, key) &&
    (forall k :: k in d.entries <==> k in KeysOf(s, key)) &&
    (forall k :: k in d.entries ==> d.entries[k] == KeyedSum(s, key, k, f))
  }

  /** The keys of a sequence extended by one element. */
  lemma KeysOfSnoc<T, K>(s: seq<T>, x: T, key: T -> K)
    ensures KeysOf(s + [x], key) == KeysOf(s, key) + {key(x)}
  {
    assert forall y :: y in s + [x] <==> y in s || y == x;
  }

  /** The per-key sums of a sequence extended by one element. */
  lemma KeyedSumSnoc<T, K>(s: seq<T>, x: T, key: T -> K, k: K, f: T -> real, g: T -> int)
    ensures KeyedSum(s + [x], key, k, f) == KeyedSum(s, key, k, f) + (if key(x) == k then f(x) else 0.0)
    ensures KeyedSumInt(s + [x], key, k, g) == KeyedSumInt(s, key, k, g) + (if key(x) == k then g(x) else 0)
  {
    assert (s + [x])[..|s|] == s;
  }

  /** Accumulating one more element keeps the dictionary equal to the grouped sums. */
  lemma AccumulateGroups<T, K(!new)>(d: Dict<K, real>, s: seq<T>, x: T, key: T -> K, f: T -> real)
    requires Groups(d, s, key, f)
    ensures Groups(Accumulate(d, key(x), f(x)), s + [x], key, f)
  {
    KeysOfSnoc(s, x, key);
    PutFirstKeys(d, s, x, key, (if key(x) in d.entries then d.entries[key(x)] else 0.0) + f(x));
    var r := Accumulate(d, key(x), f(x));
    forall k | k in r.entries
      ensures r.entries[k] == KeyedSum(s + [x], key, k, f)
    {
      KeyedSumSnoc(s, x, key, k, f, _ => 0);
      if k == key(x) && k !in d.entries {
        KeyedSumAbsent(s, key, k, f);
      }
    }
  }
}

=== FILE: outliers.dfy ===
/** Outlier handling before forecasting (`detectAndHandleOutliers`): values outside
    the interquartile fences `[q1 - 1.5 iqr, q3 + 1.5 iqr]` are replaced by the
    median of the in-fence values at most three positions away, or, when there is
    none, by the fence they crossed. */
module Outliers {
  import opened Seqs
  import opened Sorting

  function Identity(x: real): real { x }

  /** The values in ascending order, as `sort((a, b) => a - b)`. */
  function Ascending(s: seq<real>): (r: seq<real>)
    ensures multiset(r) == multiset(s) && |r| == |s|
    ensures forall i, j :: 0 <= i <= j < |r| ==> r[i] <= r[j]
  {
    var r := SortBy(s, Identity);
    assert forall i, j :: 0 <= i < j < |r| ==> Identity(r[i]) <= Identity(r[j]);
    r
  }

  datatype Fences = Fences(q1: real, q3: real, lower: real, upper: real)

  predicate InFence(x: real, f: Fences)
  {
    f.lower <= x <= f.upper
  }

  /** The quartiles at positions `floor(n / 4)` and `floor(3n / 4)` of the sorted
      values, and the fences one and a half interquartile ranges beyond them. */
  function FencesOf(values: seq<real>): (f: Fences)
    requires |values| > 0
    ensures f.q1 in values && f.q3 in values
    ensures f.lower <= f.q1 <= f.q3 <= f.upper
    ensures f.upper - f.q3 == f.q1 - f.lower == 1.5 * (f.q3 - f.q1)
  {
    var sorted := Ascending(values);
    var q1 := sorted[|sorted| / 4];
    var q3 := sorted[(|sorted| * 3) / 4];
    assert q1 in multiset(sorted) && q3 in multiset(sorted);
    var iqr := q3 - q1;
    Fences(q1, q3, q1 - 1.5 * iqr, q3 + 1.5 * iqr)
  }

  /** The first position searched around `i`, and one past the last. */
  function WindowStart(i: int): int { if i - 3 > 0 then i - 3 else 0 }
  function WindowEnd(n: int, i: int): int { if n < i + 4 then n else i + 4 }

  /** The in-fence values at positions `lo .. j - 1` other than `i`, in order. */
  function Surrounding(values: seq<real>, f: Fences, i: int, lo: int, j: int): (r: seq<real>)
    requires 0 <= lo <= j <= |values|
    decreases j - lo
  {
    if j == lo then []
    else Surrounding(values, f, i, lo, j - 1) + (if j - 1 != i && InFence(values[j - 1], f) then [values[j - 1]] else [])
  }

  /** Every value gathered is in the fences and comes from a position in range other than `i`. */
  lemma {:induction false} SurroundingFrom(values: seq<real>, f: Fences, i: int, lo: int, j: int, x: real)
    requires 0 <= lo <= j <= |values|
    requires x in Surrounding(values, f, i, lo, j)
    ensures InFence(x, f)
    ensures exists k :: lo <= k < j && k != i && values[k] == x
    decreases j - lo
  {
    var prev := Surrounding(values, f, i, lo, j - 1);
    if x in prev {
      SurroundingFrom(values, f, i, lo, j - 1, x);
    } else {
      assert values[j - 1] == x;
    }
  }

  /** The value an outlier at `i` is replaced with. */
  function Replacement(values: seq<real>, f: Fences, i: int): real
    requires 0 <= i < |values|
  {
    var near := Surrounding(values, f, i, WindowStart(i), WindowEnd(|values|, i));
    if |near| > 0 then Ascending(near)[|near| / 2]
    else if values[i] > f.upper then f.upper
    else f.lower
  }

  /** The cleaned value at `i`. */
  function CleanAt(values: seq<real>, f: Fences, i: int): real
    requires 0 <= i < |values|
  {
    if values[i] < f.lower || values[i] > f.upper then Replacement(values, f, i) else values[i]
  }

  /** The replacement of an outlier lies within the fences; when it is a neighbour's
      value, that neighbour is at most three positions away. */
  lemma ReplacementInFence(values: seq<real>, f: Fences, i: int)
    requires 0 <= i < |values| && f.lower <= f.upper
    ensures InFence(Replacement(values, f, i), f)
    ensures Replacement(values, f, i) == f.lower || Replacement(values, f, i) == f.upper ||
            exists k :: i - 3 <= k <= i + 3 && 0 <= k < |values| && k != i && values[k] == Replacement(values, f, i)
  {
    var near := Surrounding(values, f, i, WindowStart(i), WindowEnd(|values|, i));
    if |near| > 0 {
      var sorted := Ascending(near);
      assert sorted[|near| / 2] in multiset(near);
      SurroundingFrom(values, f, i, WindowStart(i), WindowEnd(|values|, i), sorted[|near| / 2]);
    }
  }

  /** The inner loop: the in-fence values around position `i`. */
  method CollectSurrounding(values: seq<real>, f: Fences, i: int) returns (surroundingValues: seq<real>)
    requires 0 <= i < |values|
    ensures surroundingValues == Surrounding(values, f, i, WindowStart(i), WindowEnd(|values|, i))
  {
    var lo, hi := WindowStart(i), WindowEnd(|values|, i);
    surroundingValues := [];
    for j := lo to hi
      invariant surroundingValues == Surrounding(values, f, i, lo, j)
    {
      if j != i && values[j] >= f.lower && values[j] <= f.upper {
        surroundingValues := surroundingValues + [values[j]];
      }
    }
  }

  /** The median of the surrounding values, or the fence crossed. */
  method ReplaceOutlier(values: seq<real>, f: Fences, i: int) returns (replacement: real)
    requires 0 <= i < |values|
    ensures replacement == Replacement(values, f, i)
  {
    var surroundingValues := CollectSurrounding(values, f, i);
    if |surroundingValues| > 0 {
      var sorted := Ascending(surroundingValues);
      replacement := sorted[|surroundingValues| / 2];
    } else {
      replacement := if values[i] > f.upper then f.upper else f.lower;
    }
  }

  /** The cleaning loop: each out-of-fence position of the copy gets its replacement. */
  method CleanInPlace(values: seq<real>, f: Fences, cleanedValues: array<real>)
    requires cleanedValues[..] == values
    modifies cleanedValues
    ensures forall k :: 0 <= k < |values| ==> cleanedValues[k] == CleanAt(values, f, k)
  {
    for i := 0 to cleanedValues.Length
      invariant forall k :: 0 <= k < i ==> cleanedValues[k] == CleanAt(values, f, k)
      invariant forall k :: i <= k < |values| ==> cleanedValues[k] == values[k]
    {
      if values[i] < f.lower || values[i] > f.upper {
        var replacement := ReplaceOutlier(values, f, i);
        cleanedValues[i] := replacement;
      }
      assert cleanedValues[i] == CleanAt(values, f, i);
    }
  }

  /** The whole series, each position cleaned against the fences of the series. */
  function Cleaned(values: seq<real>): (r: seq<real>)
    ensures |r| == |values|
  {
    if |values| == 0 then []
    else seq(|values|, i requires 0 <= i < |values| => CleanAt(values, FencesOf(values), i))
  }

  /** `detectAndHandleOutliers`: a copy of the values, cleaned. */
  method DetectAndHandleOutliers(values: seq<real>) returns (cleaned: seq<real>)
    ensures |cleaned| == |values|
    ensures |values| > 0 ==> forall i :: 0 <= i < |values| ==> cleaned[i] == CleanAt(values, FencesOf(values), i)
    ensures cleaned == Cleaned(values)
  {
    var n := |values|;
    if n == 0 {
      return [];
    }
    var f := FencesOf(values);
    var cleanedValues := new real[n](k requires 0 <= k < n => values[k]);
    CleanInPlace(values, f, cleanedValues);
    cleaned := cleanedValues[..];
  }

  /** After cleaning, every value lies within the fences, and a value that already
      did is left as it was. */
  lemma CleanedWithinFences(values: seq<real>, i: int)
    requires 0 <= i < |values|
    ensures InFence(CleanAt(values, FencesOf(values), i), FencesOf(values))
    ensures InFence(values[i], FencesOf(values)) ==> CleanAt(values, FencesOf(values), i) == values[i]
  {
    var f := FencesOf(values);
    if !InFence(values[i], f) {
      ReplacementInFence(values, f, i);
    }
  }

  /** A series whose values all lie between its quartiles is not changed. */
  lemma QuietSeriesUnchanged(values: seq<real>, i: int)
    requires 0 <= i < |values|
    requires forall k :: 0 <= k < |values| ==> FencesOf(values).q1 <= values[k] <= FencesOf(values).q3
    ensures CleanAt(values, FencesOf(values), i) == values[i]
  {
  }

  /** An outlier whose neighbours within three positions all hold the same in-fence
      value takes that value. */
  lemma UniformNeighbourhood(values: seq<real>, i: int, c: real)
    requires 0 <= i < |values| && |values| >= 2
    requires !InFence(values[i], FencesOf(values)) && InFence(c, FencesOf(values))
    requires forall k :: 0 <= k < |values| && i - 3 <= k <= i + 3 && k != i ==> values[k] == c
    ensures CleanAt(values, FencesOf(values), i) == c
  {
    var f := FencesOf(values);
    var lo, hi := WindowStart(i), WindowEnd(|values|, i);
    var k := if i > 0 then i - 1 else i + 1;
    SurroundingHas(values, f, i, lo, hi, k);
    var near := Surrounding(values, f, i, lo, hi);
    var m := Ascending(near)[|near| / 2];
    assert m in multiset(near);
    SurroundingFrom(values, f, i, lo, hi, m);
  }

  lemma {:induction false} SurroundingHas(values: seq<real>, f: Fences, i: int, lo: int, j: int, k: int)
    requires 0 <= lo <= k < j <= |values|
    requires k != i && InFence(values[k], f)
    ensures values[k] in Surrounding(values, f, i, lo, j)
    decreases j - lo
  {
    if k < j - 1 {
      SurroundingHas(values, f, i, lo, j - 1, k);
    }
  }
}

=== FILE: patterns.dfy ===
/** The two patterns the forecast extrapolates besides the seasonal one: the
    least-squares slope of the trend (`calculateTrendSlope`) and the typical
    deviation of each weekday from its neighbouring days
    (`identifyDayOfWeekPattern`). */
module Patterns {
  import opened Seqs

  // ---------------------------------------------------------------------------
  // Least-squares slope

  /** `sum i` over `i < n`. */
  function SumX(n: nat): real
  {
    if n == 0 then 0.0 else SumX(n - 1) + (n - 1) as real
  }

  /** `sum i * i` over `i < n`. */
  function SumX2(n: nat): real
  {
    if n == 0 then 0.0 else SumX2(n - 1) + (n - 1) as real * (n - 1) as real
  }

  /** `sum i * ys[i]` over `i < k`. */
  function SumXY(ys: seq<real>, k: nat): real
    requires k <= |ys|
  {
    if k == 0 then 0.0 else SumXY(ys, k - 1) + (k - 1) as real * ys[k - 1]
  }

  function SlopeDenominator(n: nat): real
  {
    n as real * SumX2(n) - SumX(n) * SumX(n)
  }

  /** `calculateTrendSlope`: the slope of the least-squares line through the points
      `(i, ys[i])`. */
  function TrendSlope(ys: seq<real>): real
    requires |ys| >= 2
  {
    var n := |ys|;
    DenominatorPositive(n);
    SlopeFromSums(n as real, SumX(n), SumX2(n), SumXY(ys, n), Sum(ys))
  }

  /** The least-squares slope from `n`, `sum x`, `sum x*x`, `sum x*y` and `sum y`. */
  function SlopeFromSums(n: real, sx: real, sx2: real, sxy: real, sy: real): real
    requires n * sx2 - sx * sx != 0.0
  {
    (n * sxy - sx * sy) / (n * sx2 - sx * sx)
  }

  lemma {:induction false} SumXClosed(n: nat)
    ensures 2.0 * SumX(n) == n as real * (n as real - 1.0)
  {
    if n > 0 {
      SumXClosed(n - 1);
      SumXStep((n - 1) as real, n as real, SumX(n - 1), SumX(n));
    }
  }

  lemma SumXStep(m: real, k: real, s: real, next: real)
    requires k == m + 1.0 && 2.0 * s == m * (m - 1.0) && next == s + m
    ensures 2.0 * next == k * (k - 1.0)
  {
  }

  lemma {:induction false} SumX2Closed(n: nat)
    ensures 6.0 * SumX2(n) == n as real * (n as real - 1.0) * (2.0 * n as real - 1.0)
  {
    if n > 0 {
      SumX2Closed(n - 1);
      SumX2Step((n - 1) as real, n as real, SumX2(n - 1), SumX2(n));
    }
  }

  lemma SumX2Step(m: real, k: real, s: real, next: real)
    requires k == m + 1.0 && 6.0 * s == m * (m - 1.0) * (2.0 * m - 1.0) && next == s + m * m
    ensures 6.0 * next == k * (k - 1.0) * (2.0 * k - 1.0)
  {
    assert m * (m - 1.0) * (2.0 * m - 1.0) == 2.0 * m * m * m - 3.0 * m * m + m;
    assert k * (k - 1.0) * (2.0 * k - 1.0) == 2.0 * m * m * m + 3.0 * m * m + m;
  }

  /** Twelve times the denominator is `n^2 (n - 1) (n + 1)`, so it is positive from two
      points on and the slope is always defined. */
  lemma SlopeDenominatorClosed(n: nat)
    requires n >= 2
    ensures 12.0 * SlopeDenominator(n) == n as real * n as real * (n as real - 1.0) * (n as real + 1.0)
    ensures SlopeDenominator(n) > 0.0
  {
    SumXClosed(n);
    SumX2Closed(n);
    DenominatorAlgebra(n as real, SumX(n), SumX2(n), SlopeDenominator(n));
  }

  lemma DenominatorAlgebra(k: real, sx: real, sx2: real, den: real)
    requires k >= 2.0
    requires 2.0 * sx == k * (k - 1.0) && 6.0 * sx2 == k * (k - 1.0) * (2.0 * k - 1.0)
    requires den == k * sx2 - sx * sx
    ensures 12.0 * den == k * k * (k - 1.0) * (k + 1.0)
    ensures den > 0.0
  {
    assert 12.0 * den == 2.0 * k * (6.0 * sx2) - 3.0 * (2.0 * sx) * (2.0 * sx);
    assert 2.0 * k * (k * (k - 1.0) * (2.0 * k - 1.0)) - 3.0 * (k * (k - 1.0)) * (k * (k - 1.0))
           == k * k * (k - 1.0) * (k + 1.0);
    PositiveProduct(k * k, (k - 1.0) * (k + 1.0));
  }

  lemma PositiveProduct(x: real, y: real)
    requires x > 0.0 && y > 0.0
    ensures x * y > 0.0
  {
  }

  lemma DenominatorPositive(n: nat)
    requires n >= 2
    ensures SlopeDenominator(n) > 0.0
  {
    SlopeDenominatorClosed(n);
  }

  /** `sum (a + d * i)` over `i < n`. */
  function LineTotal(a: real, d: real, n: nat): real
  {
    n as real * a + d * SumX(n)
  }

  /** `sum i * (a + d * i)` over `i < n`. */
  function LineMoment(a: real, d: real, n: nat): real
  {
    a * SumX(n) + d * SumX2(n)
  }

  lemma {:induction false} LineSum(ys: seq<real>, a: real, d: real, k: nat)
    requires k <= |ys|
    requires forall i :: 0 <= i < |ys| ==> ys[i] == a + d * i as real
    ensures Sum(ys[..k]) == LineTotal(a, d, k)
  {
    if k == 0 {
      assert ys[..k] == [];
    } else {
      LineSum(ys, a, d, k - 1);
      assert ys[..k][..k - 1] == ys[..k - 1];
      SumStep((k - 1) as real, k as real, a, d, SumX(k - 1), SumX(k), ys[k - 1], Sum(ys[..k - 1]), Sum(ys[..k]));
    }
  }

  lemma {:induction false} LineSumXY(ys: seq<real>, a: real, d: real, k: nat)
    requires k <= |ys|
    requires forall i :: 0 <= i < |ys| ==> ys[i] == a + d * i as real
    ensures SumXY(ys, k) == LineMoment(a, d, k)
  {
    if k == 0 {
      assert SumXY(ys, k) == 0.0 && SumX(k) == 0.0 && SumX2(k) == 0.0;
    } else {
      LineSumXY(ys, a, d, k - 1);
      SumXYStep((k - 1) as real, a, d, SumX(k - 1), SumX(k), SumX2(k - 1), SumX2(k), ys[k - 1],
                SumXY(ys, k - 1), SumXY(ys, k));
    }
  }

  /** One more point `y = a + d * x` on the line, added to the running sums. */
  lemma SumStep(x: real, k: real, a: real, d: real, sx: real, sxNext: real, y: real, sy: real, syNext: real)
    requires y == a + d * x && k == x + 1.0 && sxNext == sx + x
    requires sy == x * a + d * sx && syNext == sy + y
    ensures syNext == k * a + d * sxNext
  {
  }

  lemma SumXYStep(x: real, a: real, d: real, sx: real, sxNext: real, sx2: real, sx2Next: real, y: real,
                  sxy: real, sxyNext: real)
    requires y == a + d * x && sxNext == sx + x && sx2Next == sx2 + x * x
    requires sxy == a * sx + d * sx2 && sxyNext == sxy + x * y
    ensures sxyNext == a * sxNext + d * sx2Next
  {
  }

  /** The points of a straight line `a + d * i` have slope `d`; a flat series has slope 0. */
  lemma SlopeOfLine(ys: seq<real>, a: real, d: real)
    requires |ys| >= 2
    requires forall i :: 0 <= i < |ys| ==> ys[i] == a + d * i as real
    ensures TrendSlope(ys) == d
  {
    LineSum(ys, a, d, |ys|);
    LineSumXY(ys, a, d, |ys|);
    assert ys[..|ys|] == ys;
    LineSlope(|ys|, a, d, SumXY(ys, |ys|), Sum(ys));
  }

  lemma LineSlope(n: nat, a: real, d: real, sxy: real, sy: real)
    requires n >= 2 && sxy == LineMoment(a, d, n) && sy == LineTotal(a, d, n)
    ensures SlopeDenominator(n) > 0.0
    ensures SlopeFromSums(n as real, SumX(n), SumX2(n), sxy, sy) == d
  {
    DenominatorPositive(n);
    LineQuotient(n as real, a, d, SumX(n), SumX2(n), sxy, sy, SlopeDenominator(n));
  }

  lemma LineQuotient(n: real, a: real, d: real, sx: real, sx2: real, sxy: real, sy: real, den: real)
    requires den == n * sx2 - sx * sx && den != 0.0
    requires sxy == a * sx + d * sx2 && sy == n * a + d * sx
    ensures SlopeFromSums(n, sx, sx2, sxy, sy) == d
  {
    LineNumerator(n, sx, sx2, a, d, sxy, sy);
    QuotientOf(n * sxy - sx * sy, n * sx2 - sx * sx, d);
  }

  lemma LineNumerator(n: real, sx: real, sx2: real, a: real, d: real, sxy: real, sy: real)
    requires sxy == a * sx + d * sx2 && sy == n * a + d * sx
    ensures n * sxy - sx * sy == d * (n * sx2 - sx * sx)
  {
  }

  lemma QuotientOf(num: real, den: real, d: real)
    requires den != 0.0 && num == d * den
    ensures num / den == d
  {
  }

  // ---------------------------------------------------------------------------
  // Weekday pattern

  /** A day of the week, Sunday = 0, as `Date.getDay` numbers them. */
  type Weekday = w: int | 0 <= w < 7

  /** The values at positions `lo .. j - 1` other than `i`, in order. */
  function NeighboursUpTo(values: seq<real>, i: int, lo: int, j: int): seq<real>
    requires 0 <= lo <= j <= |values|
    decreases j - lo
  {
    if j == lo then []
    else NeighboursUpTo(values, i, lo, j - 1) + (if j - 1 != i then [values[j - 1]] else [])
  }

  /** The values up to three days either side of day `i`, without day `i` itself. */
  function Neighbours(values: seq<real>, i: int): seq<real>
    requires 0 <= i < |values|
  {
    var lo := if i - 3 > 0 then i - 3 else 0;
    var hi := if |values| - 1 < i + 3 then |values| - 1 else i + 3;
    NeighboursUpTo(values, i, lo, hi + 1)
  }

  /** How far day `i` lies above the mean of its neighbours (none for a one-day series). */
  function DayDeviation(values: seq<real>, i: int): Option<real>
    requires 0 <= i < |values|
  {
    var neighbours := Neighbours(values, i);
    if |neighbours| > 0 then Some(values[i] - Mean(neighbours)) else None
  }

  /** The deviations of the days `i < k` that fall on weekday `w`, in order. */
  function WeekdayDeviations(dates: seq<int>, values: seq<real>, weekdayOf: int -> Weekday, w: Weekday, k: nat): seq<real>
    requires |dates| == |values| && k <= |dates|
  {
    if k == 0 then []
    else
      var earlier := WeekdayDeviations(dates, values, weekdayOf, w, k - 1);
      if weekdayOf(dates[k - 1]) == w && DayDeviation(values, k - 1).Some?
      then earlier + [DayDeviation(values, k - 1).value]
      else earlier
  }

  function WeekdayEffect(dates: seq<int>, values: seq<real>, weekdayOf: int -> Weekday, w: Weekday): real
    requires |dates| == |values|
  {
    var deviations := WeekdayDeviations(dates, values, weekdayOf, w, |dates|);
    if |deviations| == 0 then 0.0 else Mean(deviations)
  }

  /** The mean deviation per weekday, Sunday first; 0 for a weekday without days. */
  function DayOfWeekPattern(dates: seq<int>, values: seq<real>, weekdayOf: int -> Weekday): (r: seq<real>)
    requires |dates| == |values|
    ensures |r| == 7
  {
    seq(7, w requires 0 <= w < 7 => WeekdayEffect(dates, values, weekdayOf, w))
  }

  /** The neighbour loop of `identifyDayOfWeekPattern` for one day. */
  method DeviationOf(values: seq<real>, i: int) returns (deviation: Option<real>)
    requires 0 <= i < |values|
    ensures deviation == DayDeviation(values, i)
  {
    var lo := if i - 3 > 0 then i - 3 else 0;
    var hi := if |values| - 1 < i + 3 then |values| - 1 else i + 3;
    var neighbors := [];
    for j := lo to hi + 1
      invariant neighbors == NeighboursUpTo(values, i, lo, j)
    {
      if j != i {
        neighbors := neighbors + [values[j]];
      }
    }
    if |neighbors| > 0 {
      var avgNeighbors := Sum(neighbors) / |neighbors| as real;
      deviation := Some(values[i] - avgNeighbors);
    } else {
      deviation := None;
    }
  }

  /** `identifyDayOfWeekPattern`: each day's deviation is filed under its weekday, then
      each weekday's deviations are averaged. */
  method IdentifyDayOfWeekPattern(dates: seq<int>, values: seq<real>, weekdayOf: int -> Weekday) returns (pattern: seq<real>)
    requires |dates| == |values|
    ensures pattern == DayOfWeekPattern(dates, values, weekdayOf)
  {
    var dayDeviations: seq<seq<real>> := [[], [], [], [], [], [], []];
    for i := 0 to |dates|
      invariant |dayDeviations| == 7
      invariant forall w: Weekday :: dayDeviations[w] == WeekdayDeviations(dates, values, weekdayOf, w, i)
    {
      var dayOfWeek := weekdayOf(dates[i]);
      var deviation := DeviationOf(values, i);
      if deviation.Some? {
        dayDeviations := dayDeviations[dayOfWeek := dayDeviations[dayOfWeek] + [deviation.value]];
      }
    }
    pattern := [];
    for w := 0 to 7
      invariant |pattern| == w
      invariant forall v :: 0 <= v < w ==> pattern[v] == WeekdayEffect(dates, values, weekdayOf, v)
    {
      var deviations := dayDeviations[w];
      if |deviations| == 0 {
        pattern := pattern + [0.0];
      } else {
        pattern := pattern + [Sum(deviations) / |deviations| as real];
      }
    }
  }

  lemma {:induction false} FlatNeighbours(values: seq<real>, c: real, i: int, lo: int, j: int)
    requires 0 <= lo <= j <= |values|
    requires forall k :: 0 <= k < |values| ==> values[k] == c
    ensures forall k :: 0 <= k < |NeighboursUpTo(values, i, lo, j)| ==> NeighboursUpTo(values, i, lo, j)[k] == c
    decreases j - lo
  {
    if j > lo {
      FlatNeighbours(values, c, i, lo, j - 1);
    }
  }

  lemma {:induction false} FlatDeviations(dates: seq<int>, values: seq<real>, weekdayOf: int -> Weekday, c: real, w: Weekday, k: nat)
    requires |dates| == |values| && k <= |dates|
    requires forall i :: 0 <= i < |values| ==> values[i] == c
    ensures forall x :: x in WeekdayDeviations(dates, values, weekdayOf, w, k) ==> x == 0.0
  {
    if k > 0 {
      FlatDeviations(dates, values, weekdayOf, c, w, k - 1);
      var i := k - 1;
      var neighbours := Neighbours(values, i);
      if |neighbours| > 0 {
        var lo := if i - 3 > 0 then i - 3 else 0;
        var hi := if |values| - 1 < i + 3 then |values| - 1 else i + 3;
        FlatNeighbours(values, c, i, lo, hi + 1);
        MeanBetween(neighbours, c, c);
      }
    }
  }

  /** A series with the same value every day shows no weekday effect. */
  lemma FlatSeriesNoWeekdayEffect(dates: seq<int>, values: seq<real>, weekdayOf: int -> Weekday, c: real, w: Weekday)
    requires |dates| == |values|
    requires forall i :: 0 <= i < |values| ==> values[i] == c
    ensures DayOfWeekPattern(dates, values, weekdayOf)[w] == 0.0
  {
    var deviations := WeekdayDeviations(dates, values, weekdayOf, w, |dates|);
    FlatDeviations(dates, values, weekdayOf, c, w, |dates|);
    if |deviations| > 0 {
      assert forall k :: 0 <= k < |deviations| ==> deviations[k] == 0.0 by {
        forall k | 0 <= k < |deviations| ensures deviations[k] == 0.0 {
          assert deviations[k] in deviations;
        }
      }
      MeanBetween(deviations, 0.0, 0.0);
    }
  }
}

=== FILE: ranking.dfy ===
/** Rankings over the per-product rollup: the ABC partition by cumulative profit
    share and the three top-10 lists of the analytics page. */
module Ranking {
  import opened Seqs
  import opened Sorting
  import opened Analytics

  function StatsProfit(p: ProductStats): real { p.profit }
  function NegProfit(p: ProductStats): real { -p.profit }
  function NegRevenue(p: ProductStats): real { -p.revenue }
  function NegMargin(p: ProductStats): real { -p.margin }

  // ---------------------------------------------------------------------------
  // ABC analysis

  datatype AbcGroup = AbcGroup(products: seq<ProductStats>, profit: real, count: int, profitPercent: real)

  datatype AbcAnalysis = AbcAnalysis(a: AbcGroup, b: AbcGroup, c: AbcGroup)

  /** Group 0 (A) up to a cumulative share of 70 percent, group 1 (B) up to 90, group 2 (C) beyond. */
  function GroupOf(cumulativePercent: real): (g: nat)
    ensures g <= 2
  {
    if cumulativePercent <= 70.0 then 0 else if cumulativePercent <= 90.0 then 1 else 2
  }

  /** The cumulative profit share, in percent of `total`, of the products in `s`. */
  function CumShare(s: seq<ProductStats>, total: real): real
    requires total != 0.0
  {
    if s == [] then 0.0 else CumShare(s[..|s| - 1], total) + s[|s| - 1].profit / total * 100.0
  }

  /** The products of `s` placed in group `g`, each by the cumulative share up to and including it. */
  function Members(s: seq<ProductStats>, total: real, g: nat): seq<ProductStats>
    requires total != 0.0
  {
    if s == [] then []
    else Members(s[..|s| - 1], total, g) + (if GroupOf(CumShare(s, total)) == g then [s[|s| - 1]] else [])
  }

  /** One group's record: its products, their profit, how many, and their share. */
  function GroupRecord(members: seq<ProductStats>, total: real): AbcGroup
    requires total != 0.0
  {
    AbcGroup(members, SumBy(members, StatsProfit), |members|, SumBy(members, StatsProfit) / total * 100.0)
  }

  /** The partition the analytics page shows, products taken in descending profit order. */
  function Abc(products: seq<ProductStats>): AbcAnalysis
    requires SumBy(products, StatsProfit) != 0.0
  {
    var sorted := SortBy(products, NegProfit);
    var total := SumBy(products, StatsProfit);
    AbcAnalysis(GroupRecord(Members(sorted, total, 0), total),
                GroupRecord(Members(sorted, total, 1), total),
                GroupRecord(Members(sorted, total, 2), total))
  }

  /** `calculateABCAnalysis`: sort by descending profit, then walk the products
      accumulating their share and pushing each into A, B or C. */
  method CalculateAbcAnalysis(products: seq<ProductStats>) returns (groups: AbcAnalysis)
    requires SumBy(products, StatsProfit) != 0.0
    ensures groups == Abc(products)
  {
    var sorted := SortBy(products, NegProfit);
    SumByPermutation(sorted, products, StatsProfit);
    var total := SumBy(sorted, StatsProfit);
    var a, b, c := Distribute(sorted, total);
    groups := AbcAnalysis(a, b, c);
  }

  /** The distribution loop over the sorted products, with counts and shares set after it. */
  method Distribute(sorted: seq<ProductStats>, total: real) returns (a: AbcGroup, b: AbcGroup, c: AbcGroup)
    requires total != 0.0
    ensures a == GroupRecord(Members(sorted, total, 0), total)
    ensures b == GroupRecord(Members(sorted, total, 1), total)
    ensures c == GroupRecord(Members(sorted, total, 2), total)
  {
    var inA, inB, inC := [], [], [];
    var profitA, profitB, profitC := 0.0, 0.0, 0.0;
    var cumulativePercent := 0.0;
    var i := 0;
    while i < |sorted|
      invariant 0 <= i <= |sorted|
      invariant cumulativePercent == CumShare(sorted[..i], total)
      invariant inA == Members(sorted[..i], total, 0) && profitA == SumBy(inA, StatsProfit)
      invariant inB == Members(sorted[..i], total, 1) && profitB == SumBy(inB, StatsProfit)
      invariant inC == Members(sorted[..i], total, 2) && profitC == SumBy(inC, StatsProfit)
    {
      var product := sorted[i];
      assert sorted[..i + 1] == sorted[..i] + [product];
      MembersSnoc(sorted[..i], product, total, 0);
      MembersSnoc(sorted[..i], product, total, 1);
      MembersSnoc(sorted[..i], product, total, 2);
      cumulativePercent := cumulativePercent + product.profit / total * 100.0;
      if cumulativePercent <= 70.0 {
        PushProfit(inA, product);
        inA, profitA := inA + [product], profitA + product.profit;
      } else if cumulativePercent <= 90.0 {
        PushProfit(inB, product);
        inB, profitB := inB + [product], profitB + product.profit;
      } else {
        PushProfit(inC, product);
        inC, profitC := inC + [product], profitC + product.profit;
      }
      i := i + 1;
    }
    assert sorted[..i] == sorted;
    a := AbcGroup(inA, profitA, |inA|, profitA / total * 100.0);
    b := AbcGroup(inB, profitB, |inB|, profitB / total * 100.0);
    c := AbcGroup(inC, profitC, |inC|, profitC / total * 100.0);
  }

  /** One more product: the share grows by its own, and it joins the group of the new share. */
  lemma MembersSnoc(s: seq<ProductStats>, x: ProductStats, total: real, g: nat)
    requires total != 0.0
    ensures CumShare(s + [x], total) == CumShare(s, total) + x.profit / total * 100.0
    ensures Members(s + [x], total, g)
            == Members(s, total, g) + (if GroupOf(CumShare(s + [x], total)) == g then [x] else [])
  {
    assert (s + [x])[..|s|] == s;
  }

  lemma PushProfit(members: seq<ProductStats>, x: ProductStats)
    ensures SumBy(members + [x], StatsProfit) == SumBy(members, StatsProfit) + x.profit
  {
    assert (members + [x])[..|members|] == members;
  }

  lemma SumBySingle<T>(x: T, f: T -> real)
    ensures SumBy([x], f) == f(x)
  {
    assert [x][..0] == [];
  }

  /** Every product lands in exactly one group. */
  lemma {:induction false} MembersPartition(s: seq<ProductStats>, total: real)
    requires total != 0.0
    ensures multiset(Members(s, total, 0)) + multiset(Members(s, total, 1)) + multiset(Members(s, total, 2))
            == multiset(s)
  {
    if s != [] {
      var init, last := s[..|s| - 1], s[|s| - 1];
      assert s == init + [last];
      MembersPartition(init, total);
    }
  }

  /** The group profits add up to the total profit. */
  lemma {:induction false} MembersProfit(s: seq<ProductStats>, total: real)
    requires total != 0.0
    ensures SumBy(Members(s, total, 0), StatsProfit) + SumBy(Members(s, total, 1), StatsProfit)
            + SumBy(Members(s, total, 2), StatsProfit) == SumBy(s, StatsProfit)
  {
    if s != [] {
      var init, last := s[..|s| - 1], s[|s| - 1];
      assert s == init + [last];
      MembersProfit(init, total);
      var g := GroupOf(CumShare(s, total));
      MembersSnoc(init, last, total, 0);
      MembersSnoc(init, last, total, 1);
      MembersSnoc(init, last, total, 2);
      PushProfit(Members(init, total, g), last);
      PushProfit(init, last);
      var m0, m1, m2 := SumBy(Members(init, total, 0), StatsProfit), SumBy(Members(init, total, 1), StatsProfit),
                        SumBy(Members(init, total, 2), StatsProfit);
      if g == 0 {
        assert SumBy(Members(s, total, 0), StatsProfit) == m0 + last.profit;
        assert Members(s, total, 1) == Members(init, total, 1) && Members(s, total, 2) == Members(init, total, 2);
      } else if g == 1 {
        assert SumBy(Members(s, total, 1), StatsProfit) == m1 + last.profit;
        assert Members(s, total, 0) == Members(init, total, 0) && Members(s, total, 2) == Members(init, total, 2);
      } else {
        assert SumBy(Members(s, total, 2), StatsProfit) == m2 + last.profit;
        assert Members(s, total, 0) == Members(init, total, 0) && Members(s, total, 1) == Members(init, total, 1);
      }
    }
  }

  /** The ABC groups partition the products: counts add up to the number of products,
      profits to the total profit, and the three shares to 100 percent. */
  lemma AbcPartition(products: seq<ProductStats>)
    requires SumBy(products, StatsProfit) != 0.0
    ensures var r := Abc(products);
            multiset(r.a.products) + multiset(r.b.products) + multiset(r.c.products) == multiset(products)
    ensures var r := Abc(products);
            r.a.count + r.b.count + r.c.count == |products|
    ensures var r := Abc(products);
            r.a.profit + r.b.profit + r.c.profit == SumBy(products, StatsProfit)
    ensures var r := Abc(products);
            r.a.profitPercent + r.b.profitPercent + r.c.profitPercent == 100.0
  {
    var sorted := SortBy(products, NegProfit);
    var total := SumBy(products, StatsProfit);
    MembersPartition(sorted, total);
    MembersProfit(sorted, total);
    SumByPermutation(sorted, products, StatsProfit);
    var r := Abc(products);
    assert |multiset(r.a.products) + multiset(r.b.products) + multiset(r.c.products)| == |multiset(products)|;
    PercentsAddUp(r.a.profit, r.b.profit, r.c.profit, total);
  }

  lemma PercentsAddUp(x: real, y: real, z: real, total: real)
    requires total != 0.0 && x + y + z == total
    ensures x / total * 100.0 + y / total * 100.0 + z / total * 100.0 == 100.0
  {
    assert x / total + y / total + z / total == (x + y + z) / total;
  }

  /** With no loss-making product and a positive total, the cumulative share only
      grows along the sorted order, so A, B and C are consecutive runs of it. */
  lemma {:induction false} GroupsAreRuns(s: seq<ProductStats>, total: real)
    requires total > 0.0
    requires forall i :: 0 <= i < |s| ==> s[i].profit >= 0.0
    ensures s == Members(s, total, 0) + Members(s, total, 1) + Members(s, total, 2)
    decreases |s|, 1
  {
    if s != [] {
      var init, last := s[..|s| - 1], s[|s| - 1];
      var g := GroupOf(CumShare(s, total));
      var m0, m1, m2 := Members(init, total, 0), Members(init, total, 1), Members(init, total, 2);
      calc {
        Members(s, total, 0) + Members(s, total, 1) + Members(s, total, 2);
        (m0 + (if g == 0 then [last] else [])) + (m1 + (if g == 1 then [last] else []))
          + (m2 + (if g == 2 then [last] else []));
        { LaterRunsEmpty(s, total); AppendToRuns(init, last, m0, m1, m2, g); }
        init + [last];
        s;
      }
    }
  }

  /** The products before the last one fall into three runs, of which those after the
      last product's group are empty. */
  lemma LaterRunsEmpty(s: seq<ProductStats>, total: real)
    requires total > 0.0 && s != []
    requires forall i :: 0 <= i < |s| ==> s[i].profit >= 0.0
    ensures var init := s[..|s| - 1];
            var g := GroupOf(CumShare(s, total));
            init == Members(init, total, 0) + Members(init, total, 1) + Members(init, total, 2) &&
            (g < 1 ==> Members(init, total, 1) == []) && (g < 2 ==> Members(init, total, 2) == [])
    decreases |s|, 0
  {
    var init, last := s[..|s| - 1], s[|s| - 1];
    GroupsAreRuns(init, total);
    ShareNonNegative(last.profit, total);
    var g := GroupOf(CumShare(s, total));
    if g < 1 {
      NoMembersAbove(init, total, 1, CumShare(s, total));
    }
    if g < 2 {
      NoMembersAbove(init, total, 2, CumShare(s, total));
    }
  }

  /** Appending an element to the run of group `g`, when the later runs are empty,
      keeps the three runs consecutive. */
  lemma AppendToRuns<T>(s: seq<T>, x: T, m0: seq<T>, m1: seq<T>, m2: seq<T>, g: nat)
    requires s == m0 + m1 + m2 && g <= 2
    requires g < 1 ==> m1 == []
    requires g < 2 ==> m2 == []
    ensures s + [x] == (m0 + (if g == 0 then [x] else [])) + (m1 + (if g == 1 then [x] else []))
                       + (m2 + (if g == 2 then [x] else []))
  {
    if g == 0 {
      assert s == m0;
    } else if g == 1 {
      assert s == m0 + m1;
    }
  }

  /** A product without loss adds a non-negative share. */
  lemma ShareNonNegative(profit: real, total: real)
    requires profit >= 0.0 && total > 0.0
    ensures profit / total * 100.0 >= 0.0
  {
  }

  /** No product reaches a group above that of a cumulative share `bound` the whole
      sequence stays under. */
  lemma {:induction false} NoMembersAbove(s: seq<ProductStats>, total: real, h: nat, bound: real)
    requires total > 0.0
    requires forall i :: 0 <= i < |s| ==> s[i].profit >= 0.0
    requires CumShare(s, total) <= bound && GroupOf(bound) < h
    ensures Members(s, total, h) == []
  {
    if s != [] {
      var init := s[..|s| - 1];
      ShareNonNegative(s[|s| - 1].profit, total);
      NoMembersAbove(init, total, h, bound);
    }
  }

  // ---------------------------------------------------------------------------
  // Top-10 lists

  const TopCount: nat := 10

  /** `.slice(0, 10)`. */
  function Take10(s: seq<ProductStats>): (r: seq<ProductStats>)
    ensures |r| == if |s| < TopCount then |s| else TopCount
    ensures r == s[..|r|]
  {
    if |s| <= TopCount then s else s[..TopCount]
  }

  /** `.filter(p => p.quantity > 0)`. */
  function Sold(s: seq<ProductStats>): (r: seq<ProductStats>)
    ensures forall p :: p in r <==> p in s && p.quantity > 0
  {
    if s == [] then []
    else
      var rest := Sold(s[1..]);
      assert s == [s[0]] + s[1..];
      assert forall p :: p in rest ==> p in s[1..];
      if s[0].quantity > 0 then [s[0]] + rest else rest
  }

  /** The filter works element by element: a concatenation is filtered part by part,
      in order, and a single product is kept exactly when it has units sold. */
  lemma {:induction false} SoldAppend(a: seq<ProductStats>, b: seq<ProductStats>)
    ensures Sold(a + b) == Sold(a) + Sold(b)
  {
    if a == [] {
      assert a + b == b;
    } else {
      var head := if a[0].quantity > 0 then [a[0]] else [];
      var x, y := Sold(a[1..]), Sold(b);
      assert Sold(a + b) == head + Sold(a[1..] + b) by {
        assert (a + b)[0] == a[0];
        assert (a + b)[1..] == a[1..] + b;
      }
      SoldAppend(a[1..], b);
      assert head + (x + y) == (head + x) + y;
    }
  }

  /** The filter draws its products from the input, each at most as often as there. */
  lemma {:induction false} SoldSubMultiset(s: seq<ProductStats>)
    ensures multiset(Sold(s)) <= multiset(s)
  {
    if s != [] {
      SoldSubMultiset(s[1..]);
      assert s == [s[0]] + s[1..];
    }
  }

  lemma SoldSingle(p: ProductStats)
    ensures Sold([p]) == if p.quantity > 0 then [p] else []
  {
    assert [p][1..] == [];
  }

  /** The ten most profitable products, most profitable first. */
  function TopByProfit(products: seq<ProductStats>): seq<ProductStats>
  {
    Take10(SortBy(products, NegProfit))
  }

  /** The ten products with the highest revenue, highest first. */
  function TopBySales(products: seq<ProductStats>): seq<ProductStats>
  {
    Take10(SortBy(products, NegRevenue))
  }

  /** The ten products with the highest margin among those with units sold. */
  function TopByMargin(products: seq<ProductStats>): seq<ProductStats>
  {
    Take10(Sold(SortBy(products, NegMargin)))
  }

  /** Filtering by units sold and picking out one key commute. */
  lemma {:induction false} SoldWithKey(s: seq<ProductStats>, key: ProductStats -> real, v: real)
    ensures WithKey(Sold(s), key, v) == Sold(WithKey(s, key, v))
  {
    if s == [] {
      assert WithKey(s, key, v) == [];
    } else {
      var a, b := [s[0]], s[1..];
      assert s == a + b;
      SoldAppend(a, b);
      WithKeyAppend(Sold(a), Sold(b), key, v);
      WithKeyAppend(a, b, key, v);
      SoldAppend(WithKey(a, key, v), WithKey(b, key, v));
      SoldSingle(s[0]);
      WithKeySingle(s[0], key, v);
      assert WithKey([], key, v) == [] && Sold([]) == [];
      assert WithKey(Sold(a), key, v) == Sold(WithKey(a, key, v));
      SoldWithKey(b, key, v);
    }
  }

  /** Inserting one product adds one to the number sold exactly when it has units sold. */
  lemma {:induction false} SoldInsertLength(x: ProductStats, s: seq<ProductStats>, key: ProductStats -> real)
    ensures |Sold(Insert(x, s, key))| == |Sold(s)| + (if x.quantity > 0 then 1 else 0)
  {
    if s == [] || key(x) <= key(s[0]) {
      assert ([x] + s)[0] == x && ([x] + s)[1..] == s;
    } else {
      SoldInsertLength(x, s[1..], key);
      var rest := Insert(x, s[1..], key);
      assert ([s[0]] + rest)[0] == s[0] && ([s[0]] + rest)[1..] == rest;
    }
  }

  /** Sorting does not change how many products have units sold. */
  lemma {:induction false} SoldSortLength(s: seq<ProductStats>, key: ProductStats -> real)
    ensures |Sold(SortBy(s, key))| == |Sold(s)|
  {
    if s != [] {
      SoldSortLength(s[1..], key);
      SoldInsertLength(s[0], SortBy(s[1..], key), key);
    }
  }

  /** Of the products with one key, the top list holds the first few, in input order. */
  lemma TopKeepsTieOrder(products: seq<ProductStats>, key: ProductStats -> real)
    ensures forall v :: WithKey(Take10(SortBy(products, key)), key, v) <= WithKey(products, key, v)
  {
    var sorted := SortBy(products, key);
    var r := Take10(sorted);
    forall v ensures WithKey(r, key, v) <= WithKey(products, key, v) {
      WithKeyPrefix(sorted, key, v, |r|);
      SortStable(products, key, v);
    }
  }

  /** No product left out of a top list has a better key than one taken in. */
  lemma TopIsClosed(products: seq<ProductStats>, key: ProductStats -> real)
    ensures var r := Take10(SortBy(products, key));
            forall x, y :: x in r && y in products && key(y) < key(x) ==> y in r
  {
    var sorted := SortBy(products, key);
    var r := Take10(sorted);
    forall x, y | x in r && y in products && key(y) < key(x)
      ensures y in r
    {
      assert y in multiset(sorted);
      PrefixIsLeast(sorted, key, |r|, x, y);
    }
  }

  /** A top list sorted by `key` (a negated figure): at most ten products drawn from
      the input, best first, and no product left out beats one taken in. Products with
      the same figure keep their input order, and those taken in are the first of them. */
  lemma TopOfSorted(products: seq<ProductStats>, key: ProductStats -> real)
    ensures var r := Take10(SortBy(products, key));
            |r| <= TopCount && multiset(r) <= multiset(products) && SortedBy(r, key) &&
            |r| == (if |products| < TopCount then |products| else TopCount) &&
            (forall x, y :: x in r && y in products && key(y) < key(x) ==> y in r) &&
            forall v :: WithKey(r, key, v) <= WithKey(products, key, v)
  {
    TopKeepsTieOrder(products, key);
    TopIsClosed(products, key);
    var sorted := SortBy(products, key);
    var r := Take10(sorted);
    assert sorted == r + sorted[|r|..];
    assert multiset(r) <= multiset(sorted);
  }

  /** Filtering keeps a sorted sequence sorted. */
  lemma {:induction false} SoldSorted(s: seq<ProductStats>, key: ProductStats -> real)
    requires SortedBy(s, key)
    ensures SortedBy(Sold(s), key)
  {
    if s != [] {
      SoldSorted(s[1..], key);
      var rest := Sold(s[1..]);
      forall p | p in rest ensures key(s[0]) <= key(p) {
        var j :| 0 <= j < |s[1..]| && s[1..][j] == p;
        assert s[j + 1] == p;
      }
    }
  }

  /** The ten most profitable products: drawn from the rollup, most profitable first,
      and no product left out is more profitable than one taken in. */
  lemma TopByProfitIsTop(products: seq<ProductStats>)
    ensures var r := TopByProfit(products);
            |r| == (if |products| < TopCount then |products| else TopCount) &&
            multiset(r) <= multiset(products) &&
            (forall i, j :: 0 <= i < j < |r| ==> r[i].profit >= r[j].profit) &&
            (forall x, y :: x in r && y in products && y.profit > x.profit ==> y in r) &&
            forall v :: WithKey(r, NegProfit, v) <= WithKey(products, NegProfit, v)
  {
    TopOfSorted(products, NegProfit);
    var r := TopByProfit(products);
    assert forall i, j :: 0 <= i < j < |r| ==> NegProfit(r[i]) <= NegProfit(r[j]);
  }

  /** The ten best-selling products by revenue, in the same sense. */
  lemma TopBySalesIsTop(products: seq<ProductStats>)
    ensures var r := TopBySales(products);
            |r| == (if |products| < TopCount then |products| else TopCount) &&
            multiset(r) <= multiset(products) &&
            (forall i, j :: 0 <= i < j < |r| ==> r[i].revenue >= r[j].revenue) &&
            (forall x, y :: x in r && y in products && y.revenue > x.revenue ==> y in r) &&
            forall v :: WithKey(r, NegRevenue, v) <= WithKey(products, NegRevenue, v)
  {
    TopOfSorted(products, NegRevenue);
    var r := TopBySales(products);
    assert forall i, j :: 0 <= i < j < |r| ==> NegRevenue(r[i]) <= NegRevenue(r[j]);
  }

  /** Of the sold products with one margin, the margin list holds the first few, in
      input order. */
  lemma MarginTopKeepsTieOrder(products: seq<ProductStats>)
    ensures forall v :: WithKey(TopByMargin(products), NegMargin, v) <= WithKey(Sold(products), NegMargin, v)
  {
    var sorted := SortBy(products, NegMargin);
    var sold := Sold(sorted);
    var r := TopByMargin(products);
    forall v ensures WithKey(r, NegMargin, v) <= WithKey(Sold(products), NegMargin, v) {
      WithKeyPrefix(sold, NegMargin, v, |r|);
      SoldWithKey(sorted, NegMargin, v);
      SortStable(products, NegMargin, v);
      SoldWithKey(products, NegMargin, v);
    }
  }

  /** The ten highest-margin products with units sold: only sold products, as many as
      there are up to ten, highest margin first; sold products with the same margin keep
      their input order, and those taken in are the first of them. */
  lemma TopByMarginIsTop(products: seq<ProductStats>)
    ensures var r := TopByMargin(products);
            |r| == (if |Sold(products)| < TopCount then |Sold(products)| else TopCount) &&
            multiset(r) <= multiset(products) &&
            (forall p :: p in r ==> p.quantity > 0) &&
            (forall i, j :: 0 <= i < j < |r| ==> r[i].margin >= r[j].margin) &&
            forall v :: WithKey(r, NegMargin, v) <= WithKey(Sold(products), NegMargin, v)
  {
    MarginTopKeepsTieOrder(products);
    var sorted := SortBy(products, NegMargin);
    var sold := Sold(sorted);
    SoldSorted(sorted, NegMargin);
    SoldSortLength(products, NegMargin);
    SoldSubMultiset(sorted);
    var r := TopByMargin(products);
    assert r == sold[..|r|];
    assert sold == r + sold[|r|..];
    assert multiset(r) <= multiset(sold);
    forall i, j | 0 <= i < j < |r| ensures r[i].margin >= r[j].margin {
      assert r[i] == sold[i] && r[j] == sold[j];
      assert NegMargin(sold[i]) <= NegMargin(sold[j]);
    }
    forall q | q in r ensures q.quantity > 0 {
      assert q in sold;
    }
  }

  /** No sold product left out of the margin list has a higher margin than one taken in. */
  lemma TopByMarginClosed(products: seq<ProductStats>, x: ProductStats, y: ProductStats)
    requires x in TopByMargin(products) && y in products && y.quantity > 0 && y.margin > x.margin
    ensures y in TopByMargin(products)
  {
    var sorted := SortBy(products, NegMargin);
    var sold := Sold(sorted);
    SoldSorted(sorted, NegMargin);
    var r := TopByMargin(products);
    assert y in multiset(sorted);
    assert y in sold;
    PrefixIsLeast(sold, NegMargin, |r|, x, y);
  }
}

=== FILE: recommendations.dfy ===
/** The advice under the forecast chart (`generateEnhancedRecommendations`): the
    monthly growth rate implied by the trend slope, relative to the mean of the
    recorded days, picks one of five growth bands, and the weekday pattern names the
    best and the worst day of the week. The rate follows IEEE double division, so a
    zero mean gives an infinity or NaN, and NaN fails every comparison. */
module Recommendations {
  import opened Seqs
  import opened Fill
  import opened Financial
  import opened Forecast

  /** A double as far as the growth rate needs one. */
  datatype Rate = Finite(value: real) | PositiveInfinity | NegativeInfinity | NotANumber

  /** `a / b` on doubles whose operands are finite (a zero divisor taken as +0). */
  function Divide(a: real, b: real): (r: Rate)
    ensures r.Finite? <==> b != 0.0
    ensures r.Finite? ==> r.value * b == a
    ensures r.PositiveInfinity? <==> b == 0.0 && a > 0.0
    ensures r.NegativeInfinity? <==> b == 0.0 && a < 0.0
  {
    if b != 0.0 then
      DivMulCancel(a, b);
      Finite(a / b)
    else if a > 0.0 then PositiveInfinity
    else if a < 0.0 then NegativeInfinity
    else NotANumber
  }

  /** `r * k` for a positive finite `k`: infinities and NaN are kept. */
  function Scale(r: Rate, k: real): (s: Rate)
    requires k > 0.0
    ensures s.Finite? <==> r.Finite?
    ensures s.Finite? ==> s.value == r.value * k
    ensures !r.Finite? ==> s == r
  {
    if r.Finite? then Finite(r.value * k) else r
  }

  /** The non-null entries, in order: `filter(v => v !== null)`. */
  function Recorded(s: seq<Option<real>>): (r: seq<real>)
    ensures |r| <= |s|
  {
    if s == [] then []
    else Recorded(s[..|s| - 1]) + (if s[|s| - 1].Some? then [s[|s| - 1].value] else [])
  }

  /** A value is recorded exactly when it appears as a non-null entry. */
  lemma {:induction false} RecordedMembers(s: seq<Option<real>>, x: real)
    ensures x in Recorded(s) <==> Some(x) in s
  {
    if s != [] {
      RecordedMembers(s[..|s| - 1], x);
      assert s == s[..|s| - 1] + [s[|s| - 1]];
    }
  }

  lemma {:induction false} RecordedAppend(a: seq<Option<real>>, b: seq<Option<real>>)
    ensures Recorded(a + b) == Recorded(a) + Recorded(b)
    decreases |b|
  {
    if b == [] {
      assert a + b == a;
    } else {
      assert (a + b)[..|a + b| - 1] == a + b[..|b| - 1];
      assert (a + b)[|a + b| - 1] == b[|b| - 1];
      RecordedAppend(a, b[..|b| - 1]);
    }
  }

  lemma {:induction false} RecordedPresent(v: seq<real>)
    ensures Recorded(Present(v)) == v
  {
    if v != [] {
      assert Present(v)[..|v| - 1] == Present(v[..|v| - 1]);
      RecordedPresent(v[..|v| - 1]);
    }
  }

  lemma {:induction false} RecordedNulls(k: nat)
    ensures Recorded(Nulls(k)) == []
  {
    if k > 0 {
      assert Nulls(k)[..k - 1] == Nulls(k - 1);
      RecordedNulls(k - 1);
    }
  }

  /** On the forecast chart, the non-null actual values are the history and nothing
      else: the forecast days contribute no entry. */
  lemma ChartRecordsHistory(v: seq<real>, days: nat)
    ensures Recorded(Present(v) + Nulls(days)) == v
  {
    RecordedAppend(Present(v), Nulls(days));
    RecordedPresent(v);
    RecordedNulls(days);
  }

  /** `trendSlope * 30 / mean * 100`, the mean taken over the non-null actual values;
      without any the mean is `0 / 0`, NaN, and so is the rate. */
  function GrowthRate(f: ForecastData): (r: Rate)
    ensures Recorded(f.actualValues) == [] ==> r == NotANumber
    ensures r.Finite? <==> Recorded(f.actualValues) != [] && Mean(Recorded(f.actualValues)) != 0.0
    ensures r.Finite? ==> r.value * Mean(Recorded(f.actualValues)) == f.trendSlope * 3000.0
  {
    var known := Recorded(f.actualValues);
    if known == [] then NotANumber
    else
      var d := Divide(f.trendSlope * 30.0, Mean(known));
      var r := Scale(d, 100.0);
      assert r.Finite? ==> r.value * Mean(known) == (d.value * Mean(known)) * 100.0;
      r
  }

  /** The five trend cases of the recommendation. */
  datatype GrowthBand = SignificantGrowth | ModerateGrowth | Stable | SlightDecline | SignificantDecline

  /** `rate > c` on doubles: NaN compares false, +Infinity exceeds every number. */
  predicate Exceeds(r: Rate, c: real)
  {
    r.PositiveInfinity? || (r.Finite? && r.value > c)
  }

  /** `rate >= c` on doubles. */
  predicate Reaches(r: Rate, c: real)
  {
    r.PositiveInfinity? || (r.Finite? && r.value >= c)
  }

  /** The chain `> 10`, `> 3`, `>= -3`, `>= -10`, else; a NaN rate fails every test
      and lands in the last case. */
  function Band(r: Rate): (b: GrowthBand)
    ensures r.Finite? ==> (b == SignificantGrowth <==> r.value > 10.0)
    ensures r.Finite? ==> (b == ModerateGrowth <==> 3.0 < r.value <= 10.0)
    ensures r.Finite? ==> (b == Stable <==> -3.0 <= r.value <= 3.0)
    ensures r.Finite? ==> (b == SlightDecline <==> -10.0 <= r.value < -3.0)
    ensures r.Finite? ==> (b == SignificantDecline <==> r.value < -10.0)
    ensures r.PositiveInfinity? ==> b == SignificantGrowth
    ensures r.NegativeInfinity? || r.NotANumber? ==> b == SignificantDecline
  {
    if Exceeds(r, 10.0) then SignificantGrowth
    else if Exceeds(r, 3.0) then ModerateGrowth
    else if Reaches(r, -3.0) then Stable
    else if Reaches(r, -10.0) then SlightDecline
    else SignificantDecline
  }

  /** The bands from the strongest decline (0) to the strongest growth (4). */
  function Rank(b: GrowthBand): nat
  {
    match b
    case SignificantDecline => 0
    case SlightDecline => 1
    case Stable => 2
    case ModerateGrowth => 3
    case SignificantGrowth => 4
  }

  /** A higher rate never lands in a lower band. */
  lemma BandMonotone(x: real, y: real)
    requires x <= y
    ensures Rank(Band(Finite(x))) <= Rank(Band(Finite(y)))
  {
  }

  /** With sales on record, a trend rising faster than a third of a percent of the
      mean per day is reported as significant growth, and a flat trend as stable. */
  lemma SlopeBands(f: ForecastData)
    requires Recorded(f.actualValues) != [] && Mean(Recorded(f.actualValues)) > 0.0
    ensures f.trendSlope * 300.0 > Mean(Recorded(f.actualValues)) ==> Band(GrowthRate(f)) == SignificantGrowth
    ensures f.trendSlope == 0.0 ==> Band(GrowthRate(f)) == Stable
  {
    var m := Mean(Recorded(f.actualValues));
    var r := GrowthRate(f);
    if f.trendSlope * 300.0 > m {
      assert r.Finite?;
      assert r.value * m == f.trendSlope * 3000.0;
      assert f.trendSlope * 3000.0 > 10.0 * m;
      if r.value <= 10.0 {
        NonNegativeScaled(10.0 - r.value, m);
        assert false;
      }
    }
    if f.trendSlope == 0.0 {
      assert r.value * m == 0.0;
      ZeroProduct(r.value, m);
    }
  }

  lemma NonNegativeScaled(x: real, m: real)
    requires x >= 0.0 && m > 0.0
    ensures x * m >= 0.0
  {
  }

  lemma ZeroProduct(x: real, m: real)
    requires m != 0.0 && x * m == 0.0
    ensures x == 0.0
  {
  }

  /** A history whose recorded sales are all zero has mean 0 and, with a zero slope,
      the rate `0 / 0`: it is announced as a significant decline. */
  lemma SilentHistoryReadsAsDecline(f: ForecastData)
    requires Recorded(f.actualValues) != [] && Mean(Recorded(f.actualValues)) == 0.0
    requires f.trendSlope == 0.0
    ensures GrowthRate(f) == NotANumber
    ensures Band(GrowthRate(f)) == SignificantDecline
  {
  }

  /** `pattern.indexOf(Math.max(...pattern))`: the FIRST weekday with the largest effect. */
  function BestDay(pattern: seq<real>): (d: nat)
    requires |pattern| > 0
    ensures d < |pattern|
    ensures forall k :: 0 <= k < |pattern| ==> pattern[k] <= pattern[d]
    ensures forall k :: 0 <= k < d ==> pattern[k] < pattern[d]
  {
    var i := IndexOf(pattern, SeqMax(pattern));
    assert forall k :: 0 <= k < i ==> pattern[k] != pattern[i] by {
      forall k | 0 <= k < i ensures pattern[k] != pattern[i] {
        assert pattern[k] == pattern[..i][k];
      }
    }
    i
  }

  /** `pattern.indexOf(Math.min(...pattern))`: the FIRST weekday with the smallest effect. */
  function WorstDay(pattern: seq<real>): (d: nat)
    requires |pattern| > 0
    ensures d < |pattern|
    ensures forall k :: 0 <= k < |pattern| ==> pattern[d] <= pattern[k]
    ensures forall k :: 0 <= k < d ==> pattern[d] < pattern[k]
  {
    var i := IndexOf(pattern, SeqMin(pattern));
    assert forall k :: 0 <= k < i ==> pattern[k] != pattern[i] by {
      forall k | 0 <= k < i ensures pattern[k] != pattern[i] {
        assert pattern[k] == pattern[..i][k];
      }
    }
    i
  }

  /** The best weekday here is the first maximum, while the best day of the revenue
      and expense summaries is the last one: they agree exactly when the maximum is
      unique. */
  lemma FirstAndLastBest(v: seq<real>)
    requires |v| > 0
    ensures BestDay(v) <= BestIndex(v)
    ensures BestDay(v) == BestIndex(v) <==> forall k :: 0 <= k < |v| && k != BestDay(v) ==> v[k] < v[BestDay(v)]
  {
    var b, l := BestDay(v), BestIndex(v);
    assert v[b] == v[l];
  }

  /** A week without any weekday effect names Sunday (day 0) as both the best and the
      worst day. */
  lemma FlatWeekNamesSunday(pattern: seq<real>)
    requires |pattern| > 0
    requires forall k :: 0 <= k < |pattern| ==> pattern[k] == pattern[0]
    ensures BestDay(pattern) == 0 && WorstDay(pattern) == 0
  {
  }

  datatype Recommendation = Recommendation(growthRate: Rate, band: GrowthBand, bestDay: nat, worstDay: nat)

  /** `generateEnhancedRecommendations` without its wording: the rate, its band and
      the best and worst weekday. */
  function GenerateEnhancedRecommendations(f: ForecastData): (r: Recommendation)
    requires |f.dayOfWeekPattern| > 0
    ensures r.growthRate == GrowthRate(f) && r.band == Band(r.growthRate)
    ensures r.bestDay == BestDay(f.dayOfWeekPattern) && r.worstDay == WorstDay(f.dayOfWeekPattern)
    ensures r.bestDay < |f.dayOfWeekPattern| && r.worstDay < |f.dayOfWeekPattern|
    ensures forall k :: 0 <= k < |f.dayOfWeekPattern| ==>
              f.dayOfWeekPattern[r.worstDay] <= f.dayOfWeekPattern[k] <= f.dayOfWeekPattern[r.bestDay]
    ensures forall k :: 0 <= k < r.bestDay ==> f.dayOfWeekPattern[k] < f.dayOfWeekPattern[r.bestDay]
    ensures forall k :: 0 <= k < r.worstDay ==> f.dayOfWeekPattern[r.worstDay] < f.dayOfWeekPattern[k]
    ensures f.dayOfWeekPattern[r.worstDay] <= f.dayOfWeekPattern[r.bestDay]
    ensures r.band == SignificantGrowth <==> Exceeds(r.growthRate, 10.0)
    ensures r.band == SignificantDecline <==> !Reaches(r.growthRate, -10.0)
  {
    var rate := GrowthRate(f);
    Recommendation(rate, Band(rate), BestDay(f.dayOfWeekPattern), WorstDay(f.dayOfWeekPattern))
  }
}

=== FILE: seqs.dfy ===
/** Shared vocabulary: optional values, sums over sequences and extrema. */
module Seqs {

  datatype Option<+T> = None | Some(value: T)

  /** An outcome or the reason it was refused (the source's `alert` and early `return`). */
  datatype Result<+T, +E> = Ok(value: T) | Err(error: E)

  /** Sum of a sequence, accumulated left to right as `reduce((s, v) => s + v, 0)` does. */
  function Sum(s: seq<real>): real
  {
    if s == [] then 0.0 else Sum(s[..|s| - 1]) + s[|s| - 1]
  }

  /** Sum of `f` over the elements of `s`, left to right. */
  function SumBy<T>(s: seq<T>, f: T -> real): real
  {
    if s == [] then 0.0 else SumBy(s[..|s| - 1], f) + f(s[|s| - 1])
  }

  /** Sum of an integer-valued `f` over the elements of `s`, left to right. */
  function SumInt<T>(s: seq<T>, f: T -> int): int
  {
    if s == [] then 0 else SumInt(s[..|s| - 1], f) + f(s[|s| - 1])
  }

  /** Arithmetic mean; the source's `reduce(...) / length`. */
  function Mean(s: seq<real>): real
    requires |s| > 0
  {
    Sum(s) / |s| as real
  }

  function Abs(x: real): real { if x < 0.0 then -x else x }

  function MaxR(a: real, b: real): real { if a < b then b else a }

  function MinR(a: real, b: real): real { if a < b then a else b }

  /** `b ^ k` for a natural exponent, as `Math.pow(b, k)`. */
  function Pow(b: real, k: nat): real
  {
    if k == 0 then 1.0 else b * Pow(b, k - 1)
  }

  /** Smallest element of a non-empty sequence. */
  function SeqMin(s: seq<real>): (m: real)
    requires |s| > 0
    ensures m in s
    ensures forall i :: 0 <= i < |s| ==> m <= s[i]
  {
    if |s| == 1 then s[0] else MinR(SeqMin(s[..|s| - 1]), s[|s| - 1])
  }

  /** Largest element of a non-empty sequence. */
  function SeqMax(s: seq<real>): (m: real)
    requires |s| > 0
    ensures m in s
    ensures forall i :: 0 <= i < |s| ==> s[i] <= m
  {
    if |s| == 1 then s[0] else MaxR(SeqMax(s[..|s| - 1]), s[|s| - 1])
  }

  predicate NoDup<T(==)>(s: seq<T>)
  {
    forall i, j :: 0 <= i < j < |s| ==> s[i] != s[j]
  }

  predicate StrictlyIncreasing(s: seq<int>)
  {
    forall i, j :: 0 <= i < j < |s| ==> s[i] < s[j]
  }

  /** Sum of `s` split at any point. */
  lemma {:induction false} SumAppend(a: seq<real>, b: seq<real>)
    ensures Sum(a + b) == Sum(a) + Sum(b)
  {
    if b == [] {
      assert a + b == a;
    } else {
      assert (a + b)[..|a + b| - 1] == a + b[..|b| - 1];
      SumAppend(a, b[..|b| - 1]);
    }
  }

  /** A sum of values that all lie in [lo, hi] lies in [n*lo, n*hi]. */
  lemma {:induction false} SumBounds(s: seq<real>, lo: real, hi: real)
    requires forall i :: 0 <= i < |s| ==> lo <= s[i] <= hi
    ensures |s| as real * lo <= Sum(s) <= |s| as real * hi
  {
    if s != [] {
      SumBounds(s[..|s| - 1], lo, hi);
    }
  }

  /** The mean of values that all lie in [lo, hi] lies in [lo, hi]. */
  lemma MeanBetween(s: seq<real>, lo: real, hi: real)
    requires |s| > 0
    requires forall i :: 0 <= i < |s| ==> lo <= s[i] <= hi
    ensures lo <= Mean(s) <= hi
  {
    SumBounds(s, lo, hi);
    DivBounds(Sum(s), |s| as real, lo, hi);
  }

  /** The mean of a non-empty sequence lies between its minimum and maximum. */
  lemma MeanBounds(s: seq<real>)
    requires |s| > 0
    ensures SeqMin(s) <= Mean(s) <= SeqMax(s)
  {
    MeanBetween(s, SeqMin(s), SeqMax(s));
  }

  /** Dividing bounds `n*lo <= a <= n*hi` by a positive `n`. */
  lemma DivBounds(a: real, n: real, lo: real, hi: real)
    requires n > 0.0
    requires n * lo <= a <= n * hi
    ensures lo <= a / n <= hi
  {
    assert a / n - lo == (a - n * lo) / n;
    assert hi - a / n == (n * hi - a) / n;
  }

  lemma DivMulCancel(a: real, n: real)
    requires n != 0.0
    ensures a / n * n == a
  {
  }

  lemma StrictlyIncreasingNoDup(s: seq<int>)
    requires StrictlyIncreasing(s)
    ensures NoDup(s)
  {
  }

  lemma {:induction false} SumIntAppend<T>(a: seq<T>, b: seq<T>, f: T -> int)
    ensures SumInt(a + b, f) == SumInt(a, f) + SumInt(b, f)
  {
    if b == [] {
      assert a + b == a;
    } else {
      assert (a + b)[..|a + b| - 1] == a + b[..|b| - 1];
      SumIntAppend(a, b[..|b| - 1], f);
    }
  }

  /** Reordering does not change an integer sum. */
  lemma {:induction false} SumIntPermutation<T>(a: seq<T>, b: seq<T>, f: T -> int)
    requires multiset(a) == multiset(b)
    ensures SumInt(a, f) == SumInt(b, f)
    decreases |a|
  {
    if a == [] {
      assert |b| == |multiset(b)| == 0;
    } else {
      var x := a[0];
      assert x in multiset(b);
      var i :| 0 <= i < |b| && b[i] == x;
      var rest := b[..i] + b[i + 1..];
      assert b == b[..i] + [x] + b[i + 1..];
      assert a == [x] + a[1..];
      calc {
        multiset(b);
        multiset(b[..i] + [x] + b[i + 1..]);
        multiset(b[..i]) + multiset{x} + multiset(b[i + 1..]);
        multiset(rest) + multiset{x};
      }
      assert multiset(a) == multiset(a[1..]) + multiset{x};
      assert multiset(a[1..]) == multiset(a) - multiset{x};
      assert multiset(rest) == multiset(b) - multiset{x};
      SumIntPermutation(a[1..], rest, f);
      SumIntAppend([x], a[1..], f);
      SumIntAppend(b[..i] + [x], b[i + 1..], f);
      SumIntAppend(b[..i], [x], f);
      SumIntAppend(b[..i], b[i + 1..], f);
      assert SumInt([x], f) == f(x) by {
        assert [x][..0] == [];
      }
    }
  }

  lemma {:induction false} SumByAppend<T>(a: seq<T>, b: seq<T>, f: T -> real)
    ensures SumBy(a + b, f) == SumBy(a, f) + SumBy(b, f)
  {
    if b == [] {
      assert a + b == a;
    } else {
      assert (a + b)[..|a + b| - 1] == a + b[..|b| - 1];
      SumByAppend(a, b[..|b| - 1], f);
    }
  }

  /** Reordering does not change a sum. */
  lemma {:induction false} SumByPermutation<T>(a: seq<T>, b: seq<T>, f: T -> real)
    requires multiset(a) == multiset(b)
    ensures SumBy(a, f) == SumBy(b, f)
    decreases |a|
  {
    if a == [] {
      assert |b| == |multiset(b)| == 0;
    } else {
      var x := a[0];
      assert x in multiset(b);
      var i :| 0 <= i < |b| && b[i] == x;
      var rest := b[..i] + b[i + 1..];
      assert b == b[..i] + [x] + b[i + 1..];
      assert a == [x] + a[1..];
      calc {
        multiset(b);
        multiset(b[..i] + [x] + b[i + 1..]);
        multiset(b[..i]) + multiset{x} + multiset(b[i + 1..]);
        multiset(rest) + multiset{x};
      }
      assert multiset(a) == multiset(a[1..]) + multiset{x};
      assert multiset(a[1..]) == multiset(a) - multiset{x};
      assert multiset(rest) == multiset(b) - multiset{x};
      SumByPermutation(a[1..], rest, f);
      SumByAppend([x], a[1..], f);
      SumByAppend(b[..i] + [x], b[i + 1..], f);
      SumByAppend(b[..i], [x], f);
      SumByAppend(b[..i], b[i + 1..], f);
      assert SumBy([x], f) == f(x) by {
        assert [x][..0] == [];
      }
    }
  }

  /** `s.map(f)` for a real-valued `f`. */
  function MapSeq<T>(s: seq<T>, f: T -> real): (r: seq<real>)
    ensures |r| == |s|
    ensures forall i :: 0 <= i < |s| ==> r[i] == f(s[i])
  {
    if s == [] then [] else MapSeq(s[..|s| - 1], f) + [f(s[|s| - 1])]
  }

  /** Summing the mapped values is summing `f`. */
  lemma {:induction false} SumMapSeq<T>(s: seq<T>, f: T -> real)
    ensures Sum(MapSeq(s, f)) == SumBy(s, f)
  {
    if s != [] {
      var r := MapSeq(s, f);
      assert r[..|r| - 1] == MapSeq(s[..|s| - 1], f);
      SumMapSeq(s[..|s| - 1], f);
    }
  }

  /** In a sequence without duplicates every element occurs once. */
  lemma {:induction false} NoDupCount<T>(s: seq<T>, x: T)
    requires NoDup(s)
    ensures multiset(s)[x] == if x in s then 1 else 0
  {
    if s != [] {
      var init, last := s[..|s| - 1], s[|s| - 1];
      assert s == init + [last];
      assert NoDup(init) by {
        forall i, j | 0 <= i < j < |init| ensures init[i] != init[j] {
          assert init[i] == s[i] && init[j] == s[j];
        }
      }
      NoDupCount(init, x);
      if last == x {
        assert x !in init by {
          forall i | 0 <= i < |init| ensures init[i] != x {
            assert init[i] == s[i];
          }
        }
      }
    }
  }

  /** Two duplicate-free sequences with the same elements are permutations of each other. */
  lemma SameElementsPermutation<T>(a: seq<T>, b: seq<T>)
    requires NoDup(a) && NoDup(b)
    requires forall x :: x in a <==> x in b
    ensures multiset(a) == multiset(b)
  {
    forall x ensures multiset(a)[x] == multiset(b)[x] {
      NoDupCount(a, x);
      NoDupCount(b, x);
    }
  }
}

=== FILE: sorting.dfy ===
/** The stable `Array.prototype.sort` the source calls with a numeric
    comparator `(a, b) => key(a) - key(b)`, written as insertion sort. */
module Sorting {
  import opened Seqs

  /** Non-decreasing in `key`. */
  predicate SortedBy<T>(s: seq<T>, key: T -> real)
  {
    forall i, j :: 0 <= i < j < |s| ==> key(s[i]) <= key(s[j])
  }

  /** `x` placed before the first element whose key is not smaller. */
  function Insert<T>(x: T, s: seq<T>, key: T -> real): (r: seq<T>)
    ensures multiset(r) == multiset(s) + multiset{x}
    ensures SortedBy(s, key) ==> SortedBy(r, key)
  {
    if s == [] || key(x) <= key(s[0]) then [x] + s
    else
      var rest := Insert(x, s[1..], key);
      InsertBehind(x, s, key, rest);
      [s[0]] + rest
  }

  /** Keeping the head in front of the insertion into the tail keeps the elements and
      the order. */
  lemma InsertBehind<T>(x: T, s: seq<T>, key: T -> real, rest: seq<T>)
    requires s != [] && key(s[0]) < key(x)
    requires multiset(rest) == multiset(s[1..]) + multiset{x}
    requires SortedBy(s[1..], key) ==> SortedBy(rest, key)
    ensures multiset([s[0]] + rest) == multiset(s) + multiset{x}
    ensures SortedBy(s, key) ==> SortedBy([s[0]] + rest, key)
  {
    assert s == [s[0]] + s[1..];
    if SortedBy(s, key) {
      assert SortedBy(s[1..], key) by {
        forall i, j | 0 <= i < j < |s[1..]| ensures key(s[1..][i]) <= key(s[1..][j]) {
          assert s[1..][i] == s[i + 1] && s[1..][j] == s[j + 1];
        }
      }
      forall j | 0 <= j < |rest| ensures key(s[0]) <= key(rest[j]) {
        assert rest[j] in multiset(rest);
        if rest[j] != x {
          assert rest[j] in s[1..];
        }
      }
      var r := [s[0]] + rest;
      forall i, j | 0 <= i < j < |r| ensures key(r[i]) <= key(r[j]) {
        if i > 0 {
          assert r[i] == rest[i - 1] && r[j] == rest[j - 1];
        }
      }
    }
  }

  /** Stable sort by ascending `key`. */
  function SortBy<T>(s: seq<T>, key: T -> real): (r: seq<T>)
    ensures multiset(r) == multiset(s)
    ensures |r| == |s|
    ensures SortedBy(r, key)
  {
    if s == [] then []
    else
      assert s == [s[0]] + s[1..];
      var r := Insert(s[0], SortBy(s[1..], key), key);
      assert |r| == |multiset(r)|;
      r
  }

  /** The elements of `s` whose key equals `v`, in their order in `s`. */
  function WithKey<T>(s: seq<T>, key: T -> real, v: real): seq<T>
  {
    if s == [] then []
    else (if key(s[0]) == v then [s[0]] else []) + WithKey(s[1..], key, v)
  }

  lemma {:induction false} InsertStable<T>(x: T, s: seq<T>, key: T -> real, v: real)
    ensures WithKey(Insert(x, s, key), key, v)
         == (if key(x) == v then [x] else []) + WithKey(s, key, v)
    decreases |s|
  {
    var head := if key(x) == v then [x] else [];
    if s == [] || key(x) <= key(s[0]) {
      assert ([x] + s)[1..] == s;
    } else {
      var rest := Insert(x, s[1..], key);
      var s0 := if key(s[0]) == v then [s[0]] else [];
      var tail := WithKey(s[1..], key, v);
      calc {
        WithKey(Insert(x, s, key), key, v);
        WithKey([s[0]] + rest, key, v);
        { assert ([s[0]] + rest)[1..] == rest; }
        s0 + WithKey(rest, key, v);
        { InsertStable(x, s[1..], key, v); }
        s0 + (head + tail);
        { assert head == [] || s0 == []; }
        head + (s0 + tail);
        head + WithKey(s, key, v);
      }
    }
  }

  /** Stability: elements with equal keys keep their relative order. */
  lemma {:induction false} SortStable<T>(s: seq<T>, key: T -> real, v: real)
    ensures WithKey(SortBy(s, key), key, v) == WithKey(s, key, v)
  {
    if s != [] {
      SortStable(s[1..], key, v);
      InsertStable(s[0], SortBy(s[1..], key), key, v);
    }
  }

  lemma {:induction false} WithKeyAppend<T>(a: seq<T>, b: seq<T>, key: T -> real, v: real)
    ensures WithKey(a + b, key, v) == WithKey(a, key, v) + WithKey(b, key, v)
    decreases |a|
  {
    if a == [] {
      assert a + b == b;
    } else {
      var head := if key(a[0]) == v then [a[0]] else [];
      var x, y := WithKey(a[1..], key, v), WithKey(b, key, v);
      assert WithKey(a + b, key, v) == head + WithKey(a[1..] + b, key, v) by {
        assert (a + b)[0] == a[0];
        assert (a + b)[1..] == a[1..] + b;
      }
      WithKeyAppend(a[1..], b, key, v);
      assert head + (x + y) == (head + x) + y;
    }
  }

  lemma WithKeySingle<T>(x: T, key: T -> real, v: real)
    ensures WithKey([x], key, v) == if key(x) == v then [x] else []
  {
    assert [x][1..] == [];
  }

  /** Cutting a sequence short keeps, of each key, the elements that came first. */
  lemma WithKeyPrefix<T>(s: seq<T>, key: T -> real, v: real, k: nat)
    requires k <= |s|
    ensures WithKey(s[..k], key, v) <= WithKey(s, key, v)
  {
    assert s == s[..k] + s[k..];
    WithKeyAppend(s[..k], s[k..], key, v);
  }

  /** The first `k` elements of a sorted sequence are its `k` smallest:
      anything with a strictly smaller key than a chosen element is chosen. */
  lemma PrefixIsLeast<T>(s: seq<T>, key: T -> real, k: nat, x: T, y: T)
    requires SortedBy(s, key)
    requires k <= |s|
    requires x in s[..k] && y in s
    requires key(y) < key(x)
    ensures y in s[..k]
  {
    var i :| 0 <= i < k && s[i] == x;
    var j :| 0 <= j < |s| && s[j] == y;
    assert j < i;
    assert s[..k][j] == y;
  }

  /** `x` added to an ascending duplicate-free sequence, unless already there. */
  function InsertSorted(x: int, s: seq<int>): (r: seq<int>)
    requires StrictlyIncreasing(s)
    ensures StrictlyIncreasing(r)
    ensures forall y :: y in r <==> y == x || y in s
  {
    if s == [] then [x]
    else if x < s[0] then [x] + s
    else if x == s[0] then s
    else
      var rest := InsertSorted(x, s[1..]);
      assert forall y :: y in s <==> y == s[0] || y in s[1..];
      assert forall j :: 0 <= j < |rest| ==> s[0] < rest[j] by {
        forall j | 0 <= j < |rest| ensures s[0] < rest[j] {
          assert rest[j] in rest;
        }
      }
      [s[0]] + rest
  }

  /** `[...new Set(s)].sort()` on keys that sort in numeric order: the distinct
      elements of `s`, ascending. */
  function SortedSet(s: seq<int>): (r: seq<int>)
    ensures StrictlyIncreasing(r)
    ensures forall y :: y in r <==> y in s
  {
    if s == [] then []
    else
      var init := s[..|s| - 1];
      assert forall y :: y in s <==> y in init || y == s[|s| - 1];
      InsertSorted(s[|s| - 1], SortedSet(init))
  }

  /** An ascending duplicate-free sequence is determined by its elements. */
  lemma {:induction false} AscendingUnique(a: seq<int>, b: seq<int>)
    requires StrictlyIncreasing(a) && StrictlyIncreasing(b)
    requires forall y :: y in a <==> y in b
    ensures a == b
  {
    StrictlyIncreasingNoDup(a);
    StrictlyIncreasingNoDup(b);
    forall x ensures x in a <==> x in b { }
    SameElementsPermutation(a, b);
    assert |a| == |multiset(a)| == |multiset(b)| == |b|;
    if a != [] {
      assert a[0] in b && b[0] in a;
      assert a[0] == b[0];
      forall y ensures y in a[1..] <==> y in b[1..] {
        assert y in a[1..] <==> y in a && y != a[0];
        assert y in b[1..] <==> y in b && y != b[0];
      }
      AscendingUnique(a[1..], b[1..]);
      assert a == [a[0]] + a[1..] && b == [b[0]] + b[1..];
    }
  }
}
